=== FILE: README.md ===
# VirtualLab quiz platform — a Dafny model of its core

VirtualLab is a teaching platform. Faculty create experiments, each one a YouTube video with an explanation. They attach quizzes to experiments and upload student rosters. Students take each quiz once and can chat with an AI tutor about an experiment.

This project models the platform's core as pure functions over immutable values:

- **Server routes** (Express): creating quizzes; adding questions one at a time or as a validated, transactional batch; AI question generation; submitting and listing attempts; creating, updating and deleting experiments; the AI explanation and chat helpers; the bulk student upload.
- **Client logic** (React): the roster CSV parser, the quiz builder's option editor and its guards, and the quiz page's answer map, submit body and screen choice.

The SQLite tables are sequences and maps of rows. The failures the model covers are explicit parameters: a failing write (including each database call of the submit route), a failing COMMIT, a missing API key, a failed AI call. Failures that follow from the data, such as a `NOT NULL` column receiving null, are computed from the request. So each of these error branches is a value the contracts talk about. Other failed reads (the SELECTs that look rows up) and a failed ROLLBACK are not modelled; "Left out" lists them.

Modules, in dependency order:

- `Wrappers`: `Option` and `Result`.
- `Text`: the JavaScript string built-ins the code relies on: `trim`, `split`, `join`, `toLowerCase`, `indexOf`, `lastIndexOf`, `parseInt` and number-to-string.
- `JsNumbers`: `Number()` of a string, after the StringNumericLiteral grammar of section 7.1.4.1 of ECMA-262 (decimal with fraction and exponent, `0x`/`0o`/`0b` literals, signed `Infinity`).
- `Js`: a JSON value type with JavaScript truthiness, nullishness, `String()`, `Number()`, the `<` and `>` comparisons with a number, property access, `||` and `??`.
- `QuestionValidation`: the validator shared by the batch route (`Batch` policy: two or more options) and the AI route (`Generated` policy: exactly four options). It reports the exact error messages, in order, and sanitises well-formed items.
- `QuestionStore`: the `quizzes`, `questions` and `options` tables and the insert statements.
- `QuizRoutes`: the quiz routes other than submit.
- `Grading`: the submit and attempts routes.
- `BulkUpload` and `CsvImport`: the roster upload route and the client's CSV parser.
- `Experiments` and `AiRoutes`: the experiment routes and the AI helpers they call.
- `QuizBuilder` and `QuizPage`: the two client pages.

Several behaviours of the code are modelled as written and stated as lemmas:

- `QuizRoutes.PartialWriteOnFailure` and `QuizRoutes.StrandedQuestion`: the single-question route has no transaction. A failing option insert leaves the question row behind with fewer options than were sent, possibly none.
- `QuizRoutes.CheckOrderDiffers`: the single and batch routes check shape and ownership in opposite orders, so one request can get 400 from one route and 403 from the other.
- `QuizRoutes.CountRequestLetsNaNThrough`: a `num_questions` whose number is `NaN` (for example `"many"`) passes the 1..20 range check. Numeric strings such as `"1e3"`, `"0x15"` or `"20.5"` are compared by their value and refused (`QuizRoutes.CountRequestRefusesNumericStrings`).
- `QuizRoutes.CreatedQuizOwnership`: creating a quiz does not check the experiment. The quiz belongs to the experiment's owner, so its creator may be unable to add questions to it.
- `CsvImport.NoRecordsGuardUnreachable`: the client's "No valid student records found" branch can never fire.
- `Experiments.ManualChoicesDiffer`: POST accepts any truthy explanation and converts it with `String()`. PUT accepts only strings.

## Model

| member | source | states |
|---|---|---|
| QuestionValidation.Review | server/routes/quizzes.js:57-92 | A batch is accepted iff every item is well formed. Then each item yields its sanitised question: trimmed prompt, trimmed option texts, flags kept, exactly one correct, two or more options (four under the AI policy). Otherwise the rejections name exactly the malformed items, in increasing index order, each with a non-empty issue list. |
| QuestionValidation.ScanItemMeetsRules | server/routes/quizzes.js:57-88 | The item scan reports no issue exactly when the item meets the stated rules, and its clean output is then the sanitised question. |
| QuestionValidation.ScanOptionsOneCorrect | server/routes/quizzes.js:80-85 | The scan counts exactly one correct option iff exactly one option has `is_correct === true`. |
| QuestionValidation.SanitizedUnique | server/routes/quizzes.js:57-88 | A well-formed item has only one sanitised form. |
| QuestionValidation.CleanDraftWellFormed | server/routes/quizzes.js:372-430 | A sanitised question rendered back to JSON is well formed for the batch route and sanitises to itself. |
| QuestionValidation.ConfirmedDraftsAccepted | server/routes/quizzes.js:57-92 | Re-submitting AI drafts to the batch validator accepts them unchanged. |
| QuestionStore.InsertQuestion | server/routes/quizzes.js:158-170 | Appends exactly one question row, keeps every option attached to an existing question, and leaves quizzes and owners alone. |
| QuestionStore.InsertQuestionOptions | server/routes/quizzes.js:158-170 | The new question's options are exactly the given ones, in order, and no other question's options change. |
| QuestionStore.InsertBatchRows | server/routes/quizzes.js:94-108 | The batch appends one question row per item, in order, keeps every option attached to a question, and leaves quizzes and owners alone. |
| QuestionStore.InsertBatchOptions | server/routes/quizzes.js:97-107 | Item i's question gets exactly item i's options, in order. |
| QuestionStore.InsertBatchKeeps | server/routes/quizzes.js:94-108 | Questions that existed before the batch keep exactly their options. |
| QuestionStore.InsertBatchPlayable | server/routes/quizzes.js:94-108 | Every clean item written becomes a question with at least two options and exactly one correct. |
| QuizRoutes.CreateQuiz | server/routes/quizzes.js:11-28 | 201 iff both experiment id and title are truthy; then the reply carries the next row id and the request's fields, exactly one quiz row holding them is appended, and no other table changes. Otherwise 400 and nothing changes. |
| QuizRoutes.CreatedQuizOwnership | server/routes/quizzes.js:11-55 | The creator may add questions to the new quiz, through its rendered id, iff the experiment id is a number naming one of the creator's own experiments. |
| QuizRoutes.QuizIdOf | server/routes/quizzes.js:39-42 | The path id is accepted iff `parseInt` yields a non-zero integer. |
| QuizRoutes.QuizIdOfRendered | server/routes/quizzes.js:39-42 | An id written in decimal and followed by anything is read back as that id. |
| QuizRoutes.Authorise | server/routes/quizzes.js:39-55 | Succeeds iff the id parses and the quiz's experiment belongs to the caller. Otherwise 400, 404 or 403 in that order. |
| QuizRoutes.BatchGate | server/routes/quizzes.js:31-92 | 400 for a missing or empty array. Passes iff the array is non-empty, the caller owns the quiz and the validator accepts every item, yielding the sanitised items. |
| QuizRoutes.Commit | server/routes/quizzes.js:94-120 | 201 iff BEGIN, every write and COMMIT succeed, and then exactly the batch insert is applied. Any failure answers 500 and leaves the tables as they were (rollback). |
| QuizRoutes.BatchAtomic | server/routes/quizzes.js:94-120 | The tables change only on 201. Then one question per item is appended, every new question is playable and old questions keep their options. |
| QuizRoutes.BatchCreatedIff | server/routes/quizzes.js:31-120 | 201 iff the caller owns the quiz, the validator accepts and the transaction does not fail. |
| QuizRoutes.BatchRejects | server/routes/quizzes.js:90-92 | An owned quiz with malformed items answers 400 with the validator's rejections and writes nothing. |
| QuizRoutes.WrittenOptions | server/routes/quizzes.js:160-169 | Counts the options inserted before the loop stops: at the first option with no text, which the `option_text NOT NULL` column rejects, or at the first failing insert. |
| QuizRoutes.WriteSingle | server/routes/quizzes.js:158-174 | 201 iff the question insert and every option insert succeed, giving the full question. Otherwise 500, with exactly the rows written before the failure kept. |
| QuizRoutes.AddQuestion | server/routes/quizzes.js:126-174 | The shape check (400) comes first. No write happens unless every check passes. When they do, the outcome is the write sequence's. |
| QuizRoutes.AddedQuestionPlayable | server/routes/quizzes.js:134-170 | A 201 from the single-question route leaves a playable question: at least two options, exactly one truthy-correct. |
| QuizRoutes.SameCorrectCount | server/routes/quizzes.js:134-137 | The stored rows have as many correct flags as the request had truthy `is_correct` values. |
| QuizRoutes.PartialWriteOnFailure | server/routes/quizzes.js:158-174 | A failing option insert answers 500 yet leaves the question row with fewer options than sent. |
| QuizRoutes.StrandedQuestion | server/routes/quizzes.js:158-174 | A failure at the first option insert leaves a question with no options, which cannot be played. |
| QuizRoutes.CheckOrderDiffers | server/routes/quizzes.js:31-55 | For a non-owner sending an empty option list and the question list `[null]`, the single route answers 400 and the batch route 403. |
| QuizRoutes.CountRequestRange | server/routes/quizzes.js:272-274 | For a numeric `num_questions` the range check passes iff it lies in 1..20. |
| QuizRoutes.CountRequestLetsNaNThrough | server/routes/quizzes.js:272-274 | A truthy value whose number is `NaN` passes the range check. |
| QuizRoutes.CountRequestAllowedIff | server/routes/quizzes.js:272-274 | A value passes iff it is truthy and its number is `NaN` or lies between 1 and 20; the infinities never pass. |
| QuizRoutes.CountRequestRefusesNumericStrings | server/routes/quizzes.js:272-274 | The strings "1e3", "0x15", "0.5", "20.5" and "Infinity" are refused. |
| QuizRoutes.CountRequestPassesStrings | server/routes/quizzes.js:272-274 | The strings "2e1", " 7 " and "many" pass. |
| JsNumbers.StringToNumberOfIntToString | server/routes/quizzes.js:272-274 | The decimal rendering of an integer converts back to that integer. |
| JsNumbers.PaddingIgnored | server/routes/quizzes.js:272-274 | White space around a string does not change its number. |
| JsNumbers.FractionExact | server/routes/quizzes.js:272-274 | `ip.fp` reads as the digits of both parts over ten to the number of fraction digits. |
| JsNumbers.ExponentExact | server/routes/quizzes.js:272-274 | `ip e ex` reads as the digits scaled by ten to the exponent. |
| JsNumbers.NumericForms | server/routes/quizzes.js:272-274 | "1e3" is 1000, "2e1" is 20, "0x15" is 21, "0.5" and "20.5" are themselves, and "Infinity" is infinite. |
| JsNumbers.MalformedForms | server/routes/quizzes.js:272-274 | A signed hex literal and an exponent without digits are `NaN`. |
| QuizRoutes.ExperimentIdOf | server/routes/quizzes.js:277-280 | The experiment id is a non-zero integer taken as is from a number, or parsed from its string form. |
| QuizRoutes.BracketSpanIff | server/routes/quizzes.js:350-358 | There is a `[` before a later `]` iff the first `[` comes before the last `]`. |
| QuizRoutes.ExtractJsonTextSpec | server/routes/quizzes.js:350-358 | With such a span, the extract runs from the first `[` to the last `]`. Without one, the content is kept whole. |
| QuizRoutes.ExtractFromWrapped | server/routes/quizzes.js:350-358 | A bracketed span surrounded by bracket-free text is extracted exactly. |
| QuizRoutes.GenerateGate | server/routes/quizzes.js:268-295 | The count check runs first. The request passes iff the count is allowed, a key is configured and the experiment id names an existing experiment. |
| QuizRoutes.DraftsFrom | server/routes/quizzes.js:360-432 | A non-empty parsed array answers 200 iff every item is well formed under the four-option policy, and then returns the sanitised drafts. |
| QuizRoutes.GenerateQuestions | server/routes/quizzes.js:268-437 | 200 iff the gate passes, the AI call succeeds and its extracted text parses to a non-empty array of items all well formed under the four-option policy; the reply then holds the validator's sanitised drafts. Unparsable text answers 500 "Failed to parse AI response". Gate errors are answered first. |
| QuizRoutes.GenerateThenConfirm | server/routes/quizzes.js:31-437 | The drafts of a 200 reply, confirmed unedited by the quiz's owner with no fault, are all created as playable questions. |
| QuizRoutes.ConfirmBodyAccepted | client/src/pages/QuizBuilder.jsx:137-143 | The confirm request for clean drafts passes the batch route's review, which recovers exactly those drafts. |
| QuizRoutes.GeneratedDraftsStored | server/routes/quizzes.js:31-120 | Drafts the AI route returned, confirmed by the quiz owner with no faults, are stored as that many playable questions. |
| Grading.OptionKeySpec | server/routes/quizzes.js:215-220 | An answer counts iff its option id is a number naming a stored option, or a boolean whose bound value (1 for true, 0 for false) names one. |
| Grading.BooleanOptionMatches | server/routes/quizzes.js:215-226 | An option id of `true` scores exactly when option 1 is stored and correct, and writes a row naming option 1. |
| Grading.Grade | server/routes/quizzes.js:215-227 | Every answer row written records the stored flag of its option and a present question id. The score is the number of correct rows. The loop throws iff some answer is nullish or names a stored option without a question id (the `NOT NULL` column of server/db.js). |
| Grading.GradeCountsScoringAnswers | server/routes/quizzes.js:215-229 | When no answer fails, the score equals the number of answers naming an option flagged correct. |
| Grading.QuestionIdIrrelevant | server/routes/quizzes.js:215-227 | Two answer lists that agree on nullishness, option ids and which question ids are present score alike: the values of the question ids do not matter. |
| Grading.MissingQuestionIdThrows | server/routes/quizzes.js:215-227 | An answer naming a stored option with a missing or null question id makes the submission fail. |
| Grading.UnknownOptionsSkipped | server/routes/quizzes.js:217-220 | Answers naming no stored option write nothing and score nothing. |
| Grading.GradeLoop | server/routes/quizzes.js:215-227 | The route's loop, which stops at the first throw, computes the same tally as the recursive definition. |
| Grading.ThrowSticks | server/routes/quizzes.js:215-227 | Once the loop has thrown, later answers change nothing. |
| Grading.Submit | server/routes/quizzes.js:200-240 | 400 without an answers array. A failed attempt INSERT answers 500 and writes nothing. Otherwise the attempt row is added. It holds the score exactly on a 200; a throw, a failed call for some answer or a failed score UPDATE answers 500, leaving a null score and the answer rows written before the failure. |
| Grading.AnswerFaultKeepsPrefix | server/routes/quizzes.js:215-227 | A failed call for answer k answers 500, keeps the attempt row with a null score, and keeps exactly the rows of the answers before k. |
| Grading.ScoreFaultKeepsRows | server/routes/quizzes.js:229-234 | A failed score UPDATE answers 500 with every answer row of a fault-free run written and the score left null. |
| Grading.SubmitScore | server/routes/quizzes.js:229-233 | A 200 means no write failed, and reports the number of answers naming a correct option, out of all answers. |
| Grading.AttemptsFor | server/routes/quizzes.js:243-253 | Lists exactly the caller's attempts at this quiz, each as often as it is stored, in descending timestamp order. |
| Grading.InsertDescending | server/routes/quizzes.js:246 | Adding a row to a descending listing keeps it descending and adds exactly that row; the row goes first iff no listed row is more recent. |
| Grading.AttemptsForCount | server/routes/quizzes.js:243-253 | The listing has exactly as many rows as the selection. |
| Grading.SubmitThenList | server/routes/quizzes.js:200-253 | After a submission whose attempt row was inserted, the caller's listing is non-empty and its first row is no older than the submission. It starts with that attempt when every earlier attempt is strictly older. A failed attempt INSERT leaves the tables as they were. |
| BulkUpload.PasswordChoice | server/routes/bulk-upload.js:42-44 | A given password is used iff it is truthy and its trimmed `String()` form has at least eight UTF-16 units; it is used trimmed. Otherwise a random one. |
| BulkUpload.LongPasswordKept | server/routes/bulk-upload.js:42-44 | A string without surrounding white space and at least eight UTF-16 units is used exactly as given. |
| BulkUpload.PasswordPaddingIgnored | server/routes/bulk-upload.js:42-44 | Surrounding white space never changes the choice. |
| BulkUpload.FourEmojiPassword | server/routes/bulk-upload.js:42-44 | Four emoji count as eight units and are used. |
| Text.Utf16LengthAppend | server/routes/bulk-upload.js:42 | `.length` of a concatenation is the sum of the parts' lengths. |
| Text.Utf16LengthBmp | server/routes/bulk-upload.js:42 | Within the Basic Multilingual Plane `.length` is the number of characters. |
| BulkUpload.Decide | server/routes/bulk-upload.js:23-69 | Missing fields or an existing email fail the row without a write. Otherwise the user is created and an invite recorded, unless a write fault makes the row fail. |
| BulkUpload.RunAccounts | server/routes/bulk-upload.js:23-69 | After the loop, successes plus failures equal the rows. There is one invite per success and one error per failure, and the earlier users are a prefix of the result. |
| BulkUpload.RunComposes | server/routes/bulk-upload.js:23-69 | Running two batches one after the other equals running their concatenation. |
| BulkUpload.UsersGrow | server/routes/bulk-upload.js:47-62 | Each created user carries the email of its row. |
| BulkUpload.DuplicateInBatch | server/routes/bulk-upload.js:34-38 | A repeated email in one upload fails at its second occurrence. |
| BulkUpload.FirstTen | server/routes/bulk-upload.js:77-83 | The response lists the messages of the first ten errors, in order. |
| BulkUpload.Upload | server/routes/bulk-upload.js:10-87 | 400 for a missing or empty array. Otherwise the loop's outcome, the upload log row and the summary. A failing log insert answers 500 but keeps the users already written. |
| BulkUpload.UploadSummary | server/routes/bulk-upload.js:77-83 | The summary adds up, has one invite per success and at most ten errors, and no email belongs to two users. |
| CsvImport.IndexOf | client/src/pages/BulkUploadStudents.jsx:32-34 | `indexOf` finds the first occurrence, or reports absence. |
| CsvImport.FindColumns | client/src/pages/BulkUploadStudents.jsx:30-37 | The header is accepted iff it names all three columns (trimmed, lower-cased), each found at its first occurrence. |
| CsvImport.Record | client/src/pages/BulkUploadStudents.jsx:40-49 | A data line becomes an object whose three fields are the trimmed cells at the found columns, or undefined past the line's end. |
| CsvImport.RecordsOf | client/src/pages/BulkUploadStudents.jsx:40-49 | Blank lines are skipped and every other line gives one record, in order. |
| CsvImport.ParseCsv | client/src/pages/BulkUploadStudents.jsx:24-52 | Fewer than two lines or a missing column is an error with the source's message. Otherwise the records of the data lines. |
| CsvImport.ParsedNonEmpty | client/src/pages/BulkUploadStudents.jsx:24-52 | A successful parse always yields at least one record. |
| CsvImport.HandleSubmit | client/src/pages/BulkUploadStudents.jsx:54-71 | Blank text is refused. A request is sent iff the text parses to at least one record, and it carries exactly those records. |
| CsvImport.NoRecordsGuardUnreachable | client/src/pages/BulkUploadStudents.jsx:54-71 | The "no valid records" refusal can never happen. |
| CsvImport.RenderParse | client/src/pages/BulkUploadStudents.jsx:24-52 | A roster written as `name,email,password` lines with plain cells parses back to one record per row, in order, holding exactly that row's cells. |
| Experiments.CreateManual | server/routes/experiments.js:16-22 | POST uses a manual explanation iff it is truthy and its `String()` form is not blank; it is stored trimmed. |
| Experiments.UpdateManual | server/routes/experiments.js:73-75 | PUT uses a manual explanation iff it is a non-blank string; it is stored trimmed. |
| Experiments.ManualChoicesAgreeOnStrings | server/routes/experiments.js:16-75 | On string explanations the two routes choose alike. |
| Experiments.ManualChoicesDiffer | server/routes/experiments.js:16-75 | On `true`, POST stores "true" while PUT ignores it. |
| Experiments.Create | server/routes/experiments.js:8-35 | 201 iff name and URL are truthy, the insert succeeds and there is a usable manual explanation or the generator returns one. Then the reply and the single new row, at the next id, carry the chosen explanation. A 500 leaves the store alone; otherwise 400. |
| Experiments.CreateAdds | server/routes/experiments.js:24-31 | On 201 the new id is fresh, exactly that id is added, other rows are unchanged and the row holds the request's fields. |
| Experiments.CreateUsesManual | server/routes/experiments.js:16-22 | With a usable manual explanation, the generator is never consulted. |
| Experiments.CreateGenerates | server/routes/experiments.js:16-22 | Without a usable manual explanation, what the generator returns for the request's URL is stored, and a throwing generator answers 500 and stores nothing. |
| Experiments.UpdateExplanation | server/routes/experiments.js:69-79 | A manual explanation first. Otherwise regenerate only when a truthy URL differs from the stored one. Otherwise keep the stored text. |
| Experiments.Update | server/routes/experiments.js:59-90 | 404 for an unknown id, 403 for another's experiment, no change unless 200, ids preserved, other rows unchanged. |
| Experiments.UpdateOwnerOnly | server/routes/experiments.js:64-67 | The store changes only when the owner updates and gets 200. |
| Experiments.UpdateMerges | server/routes/experiments.js:81-86 | Missing name or URL keep the stored values, and the owner never changes. |
| Experiments.UpdateRegenerates | server/routes/experiments.js:69-79 | The generator matters only when no manual text is given and the URL changes. |
| Experiments.UpdateIdempotent | server/routes/experiments.js:59-90 | Repeating a successful update leaves the store as the first one did. |
| Experiments.Delete | server/routes/experiments.js:92-106 | 404, 403, or deletion exactly of that row when the owner asks and the write succeeds. |
| Experiments.CreateThenDelete | server/routes/experiments.js:8-106 | Deleting a just-created experiment restores the rows; ids are not reused. |
| AiRoutes.IdRun | server/routes/ai.js:72 | The captured id is the longest run of characters other than `&`, line feed, `?` and `#`. |
| AiRoutes.FirstMatch | server/routes/ai.js:72-73 | The regex matches at the leftmost position where a marker is followed by at least one id character. |
| AiRoutes.ExtractVideoId | server/routes/ai.js:71-75 | Null iff no marker is followed by an id character. Otherwise a non-empty id free of separators. |
| AiRoutes.ExtractVideoIdSpec | server/routes/ai.js:71-75 | The id is the maximal run after the leftmost matching marker. |
| AiRoutes.MarkedId | server/routes/ai.js:71-75 | Text without `y`, then a marker, an id and a separator-led rest yields exactly that id. |
| AiRoutes.ShortLinkRoundTrip | server/routes/ai.js:77-80 | The short link built for an id extracts back to that id. |
| AiRoutes.LinkIdempotent | server/routes/ai.js:77-80 | Rewriting the link a second time changes nothing. |
| AiRoutes.FallbackSameVideo | server/routes/ai.js:77-80 | The fallback text for a URL and for its short link are the same. |
| AiRoutes.GenerateExplanation | server/routes/ai.js:11-53 | No key gives the fallback. No transcript gives the fixed "could not fetch" text. An AI failure gives the fallback, and otherwise the AI content. |
| AiRoutes.StringUrlNeverThrows | server/routes/ai.js:11-53 | With a string URL the helper never throws. |
| AiRoutes.Chat | server/routes/ai.js:83-139 | The guards run in order 400, 500 (no key), 404. An answer is given iff all succeed, and the chat row is stored only then. |
| AiRoutes.ChatLogsOneExchange | server/routes/ai.js:83-139 | An answered chat appends exactly one row, the sender's, after the existing ones; any other outcome leaves the log alone. No other student's history changes. |
| AiRoutes.ChatValidatesFirst | server/routes/ai.js:85-89 | A request missing its experiment id or message is refused with 400 whatever the key, the lookup and the model would do. |
| QuizBuilder.CorrectCountOnly | client/src/pages/QuizBuilder.jsx:51 | With exactly one option marked, the count of correct options is one. |
| QuizBuilder.EditText | client/src/pages/QuizBuilder.jsx:86-94 | Editing replaces only that option's text, and an out-of-range index does nothing. |
| QuizBuilder.AddOption | client/src/pages/QuizBuilder.jsx:96-98 | Appends one blank, unmarked option. |
| QuizBuilder.RemoveOption | client/src/pages/QuizBuilder.jsx:100-104 | Removes the option only while more than two remain, so two always stay. |
| QuizBuilder.MarkCorrect | client/src/pages/QuizBuilder.jsx:364-370 | The radio marks exactly the chosen option and keeps all texts. |
| QuizBuilder.MarkCorrectExactlyOne | client/src/pages/QuizBuilder.jsx:364-370 | After choosing an in-range option, exactly one is correct. |
| QuizBuilder.MarkCorrectCount | client/src/pages/QuizBuilder.jsx:166-172 | The radio leaves one option correct when it names one, and none otherwise. |
| QuizBuilder.ReplayKeepsTwo | client/src/pages/QuizBuilder.jsx:14-17 | Any sequence of edits starting from two or more options keeps at least two. |
| QuizBuilder.FormKeepsTwo | client/src/pages/QuizBuilder.jsx:14-17 | Starting from the initial form, every edit sequence keeps at least two options. |
| QuizBuilder.AddQuestionGuard | client/src/pages/QuizBuilder.jsx:44-60 | A request is sent iff a quiz exists, exactly one option is correct and every option has text. Otherwise the first failing check's message: "Create a quiz first", "Exactly one option must be marked as correct", "All options must have text". |
| QuizBuilder.FormBodyPassesServerChecks | client/src/pages/QuizBuilder.jsx:64-72 | A request the form sends passes the server's option-count and single-correct checks. |
| QuizBuilder.QuestionCountInput | client/src/pages/QuizBuilder.jsx:247 | The count field is never zero: unparsable or zero input becomes 5. |
| QuizBuilder.GenerateGuard | client/src/pages/QuizBuilder.jsx:106-114 | Generation is requested iff a quiz exists and the count lies in 1..20. Otherwise "Missing quiz id" or "Enter a number between 1 and 20", in that order. |
| QuizBuilder.GenerateGuardMatchesServer | client/src/pages/QuizBuilder.jsx:106-114 | For a numeric count, the client's check agrees with the server's. |
| QuizBuilder.RemoveAiQuestion | client/src/pages/QuizBuilder.jsx:156-158 | Removes exactly the chosen draft and keeps the others in order. |
| QuizBuilder.UpdateAiQuestion | client/src/pages/QuizBuilder.jsx:160-175 | `question` replaces the prompt, `option-k` the text of option k, `correct-k` marks option k alone (none when k names no option). An index with no draft, or an `option-k` whose k names no option, throws. Only the chosen draft changes; other field names change nothing. |
| QuizBuilder.ChooseAiCorrect | client/src/pages/QuizBuilder.jsx:166-172 | A `correct-k` edit leaves exactly option k marked. |
| QuizBuilder.TypeAiOption | client/src/pages/QuizBuilder.jsx:163-165 | An `option-k` edit sets option k's text only. |
| QuizPage.Lookup | client/src/pages/QuizPage.jsx:73-78 | A question has an answer iff it is among the map's keys. |
| QuizPage.Select | client/src/pages/QuizPage.jsx:73-78 | Choosing adds the question to the keys. |
| QuizPage.LookupSelect | client/src/pages/QuizPage.jsx:73-78 | After a choice, that question maps to the chosen option and every other question keeps its answer. |
| QuizPage.Reselect | client/src/pages/QuizPage.jsx:73-78 | A second choice for the same question replaces the first. |
| QuizPage.SelectSorted | client/src/pages/QuizPage.jsx:73-78 | The answer map stays ordered by question id, one entry per question. |
| QuizPage.SelectLength | client/src/pages/QuizPage.jsx:73-78 | A choice adds an entry only for a question not yet answered. |
| QuizPage.AnswerArrayFaithful | client/src/pages/QuizPage.jsx:80-85 | One element per answered question, carrying its id and chosen option, with no question twice. |
| QuizPage.AnswerArrayCovers | client/src/pages/QuizPage.jsx:80-85 | Every answered question appears in the submitted array. |
| QuizPage.SubmitCountsAnswered | client/src/pages/QuizPage.jsx:80-91 | When the attempt row is inserted, the server records its total as the number of answered questions. |
| QuizPage.ReloadAfterSubmit | client/src/pages/QuizPage.jsx:48-60 | After a submission whose attempt row was inserted, reopening the quiz marks it attempted and shows the first listed attempt, which is the most recent and no older than the submission. When every earlier attempt is strictly older, it shows the submission itself. |
| QuizPage.ScreenOf | client/src/pages/QuizPage.jsx:104-185 | The questions are shown iff the quiz has loaded, exists, was not attempted, has no score yet and was started. |
| QuizPage.AttemptedNeverSeesQuestions | client/src/pages/QuizPage.jsx:48-60 | A student with a recorded attempt never reaches the questions screen. |

## Left out

- Authentication, the `verifyToken`/`requireRole` middleware and the role checks. They are outside this core; the caller's id is a parameter.
- The GET routes for quizzes, experiments and upload history, and the routes in `admin.js`, `auth.js`, `profile.js` and `students.js`. They only read or are outside this core.
- SQLite itself: column affinity and type coercion on insert.
- Grading.AttemptsFor: `ORDER BY attempted_at DESC` leaves the order of equal timestamps undefined, and `attempted_at` has one-second resolution. The model lists the later-inserted of two equal rows first; this is an assumption, not a promise of SQLite. `Grading.SubmitThenList` and `QuizPage.ReloadAfterSubmit` therefore claim the submission leads the listing only when every earlier attempt is strictly older.
- Row ids and the `quizzes.experiment_id` binding: the path id and experiment id are bound exactly as the request sent them.
- JSON numbers are integers. Fractional numbers, floating point and the score as a fraction are left out; the score is the pair (correct, total).
- OpenAI, the YouTube transcript service, `JSON.parse` of the AI reply and password hashing. These are parameters (a result value, a parse function, a flag), because they are foreign calls.
- Concurrency: the double-submit race on `/submit` and interleaved uploads. Each request is atomic in the model.
- Grading.OptionKeySpec: matches numeric and boolean option ids only. SQLite's matching of a numeric string against an integer column is not modelled.
- Failed SELECTs, other than the submit route's option lookup, and a failed ROLLBACK are not modelled; in the source each lands in the route's `catch` and answers 500. This covers the lookups in `Experiments.Update` and `Experiments.Delete` (server/routes/experiments.js:62, :94, where the model answers 404 or 403), the experiment lookup in `AiRoutes.Chat` (server/routes/ai.js:96), the experiment lookup of `QuizRoutes.GenerateGate` (server/routes/quizzes.js:288, answered "Error generating questions"), the quiz lookups behind `QuizRoutes.Authorise` (server/routes/quizzes.js:43, :144), the ROLLBACK of the batch route (server/routes/quizzes.js:112, whose failure escapes with its own message instead of "Failed to create questions batch") and the email lookup of the bulk upload (server/routes/bulk-upload.js:34, answered "Error creating student: …" whether or not the email exists). Each is a read whose failure is outside the data the model holds.
- The `users` table columns the upload writes beyond name, email and role (`require_password_change`), and the `password_resets` table. `server/db.js` does not declare them, so those writes are modelled only as success or a fault.
- `handleOptionChange`'s `is_correct` branch. Nothing in the page calls it; the radio uses `MarkCorrect`.
- `handleConfirmAIQuestions` (the client side of confirming drafts): only its request body is modelled (`QuizRoutes.ConfirmBody`, with `QuizRoutes.ConfirmBodyAccepted`).
- The chat widget, the quiz page's tab-switch and keyboard listeners, the timer, and every rendering detail.
- Experiments.Update: the `:id` path parameter is an integer here. The string-to-integer conversion SQLite performs is not modelled.
- AiRoutes.GenerateExplanation: the AI's reply is a parameter. The request prompt, model name and temperature are not modelled.
- QuizRoutes.CreateQuiz: the quiz insert has no failure parameter. A database failure there (the `catch` answering 500) is not modelled.
- JsNumbers.StringToNumber: a numeric string's value is kept exact. JavaScript rounds it to the nearest double, so a string within rounding distance of 1 or 20 (such as "0.99999999999999999") compares as 1 there but below 1 here.
- Grading.QuestionIdIrrelevant: holds only for answer lists that agree on which question ids are missing or null. A missing one makes the insert fail (`Grading.MissingQuestionIdThrows`), so the question id is not irrelevant in that case.
- Grading.Grade: only a missing or null question id is treated as a failed insert. Binding errors for array or object values are not modelled.

=== FILE: ai_routes.dfy ===
/** The AI helpers and chat route of server/routes/ai.js: the YouTube video
    id extraction, the fallback explanation, the choice among the outcomes of
    `generateExplanation`, and the guard order of `POST /chat`. The YouTube
    and OpenAI calls are parameters: what they return, or `None` when they
    throw. */
module AiRoutes {
  import opened Wrappers
  import opened Js

  const WatchMarker: string := "youtube.com/watch?v="
  const ShortMarker: string := "youtu.be/"

  /** The characters `[^&\n?#]` admits. */
  predicate IdChar(c: char) {
    c != '&' && c != '\n' && c != '?' && c != '#'
  }

  /** `m` occurs in `s` at position `p`. */
  predicate HasAt(s: string, p: nat, m: string) {
    p + |m| <= |s| && s[p..p + |m|] == m
  }

  /** Where the id would start if one of the two markers occurs at `p`. */
  function MarkerEnd(s: string, p: nat): (r: Option<nat>)
    ensures r.Some? <==> HasAt(s, p, WatchMarker) || HasAt(s, p, ShortMarker)
    ensures r.Some? ==> p < r.value <= |s|
  {
    if HasAt(s, p, WatchMarker) then Some(p + |WatchMarker|)
    else if HasAt(s, p, ShortMarker) then Some(p + |ShortMarker|)
    else None
  }

  /** The pattern matches at `p`: a marker followed by at least one id character. */
  predicate MatchAt(s: string, p: nat) {
    MarkerEnd(s, p).Some? && MarkerEnd(s, p).value < |s| && IdChar(s[MarkerEnd(s, p).value])
  }

  /** The longest run of id characters starting at `i` (the greedy `+`). */
  function IdRun(s: string, i: nat): (r: string)
    requires i <= |s|
    ensures i + |r| <= |s| && r == s[i..i + |r|]
    ensures forall k :: 0 <= k < |r| ==> IdChar(r[k])
    ensures i + |r| == |s| || !IdChar(s[i + |r|])
    decreases |s| - i
  {
    if i == |s| || !IdChar(s[i]) then []
    else
      var rest := IdRun(s, i + 1);
      assert s[i..i + 1 + |rest|] == [s[i]] + s[i + 1..i + 1 + |rest|];
      [s[i]] + rest
  }

  /** The leftmost position at or after `p` where the pattern matches. */
  function FirstMatch(s: string, p: nat): (r: Option<nat>)
    requires p <= |s|
    ensures r.None? ==> forall k :: p <= k < |s| ==> !MatchAt(s, k)
    ensures r.Some? ==> p <= r.value < |s| && MatchAt(s, r.value)
                        && forall k :: p <= k < r.value ==> !MatchAt(s, k)
    decreases |s| - p
  {
    if p == |s| then None
    else if MatchAt(s, p) then Some(p)
    else FirstMatch(s, p + 1)
  }

  /** `extractVideoId`: group 1 of the leftmost match, or `None` for null. */
  function ExtractVideoId(url: string): (r: Option<string>)
    ensures r.None? <==> forall k :: 0 <= k < |url| ==> !MatchAt(url, k)
    ensures r.Some? ==> |r.value| > 0 && forall k :: 0 <= k < |r.value| ==> IdChar(r.value[k])
  {
    match FirstMatch(url, 0)
    case None => None
    case Some(q) => Some(IdRun(url, MarkerEnd(url, q).value))
  }

  /** `q` is the leftmost match in `url` and `id` is the maximal run of id
      characters right after its marker. */
  predicate LeftmostIdAt(url: string, q: nat, id: string) {
    && q < |url| && MatchAt(url, q)
    && (forall k :: 0 <= k < q ==> !MatchAt(url, k))
    && var start := MarkerEnd(url, q).value;
       && start + |id| <= |url| && url[start..start + |id|] == id
       && (start + |id| == |url| || !IdChar(url[start + |id|]))
  }

  /** The id extracted is the maximal run after the leftmost marker that has one. */
  lemma {:induction false} ExtractVideoIdSpec(url: string)
    requires ExtractVideoId(url).Some?
    ensures exists q :: LeftmostIdAt(url, q, ExtractVideoId(url).value)
  {
    var q := FirstMatch(url, 0).value;
    var id := IdRun(url, MarkerEnd(url, q).value);
    assert ExtractVideoId(url).value == id;
    assert LeftmostIdAt(url, q, id);
  }

  /** The short link the fallback text shows. */
  function ShortLink(id: string): string {
    Https + ShortMarker + id
  }

  const Https: string := "https://"

  /** A URL made of a prefix without `y`, a marker, an id and a rest that
      does not continue the id yields exactly that id. */
  lemma {:induction false} MarkedId(prefix: string, m: string, id: string, rest: string)
    requires m == WatchMarker || m == ShortMarker
    requires forall k :: 0 <= k < |prefix| ==> prefix[k] != 'y'
    requires |id| > 0 && forall k :: 0 <= k < |id| ==> IdChar(id[k])
    requires |rest| == 0 || !IdChar(rest[0])
    ensures ExtractVideoId(prefix + m + id + rest) == Some(id)
  {
    var s := prefix + m + id + rest;
    var p := |prefix|;
    MarkerFound(s, prefix, m, id, rest);
    NoMatchBefore(s, p);
    FirstMatchAt(s, p);
    IdRunExact(s, p + |m|, id);
  }

  /** The marker right after the prefix matches, and the id starts where it ends. */
  lemma {:induction false} MarkerFound(s: string, prefix: string, m: string, id: string, rest: string)
    requires m == WatchMarker || m == ShortMarker
    requires |id| > 0 && IdChar(id[0])
    requires s == prefix + m + id + rest
    ensures MarkerEnd(s, |prefix|) == Some(|prefix| + |m|) && MatchAt(s, |prefix|)
    ensures |prefix| + |m| + |id| <= |s| && s[|prefix| + |m|..|prefix| + |m| + |id|] == id
    ensures |prefix| + |m| + |id| == |s| || s[|prefix| + |m| + |id|] == rest[0]
  {
    var p := |prefix|;
    assert s[p..p + |m|] == m;
    assert HasAt(s, p, m);
    if m == ShortMarker {
      assert !HasAt(s, p, WatchMarker) by {
        if p + |WatchMarker| <= |s| {
          assert s[p..p + |WatchMarker|][5] == s[p + 5] == '.';
        }
      }
    }
    assert s[p + |m|] == id[0];
  }

  /** No match starts at a position before `p` holding no `y`. */
  lemma {:induction false} NoMatchBefore(s: string, p: nat)
    requires p <= |s| && forall k :: 0 <= k < p ==> s[k] != 'y'
    ensures forall k :: 0 <= k < p ==> !MatchAt(s, k)
  {
    forall k | 0 <= k < p ensures !MatchAt(s, k) {
      HasAtFirst(s, k, WatchMarker);
      HasAtFirst(s, k, ShortMarker);
    }
  }

  /** A match with none before it is the first one. */
  lemma {:induction false} FirstMatchAt(s: string, p: nat)
    requires p < |s| && MatchAt(s, p) && forall k :: 0 <= k < p ==> !MatchAt(s, k)
    ensures FirstMatch(s, 0) == Some(p)
  {
  }

  /** The run starting at `i` is `id` when `id` sits there and is not continued. */
  lemma {:induction false} IdRunExact(s: string, i: nat, id: string)
    requires i + |id| <= |s| && s[i..i + |id|] == id
    requires forall k :: 0 <= k < |id| ==> IdChar(id[k])
    requires i + |id| == |s| || !IdChar(s[i + |id|])
    ensures IdRun(s, i) == id
    decreases |id|
  {
    if |id| > 0 {
      assert s[i] == id[0];
      assert s[i + 1..i + 1 + |id[1..]|] == id[1..];
      IdRunExact(s, i + 1, id[1..]);
    }
  }

  /** The short link of an id reads back as the same id. */
  lemma {:induction false} ShortLinkRoundTrip(id: string)
    requires |id| > 0 && forall k :: 0 <= k < |id| ==> IdChar(id[k])
    ensures ExtractVideoId(ShortLink(id)) == Some(id)
  {
    forall k | 0 <= k < |Https| ensures Https[k] != 'y' {
    }
    MarkedId(Https, ShortMarker, id, []);
    assert Https + ShortMarker + id + [] == ShortLink(id);
  }

  /** A marker found at `p` begins with the text's character at `p`. */
  lemma {:induction false} HasAtFirst(s: string, p: nat, m: string)
    requires |m| > 0
    ensures HasAt(s, p, m) ==> p < |s| && s[p] == m[0]
  {
    if HasAt(s, p, m) {
      assert s[p..p + |m|][0] == s[p];
    }
  }

  /** `link` in `defaultFallbackExplanation`. */
  function Link(url: string): (r: string)
    ensures ExtractVideoId(url).Some? ==> r == ShortLink(ExtractVideoId(url).value)
    ensures ExtractVideoId(url).None? ==> r == url
  {
    match ExtractVideoId(url)
    case Some(id) => ShortLink(id)
    case None => url
  }

  /** Normalising a link twice is normalising it once. */
  lemma {:induction false} LinkIdempotent(url: string)
    ensures Link(Link(url)) == Link(url)
  {
    if ExtractVideoId(url).Some? {
      ShortLinkRoundTrip(ExtractVideoId(url).value);
    }
  }

  /** `defaultFallbackExplanation(url)` for a string URL. */
  function FallbackText(url: string): string {
    "No description was provided. Please watch the reference video (" + Link(url)
    + ") and update this description from the Faculty dashboard."
  }

  /** Two URLs of the same video get the same fallback text. */
  lemma {:induction false} FallbackSameVideo(a: string, b: string)
    requires ExtractVideoId(a).Some? && ExtractVideoId(a) == ExtractVideoId(b)
    ensures FallbackText(a) == FallbackText(b)
  {
  }

  /** What `generateExplanation` produces: a value, or a throw (only when the
      URL is not a string and no key is set, so `url.match` fails outside any
      `try`). */
  datatype Explained = Text(value: Json) | Throws

  const NoTranscript: string := "Could not fetch transcript from YouTube video."

  /** `generateExplanation(url)`. `fetched` is the transcript response's data
      (`None` when the request throws); `content` is the completion's message
      content (`None` when the request or the property access throws). */
  function GenerateExplanation(url: Json, hasKey: bool, fetched: Option<Json>, content: Option<Json>): (r: Explained)
    ensures !hasKey ==> (r == if url.Str? then Text(Str(FallbackText(url.s))) else Throws)
    ensures hasKey && !(url.Str? && ExtractVideoId(url.s).Some? && fetched.Some? && Truthy(fetched.value)) ==>
              r == Text(Str(NoTranscript))
    ensures hasKey && url.Str? && ExtractVideoId(url.s).Some? && fetched.Some? && Truthy(fetched.value) ==>
              r == (if content.Some? then Text(content.value) else Text(Str(FallbackText(url.s))))
  {
    if !hasKey then
      if url.Str? then Text(Str(FallbackText(url.s))) else Throws
    else
      var transcript :=
        if url.Str? && ExtractVideoId(url.s).Some? && fetched.Some? then fetched.value else Null;
      if !Truthy(transcript) then Text(Str(NoTranscript))
      else match content
        case Some(c) => Text(c)
        case None => Text(Str(FallbackText(url.s)))
  }

  /** Whatever the services do, a string URL never makes the generator throw. */
  lemma {:induction false} StringUrlNeverThrows(url: string, hasKey: bool, fetched: Option<Json>, content: Option<Json>)
    ensures GenerateExplanation(Str(url), hasKey, fetched, content).Text?
  {
  }

  // ---------------------------------------------------------------------------
  // POST /chat
  // ---------------------------------------------------------------------------

  /** A `chat_messages` row. */
  datatype ChatRow = ChatRow(student: int, experimentId: Json, message: Json, response: Json)

  datatype ChatReply = ChatError(status: nat, error: string) | ChatAnswer(message: Json, response: Json)

  /** The chat route. `found` says whether the experiment lookup finds a row;
      `content` is the completion's content (`None` when the call throws);
      `insertFails` makes the final insert throw. */
  function Chat(rows: seq<ChatRow>, student: int, body: Json, hasKey: bool, found: bool,
                content: Option<Json>, insertFails: bool): (out: (ChatReply, seq<ChatRow>))
    ensures !Truthy(Get(body, "experiment_id")) || !Truthy(Get(body, "message")) ==>
              out == (ChatError(400, "experiment_id and message required"), rows)
    ensures Truthy(Get(body, "experiment_id")) && Truthy(Get(body, "message")) && !hasKey ==>
              out == (ChatError(500, "AI service not configured"), rows)
    ensures Truthy(Get(body, "experiment_id")) && Truthy(Get(body, "message")) && hasKey && !found ==>
              out == (ChatError(404, "Experiment not found"), rows)
    ensures out.0.ChatAnswer? <==>
              Truthy(Get(body, "experiment_id")) && Truthy(Get(body, "message")) && hasKey && found
              && content.Some? && !insertFails
    ensures out.0.ChatAnswer? ==>
              && out.0 == ChatAnswer(Get(body, "message"), content.value)
              && out.1 == rows + [ChatRow(student, Get(body, "experiment_id"), Get(body, "message"), content.value)]
    ensures out.1 != rows ==> out.0.ChatAnswer?
  {
    var experimentId := Get(body, "experiment_id");
    var message := Get(body, "message");
    if !Truthy(experimentId) || !Truthy(message) then (ChatError(400, "experiment_id and message required"), rows)
    else if !hasKey then (ChatError(500, "AI service not configured"), rows)
    else if !found then (ChatError(404, "Experiment not found"), rows)
    else if content.None? || insertFails then (ChatError(500, "Error processing chat message"), rows)
    else (ChatAnswer(message, content.value), rows + [ChatRow(student, experimentId, message, content.value)])
  }

  /** How many chat rows belong to a student. */
  function RowsFor(rows: seq<ChatRow>, student: int): (n: nat)
    ensures n <= |rows|
  {
    if |rows| == 0 then 0
    else RowsFor(rows[..|rows| - 1], student) + (if rows[|rows| - 1].student == student then 1 else 0)
  }

  /** A chat request logs at most one exchange: an answered one adds exactly
      one row, the sender's, after the existing ones; every other outcome
      leaves the log as it was. No other student's history changes. */
  lemma {:induction false} ChatLogsOneExchange(rows: seq<ChatRow>, student: int, body: Json, hasKey: bool, found: bool,
                                               content: Option<Json>, insertFails: bool)
    ensures var out := Chat(rows, student, body, hasKey, found, content, insertFails);
            && |out.1| == |rows| + (if out.0.ChatAnswer? then 1 else 0)
            && out.1[..|rows|] == rows
            && RowsFor(out.1, student) == RowsFor(rows, student) + (if out.0.ChatAnswer? then 1 else 0)
            && forall other :: other != student ==> RowsFor(out.1, other) == RowsFor(rows, other)
  {
    var out := Chat(rows, student, body, hasKey, found, content, insertFails);
    if out.0.ChatAnswer? {
      assert out.1[..|rows|] == rows;
    }
  }

  /** A request missing its experiment id or message is refused before the
      key, the lookup or the model are consulted. */
  lemma {:induction false} ChatValidatesFirst(rows: seq<ChatRow>, student: int, body: Json,
                                              hasKey: bool, found: bool, content: Option<Json>, insertFails: bool,
                                              hasKey': bool, found': bool, content': Option<Json>, insertFails': bool)
    requires !Truthy(Get(body, "experiment_id")) || !Truthy(Get(body, "message"))
    ensures Chat(rows, student, body, hasKey, found, content, insertFails)
            == Chat(rows, student, body, hasKey', found', content', insertFails')
            == (ChatError(400, "experiment_id and message required"), rows)
  {
  }
}

=== FILE: bulk_upload.dfy ===
/** The roster import (server/routes/bulk-upload.js, `POST /students`): a
    fold over the uploaded rows in which every row ends in exactly one of
    success or failure, failures are isolated to their row, and emails are
    checked against the users created so far. Database faults are a
    per-row parameter; password hashing, tokens and clocks are left out. */
module BulkUpload {
  import opened Wrappers
  import opened Text
  import opened Js

  /** A `users` row as the import sees it. `password` is the supplied
      temporary password, or `None` when a random one was generated. */
  datatype User = User(email: Json, name: Json, password: Option<string>)

  /** What goes wrong when a row is written: the user insert, or the reset
      token insert after the user row exists. The string is the error's
      message. */
  datatype RowFault = UserInsertFails(message: string) | ResetInsertFails(message: string)

  /** Why a row failed. */
  datatype RowError =
    | MissingNameOrEmail
    | EmailExists(email: Json)
    | CreateFailed(detail: string)

  /** The text pushed onto `errors`. */
  function Message(e: RowError): (m: string)
    ensures |m| > 0
  {
    match e
    case MissingNameOrEmail => "Row skipped: Missing name or email"
    case EmailExists(email) => "Email " + ToJsString(email) + " already exists"
    case CreateFailed(detail) => "Error creating student: " + detail
  }

  /** An entry of `invites`: the email and the new user's id. */
  datatype Invite = Invite(email: Json, userId: nat)

  /** The loop's state. User ids are position plus one. */
  datatype Progress = Progress(users: seq<User>, success: nat, fail: nat, errors: seq<RowError>, invites: seq<Invite>)

  /** The emails already taken. */
  function Emails(users: seq<User>): (r: set<Json>)
    ensures forall k :: 0 <= k < |users| ==> users[k].email in r
    ensures forall e :: e in r ==> exists k :: 0 <= k < |users| && users[k].email == e
  {
    set k | 0 <= k < |users| :: users[k].email
  }

  /** No two users share an email. */
  predicate DistinctEmails(users: seq<User>) {
    forall i, j :: 0 <= i < j < |users| ==> users[i].email != users[j].email
  }

  /** `password && String(password).trim().length >= 8 ? String(password).trim() : random`;
      `None` stands for the random password. */
  function PasswordChoice(password: Json): (r: Option<string>)
    ensures r.Some? <==> Truthy(password) && Utf16Length(Trim(ToJsString(password))) >= 8
    ensures r.Some? ==> r.value == Trim(ToJsString(password)) && Tight(r.value)
  {
    if Truthy(password) && Utf16Length(Trim(ToJsString(password))) >= 8 then Some(Trim(ToJsString(password))) else None
  }

  /** A given password with no surrounding white space and at least eight
      UTF-16 units is used exactly as given. */
  lemma {:induction false} LongPasswordKept(s: string)
    requires Tight(s) && Utf16Length(s) >= 8
    ensures PasswordChoice(Str(s)) == Some(s)
  {
    TightIsTrimmed(s);
  }

  /** White space around a given password changes nothing: the padded and
      the bare string are used or replaced alike, and a used one is bare. */
  lemma {:induction false} PasswordPaddingIgnored(p: string, s: string, q: string)
    requires AllSpace(p) && AllSpace(q) && Tight(s)
    ensures PasswordChoice(Str(p + s + q)) == PasswordChoice(Str(s))
  {
    TrimUnique(p, s, q);
    TightIsTrimmed(s);
  }

  /** Four emoji make eight UTF-16 units, so they are long enough although
      they are four characters. */
  lemma {:induction false} FourEmojiPassword()
    ensures PasswordChoice(Str("\U{1F600}\U{1F600}\U{1F600}\U{1F600}")) == Some("\U{1F600}\U{1F600}\U{1F600}\U{1F600}")
  {
    var s := "\U{1F600}\U{1F600}\U{1F600}\U{1F600}";
    var e := "\U{1F600}";
    assert Utf16Length(e) == 2 by {
      assert e[..0] == [];
    }
    assert s == (e + e) + (e + e);
    Utf16LengthAppend(e, e);
    Utf16LengthAppend(e + e, e + e);
    LongPasswordKept(s);
  }

  /** The message JavaScript gives when `const { name } = student` meets
      `null` or `undefined`. */
  function DestructureMessage(student: Json): string
    requires Nullish(student)
  {
    "Cannot destructure property 'name' of 'student' as it is " + (if student.Null? then "null." else "undefined.")
  }

  /** How one row ends: skipped with an error and nothing written; a user
      written but the row still failed (the reset-token insert threw); or a
      user created and invited. */
  datatype Outcome = Skipped(error: RowError) | Stranded(user: User, error: RowError) | Created(user: User)

  /** The loop body's decision for one row, given the users so far. */
  function Decide(users: seq<User>, student: Json, fault: Option<RowFault>): (o: Outcome)
    ensures Nullish(student) ==> o.Skipped? && o.error.CreateFailed?
    ensures !Nullish(student) && (!Truthy(Get(student, "name")) || !Truthy(Get(student, "email"))) ==>
              o == Skipped(MissingNameOrEmail)
    ensures !Nullish(student) && Truthy(Get(student, "name")) && Truthy(Get(student, "email"))
            && Get(student, "email") in Emails(users) ==>
              o == Skipped(EmailExists(Get(student, "email")))
    ensures !o.Skipped? ==>
              && o.user == User(Get(student, "email"), Get(student, "name"), PasswordChoice(Get(student, "password")))
              && Get(student, "email") !in Emails(users)
    ensures o.Created? <==>
              && !Nullish(student) && Truthy(Get(student, "name")) && Truthy(Get(student, "email"))
              && Get(student, "email") !in Emails(users) && fault.None?
  {
    if Nullish(student) then Skipped(CreateFailed(DestructureMessage(student)))
    else
      var name := Get(student, "name");
      var email := Get(student, "email");
      if !Truthy(name) || !Truthy(email) then Skipped(MissingNameOrEmail)
      else if email in Emails(users) then Skipped(EmailExists(email))
      else match fault
        case Some(UserInsertFails(m)) => Skipped(CreateFailed(m))
        case Some(ResetInsertFails(m)) => Stranded(User(email, name, PasswordChoice(Get(student, "password"))), CreateFailed(m))
        case None => Created(User(email, name, PasswordChoice(Get(student, "password"))))
  }

  /** The counters, lists and users after a row's outcome. */
  function Apply(p: Progress, o: Outcome): (q: Progress)
    ensures o.Created? ==>
              q == p.(users := p.users + [o.user], success := p.success + 1,
                      invites := p.invites + [Invite(o.user.email, |p.users| + 1)])
    ensures o.Stranded? ==> q == p.(users := p.users + [o.user], fail := p.fail + 1, errors := p.errors + [o.error])
    ensures o.Skipped? ==> q == p.(fail := p.fail + 1, errors := p.errors + [o.error])
  {
    match o
    case Skipped(e) => p.(fail := p.fail + 1, errors := p.errors + [e])
    case Stranded(u, e) => p.(users := p.users + [u], fail := p.fail + 1, errors := p.errors + [e])
    case Created(u) => p.(users := p.users + [u], success := p.success + 1, invites := p.invites + [Invite(u.email, |p.users| + 1)])
  }

  lemma {:induction false} ApplyGrows(p: Progress, o: Outcome)
    ensures |Apply(p, o).users| >= |p.users| && Apply(p, o).users[..|p.users|] == p.users
  {
  }

  /** The fault, if any, for the row at `index`. */
  function FaultAt(faults: map<nat, RowFault>, index: nat): Option<RowFault> {
    if index in faults then Some(faults[index]) else None
  }

  /** The loop over `students`, whose first row has index `offset`. */
  function Run(start: Progress, students: seq<Json>, faults: map<nat, RowFault>, offset: nat): Progress
    decreases |students|
  {
    if |students| == 0 then start
    else
      var p := Run(start, students[..|students| - 1], faults, offset);
      Apply(p, Decide(p.users, students[|students| - 1], FaultAt(faults, offset + |students| - 1)))
  }

  /** The invariant the loop keeps: one error per failure, one invite per
      success, each invite naming its user, and no email on two users. */
  predicate Accounted(p: Progress) {
    && |p.errors| == p.fail && |p.invites| == p.success
    && DistinctEmails(p.users)
    && forall k :: 0 <= k < |p.invites| ==>
         1 <= p.invites[k].userId <= |p.users| && p.users[p.invites[k].userId - 1].email == p.invites[k].email
  }

  /** One row keeps the invariant, counts once and only adds to what was there. */
  lemma {:induction false} StepAccounts(p: Progress, o: Outcome, q: Progress)
    requires Accounted(p) && q == Apply(p, o)
    requires !o.Skipped? ==> o.user.email !in Emails(p.users)
    ensures Accounted(q)
    ensures q.success + q.fail == p.success + p.fail + 1
    ensures |q.users| >= |p.users| && q.users[..|p.users|] == p.users
    ensures q.invites[..|p.invites|] == p.invites && q.errors[..|p.errors|] == p.errors
  {
    if !o.Skipped? {
      AddUserDistinct(p.users, o.user);
      InvitesKept(p.users, o.user, p.invites, q.invites);
    }
  }

  /** A user whose email is not taken keeps the emails distinct. */
  lemma {:induction false} AddUserDistinct(users: seq<User>, u: User)
    requires DistinctEmails(users) && u.email !in Emails(users)
    ensures DistinctEmails(users + [u])
  {
    forall i | 0 <= i < |users| ensures users[i].email != u.email {
      assert users[i].email in Emails(users);
    }
  }

  /** Appending a user keeps every invite naming its user; an invite for the
      new user names it too. */
  lemma {:induction false} InvitesKept(users: seq<User>, u: User, invites: seq<Invite>, after: seq<Invite>)
    requires forall k :: 0 <= k < |invites| ==>
               1 <= invites[k].userId <= |users| && users[invites[k].userId - 1].email == invites[k].email
    requires after == invites || after == invites + [Invite(u.email, |users| + 1)]
    ensures forall k :: 0 <= k < |after| ==>
              1 <= after[k].userId <= |users + [u]| && (users + [u])[after[k].userId - 1].email == after[k].email
  {
    forall k | 0 <= k < |after|
      ensures 1 <= after[k].userId <= |users + [u]| && (users + [u])[after[k].userId - 1].email == after[k].email
    {
      if k < |invites| {
        assert after[k] == invites[k];
      }
    }
  }

  /** Every row is counted once, as a success or as a failure; each failure
      leaves one error and each success one invite naming its user; users
      are only added, never with an email already taken. */
  lemma {:induction false} RunAccounts(start: Progress, students: seq<Json>, faults: map<nat, RowFault>, offset: nat, q: Progress)
    requires q == Run(start, students, faults, offset) && Accounted(start)
    ensures Accounted(q)
    ensures q.success + q.fail == start.success + start.fail + |students|
    ensures |q.users| >= |start.users| && q.users[..|start.users|] == start.users
    decreases |students|
  {
    if |students| > 0 {
      var p := Run(start, students[..|students| - 1], faults, offset);
      RunAccounts(start, students[..|students| - 1], faults, offset, p);
      StepAccounts(p, Decide(p.users, students[|students| - 1], FaultAt(faults, offset + |students| - 1)), q);
      assert q.users[..|start.users|] == p.users[..|start.users|];
    }
  }

  /** Running two stretches of rows one after the other is running them
      together: a row's fate depends on the rows before it only through the
      users they created, never on whether they failed. */
  lemma {:induction false} RunComposes(start: Progress, a: seq<Json>, b: seq<Json>, faults: map<nat, RowFault>)
    ensures Run(start, a + b, faults, 0) == Run(Run(start, a, faults, 0), b, faults, |a|)
    decreases |b|
  {
    if |b| == 0 {
      assert a + b == a;
    } else {
      var n := |b| - 1;
      assert (a + b)[..|a| + n] == a + b[..n];
      assert (a + b)[|a| + n] == b[n];
      RunComposes(start, a, b[..n], faults);
      var p := Run(start, a + b[..n], faults, 0);
      RunUnfold(start, a + b, faults, 0, p, b[n], |a| + n);
      RunUnfold(Run(start, a, faults, 0), b, faults, |a|, p, b[n], |a| + n);
    }
  }

  /** The loop after its last row is that row's step after the rest. */
  lemma {:induction false} RunUnfold(start: Progress, students: seq<Json>, faults: map<nat, RowFault>, offset: nat,
                  p: Progress, last: Json, index: nat)
    requires |students| > 0 && p == Run(start, students[..|students| - 1], faults, offset)
    requires last == students[|students| - 1] && index == offset + |students| - 1
    ensures Run(start, students, faults, offset) == Apply(p, Decide(p.users, last, FaultAt(faults, index)))
  {
  }

  /** A row without a name or email fails with its message and creates no user. */
  lemma {:induction false} MissingFieldsRow(p: Progress, student: Json, fault: Option<RowFault>)
    requires !Nullish(student) && (!Truthy(Get(student, "name")) || !Truthy(Get(student, "email")))
    ensures Apply(p, Decide(p.users, student, fault)) == p.(fail := p.fail + 1, errors := p.errors + [MissingNameOrEmail])
    ensures Message(MissingNameOrEmail) == "Row skipped: Missing name or email"
  {
  }

  /** Users created by earlier rows are still there later. */
  lemma {:induction false} UsersGrow(start: Progress, students: seq<Json>, faults: map<nat, RowFault>, m: nat)
    requires m <= |students|
    ensures var p := Run(start, students[..m], faults, 0);
            var q := Run(start, students, faults, 0);
            |q.users| >= |p.users| && q.users[..|p.users|] == p.users
    decreases |students| - m
  {
    if m == |students| {
      assert students[..m] == students;
    } else {
      var n := |students| - 1;
      assert students[..n][..m] == students[..m];
      UsersGrow(start, students[..n], faults, m);
      var p := Run(start, students[..m], faults, 0);
      var r := Run(start, students[..n], faults, 0);
      var o := Decide(r.users, students[n], FaultAt(faults, n));
      RunUnfold(start, students, faults, 0, r, students[n], n);
      ApplyGrows(r, o);
      PrefixOfPrefix(p.users, r.users, Apply(r, o).users);
    }
  }

  lemma {:induction false} PrefixOfPrefix<T>(a: seq<T>, b: seq<T>, c: seq<T>)
    requires |b| >= |a| && b[..|a|] == a && |c| >= |b| && c[..|b|] == b
    ensures |c| >= |a| && c[..|a|] == a
  {
    assert c[..|a|] == c[..|b|][..|a|];
  }

  /** The row `k` step of the loop from the start. */
  lemma {:induction false} RunLast(start: Progress, students: seq<Json>, faults: map<nat, RowFault>, k: nat)
    requires k < |students|
    ensures var p := Run(start, students[..k], faults, 0);
            Run(start, students[..k + 1], faults, 0) == Apply(p, Decide(p.users, students[k], FaultAt(faults, k)))
  {
    assert students[..k + 1][..k] == students[..k];
    assert students[..k + 1][k] == students[k];
  }

  /** A row that writes a user writes it under the row's email, which is truthy. */
  lemma {:induction false} WrittenEmail(p: Progress, student: Json, fault: Option<RowFault>)
    requires |Apply(p, Decide(p.users, student, fault)).users| > |p.users|
    ensures Apply(p, Decide(p.users, student, fault)).users[|p.users|].email == Get(student, "email")
    ensures Truthy(Get(student, "email"))
  {
  }

  /** A row whose email went to a user written by an earlier row of the same
      upload fails as a duplicate, whatever its fault. */
  lemma {:induction false} DuplicateInBatch(start: Progress, students: seq<Json>, faults: map<nat, RowFault>, i: nat, j: nat)
    requires i < j < |students|
    requires !Nullish(students[j]) && Truthy(Get(students[j], "name"))
    requires Get(students[i], "email") == Get(students[j], "email")
    requires |Run(start, students[..i + 1], faults, 0).users| > |Run(start, students[..i], faults, 0).users|
    ensures var before := Run(start, students[..j], faults, 0);
            Run(start, students[..j + 1], faults, 0)
            == before.(fail := before.fail + 1, errors := before.errors + [EmailExists(Get(students[j], "email"))])
  {
    var p := Run(start, students[..i], faults, 0);
    var q := Run(start, students[..i + 1], faults, 0);
    RunLast(start, students, faults, i);
    WrittenEmail(p, students[i], FaultAt(faults, i));
    var u := q.users[|p.users|];
    UsersGrow(start, students[..j], faults, i + 1);
    assert students[..j][..i + 1] == students[..i + 1];
    var before := Run(start, students[..j], faults, 0);
    assert before.users[|p.users|] == u;
    assert u.email in Emails(before.users);
    RunLast(start, students, faults, j);
  }

  // ---------------------------------------------------------------------------
  // The route
  // ---------------------------------------------------------------------------

  /** A `bulk_uploads` row. */
  datatype UploadLog = UploadLog(faculty: int, filename: Json, total: nat, successful: nat, failed: nat)

  datatype Response =
    | Rejected(status: nat, error: string)
    | Summary(total: nat, successful: nat, failed: nat, errors: seq<string>, invites: seq<Invite>)

  /** `errors.slice(0, 10)`, as messages. */
  function FirstTen(errors: seq<RowError>): (r: seq<string>)
    ensures |r| == if |errors| < 10 then |errors| else 10
    ensures forall k :: 0 <= k < |r| ==> r[k] == Message(errors[k])
  {
    var n := if |errors| < 10 then |errors| else 10;
    seq(n, k requires 0 <= k < n => Message(errors[k]))
  }

  /** The route. `logFault` is the message when the final log insert fails;
      the rows written before it stay. */
  function Upload(users: seq<User>, logs: seq<UploadLog>, faculty: int, body: Json,
                  faults: map<nat, RowFault>, logFault: Option<string>): (out: (Response, seq<User>, seq<UploadLog>))
    ensures !Get(body, "students").Arr? || |Get(body, "students").items| == 0 ==>
              out == (Rejected(400, "Students array required"), users, logs)
    ensures Get(body, "students").Arr? && |Get(body, "students").items| > 0 ==>
              var q := Run(Progress(users, 0, 0, [], []), Get(body, "students").items, faults, 0);
              && out.1 == q.users
              && (logFault.Some? ==> out.0 == Rejected(500, logFault.value) && out.2 == logs)
              && (logFault.None? ==>
                    && out.0 == Summary(|Get(body, "students").items|, q.success, q.fail, FirstTen(q.errors), q.invites)
                    && out.2 == logs + [UploadLog(faculty, Or(Get(body, "filename"), Str("bulk_upload.csv")),
                                                   |Get(body, "students").items|, q.success, q.fail)])
  {
    var students := Get(body, "students");
    if !students.Arr? || |students.items| == 0 then (Rejected(400, "Students array required"), users, logs)
    else
      var q := Run(Progress(users, 0, 0, [], []), students.items, faults, 0);
      if logFault.Some? then (Rejected(500, logFault.value), q.users, logs)
      else
        var log := UploadLog(faculty, Or(Get(body, "filename"), Str("bulk_upload.csv")), |students.items|, q.success, q.fail);
        (Summary(|students.items|, q.success, q.fail, FirstTen(q.errors), q.invites), q.users, logs + [log])
  }

  /** The summary adds up: successes and failures make the total, there is
      one invite per success, the errors are the first ten failures' messages,
      and no email ends up on two users. */
  lemma {:induction false} UploadSummary(users: seq<User>, logs: seq<UploadLog>, faculty: int, body: Json, faults: map<nat, RowFault>)
    requires DistinctEmails(users)
    requires Upload(users, logs, faculty, body, faults, None).0.Summary?
    ensures var out := Upload(users, logs, faculty, body, faults, None);
            && out.0.successful + out.0.failed == out.0.total == |Get(body, "students").items|
            && |out.0.invites| == out.0.successful
            && |out.0.errors| == (if out.0.failed < 10 then out.0.failed else 10)
            && DistinctEmails(out.1)
            && |out.1| >= |users| && out.1[..|users|] == users
  {
    var q := Run(Progress(users, 0, 0, [], []), Get(body, "students").items, faults, 0);
    RunAccounts(Progress(users, 0, 0, [], []), Get(body, "students").items, faults, 0, q);
  }
}

=== FILE: csv_import.dfy ===
/** The roster CSV reader of client/src/pages/BulkUploadStudents.jsx:
    `parseCSV` and the guards `handleSubmit` runs before posting. Records are
    the JSON objects the page sends, so a field a short row does not reach is
    absent, as `JSON.stringify` drops `undefined`. */
module CsvImport {
  import opened Wrappers
  import opened Text
  import opened Js

  datatype CsvError = TooFewLines | MissingColumns

  /** The message of the thrown `Error`. */
  function CsvMessage(e: CsvError): string {
    match e
    case TooFewLines => "CSV must have header row and at least one data row"
    case MissingColumns => "CSV must have columns: name, email, password"
  }

  /** `xs.indexOf(x)`; `None` is -1. */
  function IndexOf(xs: seq<string>, x: string): (r: Option<nat>)
    ensures r.None? <==> x !in xs
    ensures r.Some? ==> r.value < |xs| && xs[r.value] == x && x !in xs[..r.value]
  {
    if |xs| == 0 then None
    else if xs[0] == x then Some(0)
    else match IndexOf(xs[1..], x)
      case None => None
      case Some(i) =>
        assert xs[..i + 1] == [xs[0]] + xs[1..][..i];
        Some(i + 1)
  }

  /** The positions of the three columns. */
  datatype Columns = Columns(name: nat, email: nat, password: nat)

  /** Each column is found at its first occurrence, ignoring case and
      surrounding white space. */
  function FindColumns(line: string): (r: Option<Columns>)
    ensures r.Some? <==> "name" in Headers(line) && "email" in Headers(line) && "password" in Headers(line)
    ensures r.Some? ==>
              && IndexOf(Headers(line), "name") == Some(r.value.name)
              && IndexOf(Headers(line), "email") == Some(r.value.email)
              && IndexOf(Headers(line), "password") == Some(r.value.password)
  {
    var hs := Headers(line);
    match (IndexOf(hs, "name"), IndexOf(hs, "email"), IndexOf(hs, "password"))
    case (Some(n), Some(e), Some(p)) => Some(Columns(n, e, p))
    case _ => None
  }

  /** `values[idx]`: absent past the end of the row. */
  function Field(values: seq<string>, idx: nat): (r: Json)
    ensures idx < |values| ==> r == Str(values[idx])
    ensures idx >= |values| ==> r.Undefined?
  {
    if idx < |values| then Str(values[idx]) else Undefined
  }

  /** `line.split(',').map(v => v.trim())`. */
  function Values(line: string): (r: seq<string>)
    ensures |r| == |Split(line, ',')|
    ensures forall k :: 0 <= k < |r| ==> r[k] == Trim(Split(line, ',')[k])
  {
    var cells := Split(line, ',');
    seq(|cells|, k requires 0 <= k < |cells| => Trim(cells[k]))
  }

  /** The first occurrence is the one with no earlier occurrence. */
  lemma {:induction false} IndexOfAt(xs: seq<string>, x: string, k: nat)
    requires k < |xs| && xs[k] == x
    requires forall j :: 0 <= j < k ==> xs[j] != x
    ensures IndexOf(xs, x) == Some(k)
  {
    var r := IndexOf(xs, x).value;
    forall j | 0 <= j < r ensures xs[j] != x {
      assert xs[..r][j] == xs[j];
    }
  }

  /** `line.split(',').map(h => h.trim().toLowerCase())`. */
  function Headers(line: string): (r: seq<string>)
    ensures |r| == |Values(line)|
    ensures forall k :: 0 <= k < |r| ==> r[k] == ToLower(Values(line)[k])
  {
    var vs := Values(line);
    seq(|vs|, k requires 0 <= k < |vs| => ToLower(vs[k]))
  }

  /** The object pushed for one data line, as it is sent. */
  function Record(line: string, cols: Columns): (r: Json)
    ensures r.Obj?
    ensures Get(r, "name") == Field(Values(line), cols.name)
    ensures Get(r, "email") == Field(Values(line), cols.email)
    ensures Get(r, "password") == Field(Values(line), cols.password)
  {
    var vs := Values(line);
    var m := map["name" := Field(vs, cols.name), "email" := Field(vs, cols.email), "password" := Field(vs, cols.password)];
    assert Get(Obj(m), "name") == m["name"];
    assert Get(Obj(m), "email") == m["email"];
    assert Get(Obj(m), "password") == m["password"];
    ObjectOf(m)
  }

  /** The data lines that are not blank, in order. */
  function NonBlank(lines: seq<string>): (r: seq<string>)
    ensures |r| <= |lines|
    ensures forall k :: 0 <= k < |r| ==> !IsBlank(r[k])
  {
    if |lines| == 0 then []
    else if IsBlank(lines[0]) then NonBlank(lines[1..])
    else [lines[0]] + NonBlank(lines[1..])
  }

  /** Every kept line is one of the data lines. */
  lemma {:induction false} NonBlankFrom(lines: seq<string>)
    ensures forall k :: 0 <= k < |NonBlank(lines)| ==> NonBlank(lines)[k] in lines
  {
    if |lines| > 0 {
      NonBlankFrom(lines[1..]);
      assert forall x :: x in lines[1..] ==> x in lines;
    }
  }

  /** The loop over the data lines: blank lines are skipped, every other line
      gives one record. */
  function RecordsOf(lines: seq<string>, cols: Columns): (r: seq<Json>)
    ensures |r| == |NonBlank(lines)|
    ensures forall k :: 0 <= k < |r| ==> r[k] == Record(NonBlank(lines)[k], cols)
  {
    if |lines| == 0 then []
    else if IsBlank(lines[0]) then RecordsOf(lines[1..], cols)
    else [Record(lines[0], cols)] + RecordsOf(lines[1..], cols)
  }

  /** `parseCSV`. */
  function ParseCsv(text: string): (r: Result<seq<Json>, CsvError>)
    ensures |Split(Trim(text), '\n')| < 2 ==> r == Err(TooFewLines)
    ensures |Split(Trim(text), '\n')| >= 2 && FindColumns(Split(Trim(text), '\n')[0]).None? ==> r == Err(MissingColumns)
    ensures r.Ok? ==>
              var lines := Split(Trim(text), '\n');
              && |lines| >= 2
              && FindColumns(lines[0]).Some?
              && r.value == RecordsOf(lines[1..], FindColumns(lines[0]).value)
  {
    var lines := Split(Trim(text), '\n');
    if |lines| < 2 then Err(TooFewLines)
    else match FindColumns(lines[0])
      case None => Err(MissingColumns)
      case Some(cols) => Ok(RecordsOf(lines[1..], cols))
  }

  /** The last line of the trimmed text is never blank: it ends with the
      text's last character, which is not white space. */
  lemma {:induction false} LastLineNotBlank(text: string)
    requires |Split(Trim(text), '\n')| >= 2
    ensures var lines := Split(Trim(text), '\n');
            !IsBlank(lines[|lines| - 1])
  {
    var t := Trim(text);
    var lines := Split(t, '\n');
    assert |t| > 0;
    SplitLastEnds(t, '\n', lines);
    NotBlankAtEnd(lines[|lines| - 1]);
  }

  lemma {:induction false} NonBlankHasLast(lines: seq<string>)
    requires |lines| > 0 && !IsBlank(lines[|lines| - 1])
    ensures |NonBlank(lines)| > 0
    decreases |lines|
  {
    if IsBlank(lines[0]) {
      NonBlankHasLast(lines[1..]);
    }
  }

  /** A successful parse always yields at least one record. */
  lemma {:induction false} ParsedNonEmpty(text: string, records: seq<Json>)
    requires ParseCsv(text) == Ok(records)
    ensures |records| > 0
  {
    var lines := Split(Trim(text), '\n');
    var cols := FindColumns(lines[0]).value;
    assert records == RecordsOf(lines[1..], cols);
    LastLineNotBlank(text);
    assert lines[1..][|lines| - 2] == lines[|lines| - 1];
    NonBlankHasLast(lines[1..]);
  }

  // ---------------------------------------------------------------------------
  // handleSubmit
  // ---------------------------------------------------------------------------

  datatype SubmitOutcome = Refused(message: string) | Post(students: seq<Json>)

  /** The guards before the request: blank text, a parse error, no records. */
  function HandleSubmit(csvText: string): (r: SubmitOutcome)
    ensures IsBlank(csvText) ==> r == Refused("Please paste CSV data or upload a file")
    ensures r.Post? <==> !IsBlank(csvText) && ParseCsv(csvText).Ok? && |ParseCsv(csvText).value| > 0
    ensures r.Post? ==> r.students == ParseCsv(csvText).value
  {
    if IsBlank(csvText) then Refused("Please paste CSV data or upload a file")
    else match ParseCsv(csvText)
      case Err(e) => Refused(CsvMessage(e))
      case Ok(students) =>
        if |students| == 0 then Refused("No valid student records found") else Post(students)
  }

  /** The zero-records guard never fires: text that parses always posts. */
  lemma {:induction false} NoRecordsGuardUnreachable(csvText: string)
    ensures HandleSubmit(csvText) != Refused("No valid student records found")
  {
    if !IsBlank(csvText) && ParseCsv(csvText).Ok? {
      ParsedNonEmpty(csvText, ParseCsv(csvText).value);
    }
  }

  // ---------------------------------------------------------------------------
  // Round trip
  // ---------------------------------------------------------------------------

  /** A cell that reads back as itself: no separator, no line break, no
      white space at either end, not empty. */
  predicate PlainCell(v: string) {
    |v| > 0 && Tight(v) && ',' !in v && '\n' !in v
  }

  /** A roster row as a spreadsheet would write it. */
  datatype Row = Row(name: string, email: string, password: string)

  predicate PlainRow(r: Row) {
    PlainCell(r.name) && PlainCell(r.email) && PlainCell(r.password)
  }

  function RowLine(r: Row): string {
    r.name + "," + r.email + "," + r.password
  }

  /** The CSV text of a roster with the header `name,email,password`. */
  function RenderCsv(rows: seq<Row>): string {
    Join(["name,email,password"] + RowLines(rows), '\n')
  }

  lemma {:induction false} JoinThree(a: string, b: string, c: string)
    ensures Join([a, b, c], ',') == a + "," + b + "," + c
  {
    assert [b, c][1..] == [c];
    assert Join([b, c], ',') == b + [','] + c;
    assert [a, b, c][1..] == [b, c];
    assert Join([a, b, c], ',') == a + [','] + (b + [','] + c);
  }

  /** A row's line splits back into its three cells. */
  lemma {:induction false} RowLineSplits(r: Row)
    requires PlainRow(r)
    ensures Split(RowLine(r), ',') == [r.name, r.email, r.password]
  {
    JoinThree(r.name, r.email, r.password);
    SplitJoin([r.name, r.email, r.password], ',');
  }

  /** A row's line reads back as its three cells. */
  lemma {:induction false} RowLineValues(r: Row)
    requires PlainRow(r)
    ensures Values(RowLine(r)) == [r.name, r.email, r.password]
  {
    RowLineSplits(r);
    TightIsTrimmed(r.name);
    TightIsTrimmed(r.email);
    TightIsTrimmed(r.password);
  }

  /** A row's line is one non-blank line. */
  lemma {:induction false} RowLineShape(r: Row)
    requires PlainRow(r)
    ensures !IsBlank(RowLine(r)) && '\n' !in RowLine(r)
    ensures !IsSpace(RowLine(r)[|RowLine(r)| - 1])
  {
    var line := RowLine(r);
    assert line[|line| - 1] == r.password[|r.password| - 1];
    NotBlankAtEnd(line);
  }

  /** The record a plain row becomes. */
  function RowJson(r: Row): Json {
    ObjectOf(map["name" := Str(r.name), "email" := Str(r.email), "password" := Str(r.password)])
  }

  function RowLines(rows: seq<Row>): (r: seq<string>)
    ensures |r| == |rows|
    ensures forall i :: 0 <= i < |rows| ==> r[i] == RowLine(rows[i])
  {
    seq(|rows|, i requires 0 <= i < |rows| => RowLine(rows[i]))
  }

  /** Lower-casing leaves text without capitals alone. */
  lemma {:induction false} LowerOfLower(s: string)
    requires forall i :: 0 <= i < |s| ==> !('A' <= s[i] <= 'Z')
    ensures ToLower(s) == s
  {
  }

  /** A row without capitals read as a header gives its cells as column names. */
  lemma {:induction false} HeaderCells(r: Row)
    requires PlainRow(r)
    requires forall i :: 0 <= i < |r.name| ==> !('A' <= r.name[i] <= 'Z')
    requires forall i :: 0 <= i < |r.email| ==> !('A' <= r.email[i] <= 'Z')
    requires forall i :: 0 <= i < |r.password| ==> !('A' <= r.password[i] <= 'Z')
    ensures Headers(RowLine(r)) == [r.name, r.email, r.password]
  {
    RowLineValues(r);
    LowerOfLower(r.name);
    LowerOfLower(r.email);
    LowerOfLower(r.password);
  }

  lemma {:induction false} StandardColumns(hs: seq<string>)
    requires hs == ["name", "email", "password"]
    ensures IndexOf(hs, "name") == Some(0) && IndexOf(hs, "email") == Some(1) && IndexOf(hs, "password") == Some(2)
  {
    assert |hs[0]| == 4 && |hs[1]| == 5;
    IndexOfAt(hs, "name", 0);
    IndexOfAt(hs, "email", 1);
    IndexOfAt(hs, "password", 2);
  }

  /** The header `name,email,password` finds the columns 0, 1 and 2. */
  lemma {:induction false} StandardHeader(line: string)
    requires Headers(line) == ["name", "email", "password"]
    ensures FindColumns(line) == Some(Columns(0, 1, 2))
  {
    StandardColumns(Headers(line));
  }

  lemma {:induction false} NonBlankKeepsAll(lines: seq<string>)
    requires forall k :: 0 <= k < |lines| ==> !IsBlank(lines[k])
    ensures NonBlank(lines) == lines
    decreases |lines|
  {
    if |lines| > 0 {
      NonBlankKeepsAll(lines[1..]);
    }
  }

  /** A plain row's line becomes that row's record. */
  lemma {:induction false} RowRecord(r: Row)
    requires PlainRow(r)
    ensures Record(RowLine(r), Columns(0, 1, 2)) == RowJson(r)
  {
    RowLineValues(r);
  }

  /** The rendered text trims to itself. */
  lemma {:induction false} RenderedTight(rows: seq<Row>)
    requires |rows| >= 1 && forall i :: 0 <= i < |rows| ==> PlainRow(rows[i])
    ensures Trim(RenderCsv(rows)) == RenderCsv(rows)
  {
    var lines := ["name,email,password"] + RowLines(rows);
    assert lines[|lines| - 1] == RowLine(rows[|rows| - 1]);
    RowLineShape(rows[|rows| - 1]);
    JoinTight(lines, '\n');
    TightIsTrimmed(RenderCsv(rows));
  }

  /** Pieces whose outer ends are not white space join into a tight text. */
  lemma {:induction false} JoinTight(lines: seq<string>, sep: char)
    requires |lines| >= 1 && |lines[0]| > 0 && !IsSpace(lines[0][0])
    requires |lines[|lines| - 1]| > 0 && !IsSpace(lines[|lines| - 1][|lines[|lines| - 1]| - 1])
    ensures Tight(Join(lines, sep))
  {
    var t := Join(lines, sep);
    var last := lines[|lines| - 1];
    JoinStarts(lines, sep);
    JoinEnds(lines, sep);
    assert t[|t| - 1] == t[|t| - |last|..][|last| - 1];
    assert t[0] == t[..|lines[0]|][0];
  }

  /** The rendered text splits back into the header and one line per row. */
  lemma {:induction false} RenderedLines(rows: seq<Row>)
    requires |rows| >= 1 && forall i :: 0 <= i < |rows| ==> PlainRow(rows[i])
    ensures Split(Trim(RenderCsv(rows)), '\n') == ["name,email,password"] + RowLines(rows)
  {
    var body := RowLines(rows);
    var lines := ["name,email,password"] + body;
    forall k | 0 <= k < |lines| ensures '\n' !in lines[k] {
      if k > 0 {
        assert lines[k] == body[k - 1];
        RowLineShape(rows[k - 1]);
      }
    }
    SplitJoin(lines, '\n');
    RenderedTight(rows);
  }

  /** The header line of a rendered roster finds the columns 0, 1 and 2. */
  lemma {:induction false} RenderedHeader(line: string)
    requires line == "name,email,password"
    ensures FindColumns(line) == Some(Columns(0, 1, 2))
  {
    var h := Row("name", "email", "password");
    assert RowLine(h) == line;
    HeaderCells(h);
    StandardHeader(line);
  }

  /** Plain rows' lines become the rows' records. */
  lemma {:induction false} RowRecords(rows: seq<Row>)
    requires forall i :: 0 <= i < |rows| ==> PlainRow(rows[i])
    ensures RecordsOf(RowLines(rows), Columns(0, 1, 2)) == seq(|rows|, i requires 0 <= i < |rows| => RowJson(rows[i]))
  {
    var body := RowLines(rows);
    forall k | 0 <= k < |body| ensures !IsBlank(body[k]) {
      RowLineShape(rows[k]);
    }
    NonBlankKeepsAll(body);
    forall i | 0 <= i < |rows| ensures Record(body[i], Columns(0, 1, 2)) == RowJson(rows[i]) {
      RowRecord(rows[i]);
    }
  }

  /** Reading back a rendered roster gives one record per row, in order,
      holding exactly the row's cells. */
  lemma {:induction false} RenderParse(rows: seq<Row>)
    requires |rows| >= 1 && forall i :: 0 <= i < |rows| ==> PlainRow(rows[i])
    ensures ParseCsv(RenderCsv(rows)) == Ok(seq(|rows|, i requires 0 <= i < |rows| => RowJson(rows[i])))
  {
    var lines := Split(Trim(RenderCsv(rows)), '\n');
    RenderedLines(rows);
    RenderedHeader(lines[0]);
    assert lines[1..] == RowLines(rows);
    RowRecords(rows);
  }
}

=== FILE: experiments.dfy ===
/** The experiment routes of server/routes/experiments.js: create with a
    manual or generated explanation, the owner-only update that merges the
    request into the stored row, and the owner-only delete. The explanation
    generator is a parameter (`generate`), an arbitrary function of the URL. */
module Experiments {
  import opened Wrappers
  import opened Text
  import opened Js
  import opened AiRoutes

  /** An `experiments` row. */
  datatype Experiment = Experiment(name: Json, url: Json, explanation: Json, faculty: int)

  /** The table: rows by id, and the next id `AUTOINCREMENT` hands out (ids
      are never reused). */
  datatype Store = Store(rows: map<int, Experiment>, nextId: int)

  /** Every stored id is below the next one to be handed out. */
  predicate Fresh(s: Store) {
    forall id :: id in s.rows ==> id < s.nextId
  }

  /** What a route answers. `ServerError` is the 500 `{ error: err.message }`
      of the catch blocks. */
  datatype Reply =
    | Failure(status: nat, error: string)
    | ServerError
    | Created(id: int, name: Json, url: Json, explanation: Json, faculty: int)
    | Updated(id: int, name: Json, url: Json, explanation: Json)
    | Deleted

  function Status(r: Reply): nat {
    match r
    case Failure(status, _) => status
    case ServerError => 500
    case Created(_, _, _, _, _) => 201
    case Updated(_, _, _, _) => 200
    case Deleted => 200
  }

  /** A bound `undefined` is stored as NULL. */
  function Stored(j: Json): (r: Json)
    ensures !j.Undefined? ==> r == j
    ensures !r.Undefined?
  {
    if j.Undefined? then Null else j
  }

  /** The manual explanation POST accepts: `manual && String(manual).trim()`. */
  function CreateManual(manual: Json): (r: Option<string>)
    ensures r.Some? <==> Truthy(manual) && !IsBlank(ToJsString(manual))
    ensures r.Some? ==> r.value == Trim(ToJsString(manual)) && |r.value| > 0
  {
    BlankIffAllSpace(ToJsString(manual));
    var t := Trim(ToJsString(manual));
    if Truthy(manual) && |t| > 0 then Some(t) else None
  }

  /** The manual explanation PUT accepts: `typeof manual === 'string' && manual.trim()`. */
  function UpdateManual(manual: Json): (r: Option<string>)
    ensures r.Some? <==> manual.Str? && !IsBlank(manual.s)
    ensures r.Some? ==> r.value == Trim(manual.s) && |r.value| > 0
  {
    if manual.Str? then
      BlankIffAllSpace(manual.s);
      var t := Trim(manual.s);
      if |t| > 0 then Some(t) else None
    else None
  }

  /** On strings the two routes agree; only POST converts other values with `String()`. */
  lemma {:induction false} ManualChoicesAgreeOnStrings(s: string)
    ensures CreateManual(Str(s)) == UpdateManual(Str(s))
  {
    if |s| == 0 {
      assert IsBlank(s);
    }
  }

  /** A witness that the two routes part ways on a non-string manual value:
      POST stores its `String()` text, PUT ignores it. */
  lemma {:induction false} ManualChoicesDiffer()
    ensures CreateManual(Bool(true)) == Some("true")
    ensures UpdateManual(Bool(true)) == None
  {
    var t := "true";
    assert Tight(t);
    TightIsTrimmed(t);
  }

  /** The explanation POST stores before the insert. */
  function CreateExplanation(manual: Json, url: Json, generate: Json -> Explained): (r: Explained)
    ensures CreateManual(manual).Some? ==> r == Text(Str(CreateManual(manual).value))
    ensures CreateManual(manual).None? ==> r == generate(url)
  {
    match CreateManual(manual)
    case Some(t) => Text(Str(t))
    case None => generate(url)
  }

  /** The insert after the explanation is settled: a thrown generator or a
      failing insert gives a 500 and no row. */
  function Insert(s: Store, faculty: int, name: Json, url: Json, x: Explained, writeFails: bool): (out: (Reply, Store))
    ensures Status(out.0) == 201 <==> x.Text? && !writeFails
    ensures Status(out.0) != 201 ==> out == (ServerError, s)
    ensures Status(out.0) == 201 ==>
              && out.0 == Created(s.nextId, name, url, x.value, faculty)
              && out.1 == Store(s.rows[s.nextId := Experiment(name, url, Stored(x.value), faculty)], s.nextId + 1)
  {
    match x
    case Throws => (ServerError, s)
    case Text(explanation) =>
      if writeFails then (ServerError, s)
      else
        (Created(s.nextId, name, url, explanation, faculty),
         Store(s.rows[s.nextId := Experiment(name, url, Stored(explanation), faculty)], s.nextId + 1))
  }

  /** `POST /api/experiments` by faculty member `faculty`. `writeFails` makes the insert throw. */
  function Create(s: Store, faculty: int, body: Json, generate: Json -> Explained, writeFails: bool): (out: (Reply, Store))
    ensures !Truthy(Get(body, "name")) || !Truthy(Get(body, "youtube_url")) ==>
              out == (Failure(400, "Name and YouTube URL required"), s)
    ensures Status(out.0) == 201 <==>
              && Truthy(Get(body, "name")) && Truthy(Get(body, "youtube_url")) && !writeFails
              && (CreateManual(Get(body, "explanation")).Some? || generate(Get(body, "youtube_url")).Text?)
    ensures Truthy(Get(body, "name")) && Truthy(Get(body, "youtube_url")) && Status(out.0) != 201 ==>
              out == (ServerError, s)
    ensures Status(out.0) == 201 ==>
              && out.0 == Created(s.nextId, Get(body, "name"), Get(body, "youtube_url"),
                                  CreateExplanation(Get(body, "explanation"), Get(body, "youtube_url"), generate).value, faculty)
              && out.1.nextId == s.nextId + 1 && out.1.rows.Keys == s.rows.Keys + {s.nextId}
  {
    var name := Get(body, "name");
    var url := Get(body, "youtube_url");
    if !Truthy(name) || !Truthy(url) then (Failure(400, "Name and YouTube URL required"), s)
    else Insert(s, faculty, name, url, CreateExplanation(Get(body, "explanation"), url, generate), writeFails)
  }

  /** A created experiment gets a fresh id, holds exactly the request's name
      and URL, the chosen explanation and its creator, and leaves every other
      row alone. */
  lemma {:induction false} CreateAdds(s: Store, faculty: int, body: Json, generate: Json -> Explained, writeFails: bool, out: (Reply, Store))
    requires Fresh(s) && out == Create(s, faculty, body, generate, writeFails) && Status(out.0) == 201
    ensures out.0.Created? && out.0.id == s.nextId && out.0.id !in s.rows
    ensures Fresh(out.1)
    ensures out.1.rows.Keys == s.rows.Keys + {out.0.id}
    ensures forall id :: id in s.rows ==> out.1.rows[id] == s.rows[id]
    ensures var e := out.1.rows[out.0.id];
            && e.name == Get(body, "name") && e.url == Get(body, "youtube_url") && e.faculty == faculty
            && e.explanation == Stored(CreateExplanation(Get(body, "explanation"), Get(body, "youtube_url"), generate).value)
  {
  }

  /** Without a usable manual explanation the generator decides: what it
      returns for the request's URL is stored, and a generator that throws
      answers 500 and stores nothing. */
  lemma {:induction false} CreateGenerates(s: Store, faculty: int, body: Json, generate: Json -> Explained, writeFails: bool)
    requires Truthy(Get(body, "name")) && Truthy(Get(body, "youtube_url"))
    requires CreateManual(Get(body, "explanation")).None?
    ensures generate(Get(body, "youtube_url")).Throws? ==> Create(s, faculty, body, generate, writeFails) == (ServerError, s)
    ensures generate(Get(body, "youtube_url")).Text? && !writeFails ==>
              && Create(s, faculty, body, generate, writeFails).0.Created?
              && Create(s, faculty, body, generate, writeFails).0.explanation == generate(Get(body, "youtube_url")).value
              && Create(s, faculty, body, generate, writeFails).1.rows[s.nextId].explanation
                 == Stored(generate(Get(body, "youtube_url")).value)
  {
  }

  /** A non-blank manual explanation is stored trimmed and the generator is not consulted. */
  lemma {:induction false} CreateUsesManual(s: Store, faculty: int, body: Json, generate: Json -> Explained, out: (Reply, Store))
    requires Fresh(s) && out == Create(s, faculty, body, generate, false)
    requires Truthy(Get(body, "name")) && Truthy(Get(body, "youtube_url"))
    requires Truthy(Get(body, "explanation")) && !IsBlank(ToJsString(Get(body, "explanation")))
    ensures out.0.Created?
    ensures out.1.rows[out.0.id].explanation == Str(Trim(ToJsString(Get(body, "explanation"))))
    ensures forall g: Json -> Explained :: Create(s, faculty, body, g, false) == out
  {
  }

  /** The three-way choice of PUT's explanation. */
  function UpdateExplanation(stored: Experiment, manual: Json, url: Json, generate: Json -> Explained): (r: Explained)
    ensures UpdateManual(manual).Some? ==> r == Text(Str(UpdateManual(manual).value))
    ensures UpdateManual(manual).None? && Truthy(url) && !StrictEquals(url, stored.url) ==> r == generate(url)
    ensures UpdateManual(manual).None? && !(Truthy(url) && !StrictEquals(url, stored.url)) ==> r == Text(stored.explanation)
  {
    match UpdateManual(manual)
    case Some(t) => Text(Str(t))
    case None =>
      if Truthy(url) && !StrictEquals(url, stored.url) then generate(Coalesce(url, stored.url))
      else Text(stored.explanation)
  }

  /** `PUT /api/experiments/:id` by user `user`. */
  function Update(s: Store, user: int, id: int, body: Json, generate: Json -> Explained, writeFails: bool): (out: (Reply, Store))
    ensures id !in s.rows ==> out == (Failure(404, "Experiment not found"), s)
    ensures id in s.rows && s.rows[id].faculty != user ==> out == (Failure(403, "Not authorized"), s)
    ensures Status(out.0) != 200 ==> out.1 == s
    ensures out.1.nextId == s.nextId && out.1.rows.Keys == s.rows.Keys
    ensures forall other :: other in s.rows && other != id ==> out.1.rows[other] == s.rows[other]
  {
    if id !in s.rows then (Failure(404, "Experiment not found"), s)
    else
      var e := s.rows[id];
      if e.faculty != user then (Failure(403, "Not authorized"), s)
      else
        var name := Coalesce(Get(body, "name"), e.name);
        var url := Coalesce(Get(body, "youtube_url"), e.url);
        match UpdateExplanation(e, Get(body, "explanation"), Get(body, "youtube_url"), generate)
        case Throws => (ServerError, s)
        case Text(explanation) =>
          if writeFails then (ServerError, s)
          else
            (Updated(id, name, url, explanation),
             s.(rows := s.rows[id := Experiment(name, url, Stored(explanation), e.faculty)]))
  }

  /** Only the owner can change a row: any other user leaves the store as it was. */
  lemma {:induction false} UpdateOwnerOnly(s: Store, user: int, id: int, body: Json, generate: Json -> Explained, writeFails: bool)
    requires Update(s, user, id, body, generate, writeFails).1 != s
    ensures id in s.rows && s.rows[id].faculty == user
    ensures Status(Update(s, user, id, body, generate, writeFails).0) == 200
  {
  }

  /** A successful update takes each field from the request unless it is
      null or undefined, keeps the owner, and stores the chosen explanation. */
  lemma {:induction false} UpdateMerges(s: Store, user: int, id: int, body: Json, generate: Json -> Explained, out: (Reply, Store))
    requires out == Update(s, user, id, body, generate, false) && Status(out.0) == 200
    ensures id in s.rows && s.rows[id].faculty == user
    ensures var e := out.1.rows[id];
            var old_ := s.rows[id];
            && e.name == (if Nullish(Get(body, "name")) then old_.name else Get(body, "name"))
            && e.url == (if Nullish(Get(body, "youtube_url")) then old_.url else Get(body, "youtube_url"))
            && e.faculty == old_.faculty
            && e.explanation == Stored(UpdateExplanation(old_, Get(body, "explanation"), Get(body, "youtube_url"), generate).value)
  {
  }

  /** The generator is consulted exactly when no manual text is given and
      the request brings a different URL; it then gets the new URL. */
  lemma {:induction false} UpdateRegenerates(stored: Experiment, manual: Json, url: Json, generate: Json -> Explained)
    ensures (forall g: Json -> Explained :: UpdateExplanation(stored, manual, url, g) == UpdateExplanation(stored, manual, url, generate))
            || (UpdateManual(manual).None? && Truthy(url) && !StrictEquals(url, stored.url)
                && UpdateExplanation(stored, manual, url, generate) == generate(url))
  {
  }

  /** Sending the same successful update twice leaves the same store as sending it once. */
  lemma {:induction false} UpdateIdempotent(s: Store, user: int, id: int, body: Json, generate: Json -> Explained)
    requires Status(Update(s, user, id, body, generate, false).0) == 200
    ensures var s1 := Update(s, user, id, body, generate, false).1;
            Status(Update(s1, user, id, body, generate, false).0) == 200
            && Update(s1, user, id, body, generate, false).1 == s1
  {
    var s1 := Update(s, user, id, body, generate, false).1;
    var e := s.rows[id];
    var e1 := s1.rows[id];
    var manual := Get(body, "explanation");
    var url := Get(body, "youtube_url");
    var x := UpdateExplanation(e, manual, url, generate);
    assert e1.explanation == Stored(x.value);
    var x1 := UpdateExplanation(e1, manual, url, generate);
    if UpdateManual(manual).None? && Truthy(url) {
      assert e1.url == url;
      if StrictEquals(url, e.url) {
        assert StrictEquals(url, e1.url);
        assert x1 == Text(e1.explanation);
      }
    }
    assert Stored(x1.value) == e1.explanation;
  }

  /** `DELETE /api/experiments/:id` by user `user`. */
  function Delete(s: Store, user: int, id: int, writeFails: bool): (out: (Reply, Store))
    ensures id !in s.rows ==> out == (Failure(404, "Experiment not found"), s)
    ensures id in s.rows && s.rows[id].faculty != user ==> out == (Failure(403, "Not authorized"), s)
    ensures out.0 == Deleted <==> id in s.rows && s.rows[id].faculty == user && !writeFails
    ensures out.0 == Deleted ==> out.1 == s.(rows := s.rows - {id})
    ensures out.0 != Deleted ==> out.1 == s
  {
    if id !in s.rows then (Failure(404, "Experiment not found"), s)
    else if s.rows[id].faculty != user then (Failure(403, "Not authorized"), s)
    else if writeFails then (ServerError, s)
    else (Deleted, s.(rows := s.rows - {id}))
  }

  /** Deleting what one just created restores the rows; the id is not handed out again. */
  lemma {:induction false} CreateThenDelete(s: Store, faculty: int, body: Json, generate: Json -> Explained, out: (Reply, Store))
    requires Fresh(s) && out == Create(s, faculty, body, generate, false) && Status(out.0) == 201
    ensures out.0.Created?
    ensures var d := Delete(out.1, faculty, out.0.id, false);
            d.0 == Deleted && d.1.rows == s.rows && d.1.nextId > s.nextId && Fresh(d.1)
  {
    CreateAdds(s, faculty, body, generate, false, out);
    var d := Delete(out.1, faculty, out.0.id, false);
    assert d.1.rows == s.rows;
  }
}

=== FILE: grading.dfy ===
/** Quiz submission and the attempts listing (server/routes/quizzes.js,
    `POST /:id/submit` and `GET /:id/attempts`). The `options` table enters
    as a map from option id to its `is_correct` flag; the attempt and answer
    tables are sequences whose ids are position plus one. */
module Grading {
  import opened Wrappers
  import opened Js
  import opened QuizRoutes

  /** The raw score: `score = correct / total * 100`. With `total == 0` the
      division gives `NaN`, which the database stores and JSON sends as null. */
  datatype Score = Score(correct: nat, total: nat)

  /** A `quiz_attempts` row; `score` stays null until the update after grading. */
  datatype Attempt = Attempt(student: int, quizRef: string, total: nat, score: Option<Score>, at: int)

  /** A `student_answers` row. */
  datatype AnswerRow = AnswerRow(attempt: nat, questionId: Json, optionId: int, isCorrect: bool)

  /** The grading tables. */
  datatype Records = Records(attempts: seq<Attempt>, answers: seq<AnswerRow>)

  /** The state of the grading loop: correct answers so far, the answer rows
      written so far, and whether `answer.option_id` has thrown. */
  datatype Tally = Tally(correct: nat, rows: seq<AnswerRow>, thrown: bool)

  /** The integer the sqlite3 driver binds for `answer.option_id`: a number
      as itself and a boolean as 1 or 0. Anything else binds as a string,
      null or a bind error and names no integer id. */
  function BoundId(j: Json): Option<int> {
    match j
    case Num(n) => Some(n)
    case Bool(b) => Some(if b then 1 else 0)
    case _ => None
  }

  /** `SELECT is_correct FROM options WHERE id = ?` with `answer.option_id`
      bound: the matching id, if the bound value names an option. */
  function OptionKey(answer: Json, flags: map<int, bool>): (r: Option<int>)
    ensures r.Some? ==> r.value in flags
  {
    var id := BoundId(Get(answer, "option_id"));
    if id.Some? && id.value in flags then id else None
  }

  /** Only a number or a boolean option id can match, and then exactly the
      option whose id is that number, or 1 for `true` and 0 for `false`. */
  lemma {:induction false} OptionKeySpec(answer: Json, flags: map<int, bool>)
    ensures OptionKey(answer, flags).Some? <==>
              (Get(answer, "option_id").Num? && Get(answer, "option_id").n in flags)
              || (Get(answer, "option_id").Bool? && (if Get(answer, "option_id").b then 1 else 0) in flags)
    ensures OptionKey(answer, flags).Some? && Get(answer, "option_id").Num? ==>
              OptionKey(answer, flags).value == Get(answer, "option_id").n
    ensures OptionKey(answer, flags).Some? && Get(answer, "option_id").Bool? ==>
              OptionKey(answer, flags).value == if Get(answer, "option_id").b then 1 else 0
  {
  }

  /** A boolean option id matches the option whose id is 1 or 0: `true`
      scores exactly when option 1 is stored and flagged correct. */
  lemma {:induction false} BooleanOptionMatches(answer: Json, flags: map<int, bool>)
    requires Get(answer, "option_id") == Bool(true) && !Nullish(Get(answer, "question_id"))
    ensures Scores(answer, flags) <==> 1 in flags && flags[1]
    ensures 1 in flags ==> Step(Tally(0, [], false), answer, flags, 0).rows
                           == [AnswerRow(0, Get(answer, "question_id"), 1, flags[1])]
  {
  }

  /** Whether an answer makes the loop throw: a `null` or `undefined` answer
      throws on `answer.option_id`, and a known option whose `question_id`
      is missing or null breaks the `NOT NULL` constraint of
      `student_answers.question_id` (server/db.js:73) when its row is
      inserted. */
  predicate Fails(answer: Json, flags: map<int, bool>) {
    Nullish(answer) || (OptionKey(answer, flags).Some? && Nullish(Get(answer, "question_id")))
  }

  /** One turn of the loop: a failing answer throws (the count it may have
      bumped is lost with the reply); an unknown option is skipped; a known
      one is recorded with its stored flag. */
  function Step(t: Tally, answer: Json, flags: map<int, bool>, attempt: nat): Tally {
    if t.thrown then t
    else if Nullish(answer) then t.(thrown := true)
    else match OptionKey(answer, flags)
      case None => t
      case Some(id) =>
        if Nullish(Get(answer, "question_id")) then t.(thrown := true)
        else
          Tally(t.correct + (if flags[id] then 1 else 0),
                t.rows + [AnswerRow(attempt, Get(answer, "question_id"), id, flags[id])], false)
  }

  /** How many rows are flagged correct. */
  function CorrectRows(rows: seq<AnswerRow>): (n: nat)
    ensures n <= |rows|
  {
    if |rows| == 0 then 0 else CorrectRows(rows[..|rows| - 1]) + (if rows[|rows| - 1].isCorrect then 1 else 0)
  }

  /** The loop over `answers`, in order. The count is the number of rows
      flagged correct; every row names a stored option and copies its flag;
      the loop throws exactly when some answer fails. */
  function Grade(answers: seq<Json>, flags: map<int, bool>, attempt: nat): (t: Tally)
    ensures t.correct == CorrectRows(t.rows) && |t.rows| <= |answers|
    ensures forall k :: 0 <= k < |t.rows| ==>
              t.rows[k].attempt == attempt && t.rows[k].optionId in flags
              && t.rows[k].isCorrect == flags[t.rows[k].optionId] && !Nullish(t.rows[k].questionId)
    ensures t.thrown <==> exists k :: 0 <= k < |answers| && Fails(answers[k], flags)
    decreases |answers|
  {
    if |answers| == 0 then Tally(0, [], false)
    else
      var prior := Grade(answers[..|answers| - 1], flags, attempt);
      ThrownExtends(answers, answers[..|answers| - 1], prior, flags, attempt);
      Step(prior, answers[|answers| - 1], flags, attempt)
  }

  /** The throw rule carries over one more turn of the loop. */
  lemma {:induction false} ThrownExtends(answers: seq<Json>, init: seq<Json>, prior: Tally, flags: map<int, bool>, attempt: nat)
    requires |answers| > 0 && init == answers[..|answers| - 1]
    requires prior.thrown <==> exists k :: 0 <= k < |init| && Fails(init[k], flags)
    ensures Step(prior, answers[|answers| - 1], flags, attempt).thrown
            <==> exists k :: 0 <= k < |answers| && Fails(answers[k], flags)
  {
    var n := |answers| - 1;
    assert forall k :: 0 <= k < n ==> init[k] == answers[k];
    if Fails(answers[n], flags) {
      assert Step(prior, answers[n], flags, attempt).thrown;
    }
  }

  /** Whether an answer scores: it names a stored option flagged correct. */
  predicate Scores(answer: Json, flags: map<int, bool>) {
    OptionKey(answer, flags).Some? && flags[OptionKey(answer, flags).value]
  }

  /** An independent count of scoring answers, front to back. */
  function ScoringAnswers(answers: seq<Json>, flags: map<int, bool>): (n: nat)
    ensures n <= |answers|
  {
    if |answers| == 0 then 0
    else (if Scores(answers[0], flags) then 1 else 0) + ScoringAnswers(answers[1..], flags)
  }

  lemma {:induction false} ScoringAnswersAppend(a: seq<Json>, x: Json, flags: map<int, bool>)
    ensures ScoringAnswers(a + [x], flags) == ScoringAnswers(a, flags) + (if Scores(x, flags) then 1 else 0)
    decreases |a|
  {
    if |a| == 0 {
      assert a + [x] == [x];
    } else {
      assert (a + [x])[1..] == a[1..] + [x];
      ScoringAnswersAppend(a[1..], x, flags);
    }
  }

  /** When nothing throws, the count is exactly the number of answers that
      name a stored option flagged correct, so it never exceeds the number
      of answers. */
  lemma {:induction false} GradeCountsScoringAnswers(answers: seq<Json>, flags: map<int, bool>, attempt: nat)
    requires forall k :: 0 <= k < |answers| ==> !Fails(answers[k], flags)
    ensures Grade(answers, flags, attempt).correct == ScoringAnswers(answers, flags)
    decreases |answers|
  {
    if |answers| > 0 {
      var init := answers[..|answers| - 1];
      assert forall k :: 0 <= k < |init| ==> !Fails(init[k], flags);
      GradeCountsScoringAnswers(init, flags, attempt);
      CountsStep(answers, flags, attempt);
    }
  }

  /** The inductive step of `GradeCountsScoringAnswers`. */
  lemma {:induction false} CountsStep(answers: seq<Json>, flags: map<int, bool>, attempt: nat)
    requires |answers| > 0
    requires forall k :: 0 <= k < |answers| ==> !Fails(answers[k], flags)
    requires Grade(answers[..|answers| - 1], flags, attempt).correct == ScoringAnswers(answers[..|answers| - 1], flags)
    ensures Grade(answers, flags, attempt).correct == ScoringAnswers(answers, flags)
  {
    var n := |answers| - 1;
    var init, last := answers[..n], answers[n];
    var prior := Grade(init, flags, attempt);
    var bump := if Scores(last, flags) then 1 else 0;
    assert Grade(answers, flags, attempt).correct == prior.correct + bump by {
      assert forall k :: 0 <= k < |init| ==> !Fails(init[k], flags);
      NoFailureNoThrow(init, flags, attempt);
      assert !Fails(last, flags);
      GradeUnfold(answers, n, flags, attempt);
      assert answers[..n + 1] == answers;
      StepCounts(prior, last, flags, attempt);
    }
    assert ScoringAnswers(answers, flags) == ScoringAnswers(init, flags) + bump by {
      ScoringAnswersAppend(init, last, flags);
      assert init + [last] == answers;
    }
  }

  lemma {:induction false} NoFailureNoThrow(answers: seq<Json>, flags: map<int, bool>, attempt: nat)
    requires forall k :: 0 <= k < |answers| ==> !Fails(answers[k], flags)
    ensures !Grade(answers, flags, attempt).thrown
  {
  }

  /** A turn that does not fail adds one exactly for a scoring answer. */
  lemma {:induction false} StepCounts(t: Tally, answer: Json, flags: map<int, bool>, attempt: nat)
    requires !t.thrown && !Fails(answer, flags)
    ensures Step(t, answer, flags, attempt).correct == t.correct + (if Scores(answer, flags) then 1 else 0)
  {
  }

  /** Correctness is decided by the chosen option alone: two answer lists that
      agree on nullishness, on option ids and on whether each `question_id`
      is present score the same, whatever the present `question_id`s say. */
  lemma {:induction false} QuestionIdIrrelevant(a: seq<Json>, b: seq<Json>, flags: map<int, bool>, attempt: nat)
    requires |a| == |b|
    requires forall k :: 0 <= k < |a| ==> Nullish(a[k]) == Nullish(b[k])
    requires forall k :: 0 <= k < |a| ==> Get(a[k], "option_id") == Get(b[k], "option_id")
    requires forall k :: 0 <= k < |a| ==> Nullish(Get(a[k], "question_id")) == Nullish(Get(b[k], "question_id"))
    ensures Grade(a, flags, attempt).correct == Grade(b, flags, attempt).correct
    ensures Grade(a, flags, attempt).thrown == Grade(b, flags, attempt).thrown
    ensures |Grade(a, flags, attempt).rows| == |Grade(b, flags, attempt).rows|
    decreases |a|
  {
    if |a| > 0 {
      var n := |a| - 1;
      assert forall k :: 0 <= k < n ==> a[..n][k] == a[k] && b[..n][k] == b[k];
      QuestionIdIrrelevant(a[..n], b[..n], flags, attempt);
      StepAgrees(Grade(a[..n], flags, attempt), Grade(b[..n], flags, attempt), a[n], b[n], flags, attempt);
    }
  }

  lemma {:induction false} StepAgrees(t: Tally, u: Tally, x: Json, y: Json, flags: map<int, bool>, attempt: nat)
    requires t.correct == u.correct && t.thrown == u.thrown && |t.rows| == |u.rows|
    requires Nullish(x) == Nullish(y) && Get(x, "option_id") == Get(y, "option_id")
    requires Nullish(Get(x, "question_id")) == Nullish(Get(y, "question_id"))
    ensures Step(t, x, flags, attempt).correct == Step(u, y, flags, attempt).correct
    ensures Step(t, x, flags, attempt).thrown == Step(u, y, flags, attempt).thrown
    ensures |Step(t, x, flags, attempt).rows| == |Step(u, y, flags, attempt).rows|
  {
  }

  /** An answer naming a stored option but no question makes the submission
      fail, however the other answers look. */
  lemma {:induction false} MissingQuestionIdThrows(answers: seq<Json>, k: nat, flags: map<int, bool>, attempt: nat)
    requires k < |answers| && !Nullish(answers[k]) && Get(answers[k], "option_id").Num?
    requires Get(answers[k], "option_id").n in flags && Nullish(Get(answers[k], "question_id"))
    ensures Grade(answers, flags, attempt).thrown
  {
    assert Fails(answers[k], flags);
  }

  /** Unknown option ids are skipped: when no answer names a stored option,
      nothing is written and nothing scores. */
  lemma {:induction false} UnknownOptionsSkipped(answers: seq<Json>, flags: map<int, bool>, attempt: nat)
    requires forall k :: 0 <= k < |answers| ==> !Nullish(answers[k]) && OptionKey(answers[k], flags).None?
    ensures Grade(answers, flags, attempt) == Tally(0, [], false)
    decreases |answers|
  {
    if |answers| > 0 {
      var n := |answers| - 1;
      assert forall k :: 0 <= k < n ==> answers[..n][k] == answers[k];
      UnknownOptionsSkipped(answers[..n], flags, attempt);
    }
  }

  /** The loop as the route runs it: it stops at the first throw. */
  method GradeLoop(answers: seq<Json>, flags: map<int, bool>, attempt: nat) returns (correct: nat, rows: seq<AnswerRow>, thrown: bool)
    ensures Tally(correct, rows, thrown) == Grade(answers, flags, attempt)
  {
    correct, rows, thrown := 0, [], false;
    var i := 0;
    while i < |answers| && !thrown
      invariant 0 <= i <= |answers|
      invariant Tally(correct, rows, thrown) == Grade(answers[..i], flags, attempt)
    {
      GradeUnfold(answers, i, flags, attempt);
      ghost var before := Tally(correct, rows, thrown);
      var answer := answers[i];
      if Nullish(answer) {
        thrown := true;
      } else {
        var key := OptionKey(answer, flags);
        if key.Some? && Nullish(Get(answer, "question_id")) {
          thrown := true;
        } else if key.Some? {
          var isCorrect := flags[key.value];
          if isCorrect {
            correct := correct + 1;
          }
          rows := rows + [AnswerRow(attempt, Get(answer, "question_id"), key.value, isCorrect)];
        }
      }
      assert Tally(correct, rows, thrown) == Step(before, answer, flags, attempt);
      i := i + 1;
    }
    if i < |answers| {
      ThrowSticks(answers, i, flags, attempt);
    } else {
      assert answers[..i] == answers;
    }
  }

  lemma {:induction false} GradeUnfold(answers: seq<Json>, i: nat, flags: map<int, bool>, attempt: nat)
    requires i < |answers|
    ensures Grade(answers[..i + 1], flags, attempt) == Step(Grade(answers[..i], flags, attempt), answers[i], flags, attempt)
  {
    assert answers[..i + 1][..i] == answers[..i];
  }

  /** Once the loop has thrown, later answers change nothing. */
  lemma {:induction false} ThrowSticks(answers: seq<Json>, i: nat, flags: map<int, bool>, attempt: nat)
    requires i <= |answers| && Grade(answers[..i], flags, attempt).thrown
    ensures Grade(answers, flags, attempt) == Grade(answers[..i], flags, attempt)
    decreases |answers| - i
  {
    if i < |answers| {
      var n := |answers| - 1;
      assert answers[..n][..i] == answers[..i];
      ThrowSticks(answers[..n], i, flags, attempt);
    } else {
      assert answers[..i] == answers;
    }
  }

  // ---------------------------------------------------------------------------
  // POST /:id/submit
  // ---------------------------------------------------------------------------

  /** Which database call of the submit route fails, if any: the attempt
      INSERT, the lookup or answer INSERT made for answer `k` (counted from
      0), or the final score UPDATE. `AnswerFails(k)` with `k` past the last
      answer never fires. */
  datatype SubmitFault = NoFault | AttemptFails | AnswerFails(k: nat) | ScoreFails

  /** How many answers have their database work completed before a fault. */
  function Reached(fault: SubmitFault, n: nat): (c: nat)
    ensures c <= n
    ensures c < n <==> fault.AnswerFails? && fault.k < n
  {
    if fault.AnswerFails? && fault.k < n then fault.k else n
  }

  /** The submit route. The attempt row is inserted before grading with a
      null score; answer rows are written one by one; a throw or a failed
      call leaves both behind with the score still null, except that a
      failed attempt INSERT writes nothing. `now` is the insert's timestamp. */
  function Submit(recs: Records, student: int, quizRef: string, body: Json, flags: map<int, bool>, now: int,
                  fault: SubmitFault): (out: (Reply, Records))
    ensures !Get(body, "answers").Arr? ==> out == (Reply(400, Error("answers array required")), recs)
    ensures Get(body, "answers").Arr? && fault.AttemptFails? ==> out == (Reply(500, Thrown), recs)
    ensures Get(body, "answers").Arr? && !fault.AttemptFails? ==>
              var answers := Get(body, "answers").items;
              var t := Grade(answers[..Reached(fault, |answers|)], flags, |recs.attempts| + 1);
              var ok := !t.thrown && Reached(fault, |answers|) == |answers| && !fault.ScoreFails?;
              && |out.1.attempts| == |recs.attempts| + 1
              && out.1.attempts[..|recs.attempts|] == recs.attempts
              && out.1.answers == recs.answers + t.rows
              && out.1.attempts[|recs.attempts|]
                 == Attempt(student, quizRef, |answers|, if ok then Some(Score(t.correct, |answers|)) else None, now)
              && (!ok ==> out.0 == Reply(500, Thrown))
              && (ok ==> out.0 == Reply(200, Scored(t.correct, |answers|)))
  {
    var answers := Get(body, "answers");
    if !answers.Arr? then (Reply(400, Error("answers array required")), recs)
    else if fault.AttemptFails? then (Reply(500, Thrown), recs)
    else
      var id := |recs.attempts| + 1;
      var n := |answers.items|;
      var t := Grade(answers.items[..Reached(fault, n)], flags, id);
      var row := Attempt(student, quizRef, n, None, now);
      if t.thrown || Reached(fault, n) < n || fault.ScoreFails? then
        (Reply(500, Thrown), Records(recs.attempts + [row], recs.answers + t.rows))
      else
        (Reply(200, Scored(t.correct, n)),
         Records(recs.attempts + [row.(score := Some(Score(t.correct, n)))], recs.answers + t.rows))
  }

  /** A successful submission took no fault, reports every answer in the
      denominator, scores at most that many, and scores exactly the answers
      naming a stored correct option. */
  lemma {:induction false} SubmitScore(recs: Records, student: int, quizRef: string, body: Json, flags: map<int, bool>, now: int,
                                       fault: SubmitFault)
    requires Submit(recs, student, quizRef, body, flags, now, fault).0.status == 200
    ensures Get(body, "answers").Arr? && !fault.AttemptFails? && !fault.ScoreFails?
    ensures var answers := Get(body, "answers").items;
            Submit(recs, student, quizRef, body, flags, now, fault).0
            == Reply(200, Scored(ScoringAnswers(answers, flags), |answers|))
            && ScoringAnswers(answers, flags) <= |answers|
  {
    var answers := Get(body, "answers").items;
    assert answers[..|answers|] == answers;
    GradeCountsScoringAnswers(answers, flags, |recs.attempts| + 1);
  }

  /** A failed answer INSERT or lookup at answer `k` answers 500 and keeps
      the attempt row, with a null score, and the rows of the answers before
      `k`. */
  lemma {:induction false} AnswerFaultKeepsPrefix(recs: Records, student: int, quizRef: string, body: Json,
                                                  flags: map<int, bool>, now: int, k: nat)
    requires Get(body, "answers").Arr? && k < |Get(body, "answers").items|
    ensures var out := Submit(recs, student, quizRef, body, flags, now, AnswerFails(k));
            var answers := Get(body, "answers").items;
            && out.0 == Reply(500, Thrown)
            && out.1.attempts == recs.attempts + [Attempt(student, quizRef, |answers|, None, now)]
            && out.1.answers == recs.answers + Grade(answers[..k], flags, |recs.attempts| + 1).rows
  {
    var out := Submit(recs, student, quizRef, body, flags, now, AnswerFails(k));
    assert out.1.attempts == out.1.attempts[..|recs.attempts|] + [out.1.attempts[|recs.attempts|]];
  }

  /** A failed score UPDATE answers 500 after every answer row is written:
      the rows are those of a fault-free run, and the score stays null. */
  lemma {:induction false} ScoreFaultKeepsRows(recs: Records, student: int, quizRef: string, body: Json,
                                               flags: map<int, bool>, now: int)
    requires Get(body, "answers").Arr?
    ensures var bad := Submit(recs, student, quizRef, body, flags, now, ScoreFails);
            var good := Submit(recs, student, quizRef, body, flags, now, SubmitFault.NoFault);
            && bad.0 == Reply(500, Thrown)
            && bad.1.answers == good.1.answers
            && |bad.1.attempts| == |good.1.attempts|
            && bad.1.attempts[|recs.attempts|] == good.1.attempts[|recs.attempts|].(score := None)
  {
  }

  // ---------------------------------------------------------------------------
  // GET /:id/attempts
  // ---------------------------------------------------------------------------

  /** Each attempt is at least as recent as every later one in the list. */
  predicate Descending(attempts: seq<Attempt>) {
    forall i, j :: 0 <= i < j < |attempts| ==> attempts[i].at >= attempts[j].at
  }

  /** The rows `WHERE student_id = ? AND quiz_id = ?` selects, in insertion order. */
  function Matching(attempts: seq<Attempt>, student: int, quizRef: string): (r: seq<Attempt>)
    ensures forall a :: a in r <==> a in attempts && a.student == student && a.quizRef == quizRef
    decreases |attempts|
  {
    if |attempts| == 0 then []
    else
      var last := attempts[|attempts| - 1];
      var rest := Matching(attempts[..|attempts| - 1], student, quizRef);
      assert forall a :: a in attempts <==> a in attempts[..|attempts| - 1] || a == last;
      if last.student == student && last.quizRef == quizRef then rest + [last] else rest
  }

  /** Places `a` in a descending list, ahead of every row no more recent
      than it. */
  function InsertDescending(a: Attempt, s: seq<Attempt>): (r: seq<Attempt>)
    requires Descending(s)
    ensures |r| == |s| + 1 && multiset(r) == multiset(s) + multiset{a}
    ensures forall k :: 0 <= k < |r| ==> r[k] == a || r[k] in s
    ensures r[0] == a || (|s| > 0 && r[0] == s[0] && s[0].at > a.at)
    ensures Descending(r)
    decreases |s|
  {
    if |s| == 0 || s[0].at <= a.at then
      LeadsDescending(a, s);
      [a] + s
    else
      DescendingTail(s);
      var rest := InsertDescending(a, s[1..]);
      InsertBehind(a, s, rest);
      [s[0]] + rest
  }

  lemma {:induction false} DescendingTail(s: seq<Attempt>)
    requires Descending(s) && |s| > 0
    ensures Descending(s[1..])
  {
    var t := s[1..];
    forall i, j | 0 <= i < j < |t|
      ensures t[i].at >= t[j].at
    {
      assert t[i] == s[i + 1] && t[j] == s[j + 1];
    }
  }

  /** The recursive case of `InsertDescending`: `a` went behind the head. */
  lemma {:induction false} InsertBehind(a: Attempt, s: seq<Attempt>, rest: seq<Attempt>)
    requires Descending(s) && |s| > 0 && s[0].at > a.at
    requires multiset(rest) == multiset(s[1..]) + multiset{a} && Descending(rest)
    requires forall k :: 0 <= k < |rest| ==> rest[k] == a || rest[k] in s[1..]
    ensures multiset([s[0]] + rest) == multiset(s) + multiset{a}
    ensures forall k :: 0 <= k < |[s[0]] + rest| ==> ([s[0]] + rest)[k] == a || ([s[0]] + rest)[k] in s
    ensures Descending([s[0]] + rest)
  {
    assert [s[0]] + s[1..] == s;
    forall k | 0 <= k < |rest|
      ensures rest[k].at <= s[0].at && (rest[k] == a || rest[k] in s)
    {
      if rest[k] != a {
        HeadIsLatest(s, rest[k]);
      }
    }
    LeadsDescending(s[0], rest);
  }

  lemma {:induction false} HeadIsLatest(s: seq<Attempt>, x: Attempt)
    requires Descending(s) && |s| > 0 && x in s[1..]
    ensures x.at <= s[0].at && x in s
  {
    var m :| 0 <= m < |s[1..]| && s[1..][m] == x;
    assert s[m + 1] == x;
  }

  lemma {:induction false} LeadsDescending(a: Attempt, s: seq<Attempt>)
    requires Descending(s) && forall k :: 0 <= k < |s| ==> s[k].at <= a.at
    ensures Descending([a] + s)
  {
    var r := [a] + s;
    forall i, j | 0 <= i < j < |r|
      ensures r[i].at >= r[j].at
    {
      assert r[j] == s[j - 1];
      if i > 0 {
        assert r[i] == s[i - 1];
      }
    }
  }

  /** `WHERE student_id = ? AND quiz_id = ? ORDER BY attempted_at DESC`: the
      caller's rows at this quiz, most recent first. SQLite leaves the order
      of equal timestamps unspecified; the model lists the later-inserted
      row first. */
  function AttemptsFor(attempts: seq<Attempt>, student: int, quizRef: string): (r: seq<Attempt>)
    ensures forall a :: a in r <==> a in attempts && a.student == student && a.quizRef == quizRef
    ensures multiset(r) == multiset(Matching(attempts, student, quizRef))
    ensures Descending(r)
    decreases |attempts|
  {
    if |attempts| == 0 then []
    else
      var init, last := attempts[..|attempts| - 1], attempts[|attempts| - 1];
      var rest := AttemptsFor(init, student, quizRef);
      var r := if last.student == student && last.quizRef == quizRef then InsertDescending(last, rest) else rest;
      assert multiset(r) == multiset(Matching(attempts, student, quizRef));
      SameMembers(r, Matching(attempts, student, quizRef));
      r
  }

  lemma {:induction false} SameMembers(r: seq<Attempt>, m: seq<Attempt>)
    requires multiset(r) == multiset(m)
    ensures forall a :: a in r <==> a in m
  {
    forall a
      ensures a in r <==> a in m
    {
      assert a in r <==> a in multiset(r);
      assert a in m <==> a in multiset(m);
    }
  }

  /** After a submission whose attempt row was inserted, the listing is
      non-empty and its first row is no older than the new attempt. When
      every earlier attempt is strictly older, the listing leads with the
      new attempt. A failed attempt INSERT changes nothing. */
  lemma {:induction false} SubmitThenList(recs: Records, student: int, quizRef: string, body: Json, flags: map<int, bool>, now: int,
                                          fault: SubmitFault)
    requires Get(body, "answers").Arr?
    ensures fault.AttemptFails? ==> Submit(recs, student, quizRef, body, flags, now, fault).1 == recs
    ensures !fault.AttemptFails? ==>
              var recs' := Submit(recs, student, quizRef, body, flags, now, fault).1;
              var listed := AttemptsFor(recs'.attempts, student, quizRef);
              |listed| > 0 && listed[0].at >= now
              && ((forall i :: 0 <= i < |recs.attempts| ==> recs.attempts[i].at < now)
                  ==> listed[0] == recs'.attempts[|recs.attempts|])
  {
    if !fault.AttemptFails? {
      var recs' := Submit(recs, student, quizRef, body, flags, now, fault).1;
      var row := recs'.attempts[|recs.attempts|];
      assert recs'.attempts[..|recs'.attempts| - 1] == recs.attempts;
      var before := AttemptsFor(recs.attempts, student, quizRef);
      assert AttemptsFor(recs'.attempts, student, quizRef) == InsertDescending(row, before);
      if forall i :: 0 <= i < |recs.attempts| ==> recs.attempts[i].at < now {
        if |before| > 0 {
          assert before[0] in recs.attempts;
        }
      }
    }
  }

  /** The listing shows the same rows as the plain selection, only reordered. */
  lemma {:induction false} AttemptsForCount(attempts: seq<Attempt>, student: int, quizRef: string)
    ensures |AttemptsFor(attempts, student, quizRef)| == |Matching(attempts, student, quizRef)|
  {
    var r := AttemptsFor(attempts, student, quizRef);
    assert |multiset(r)| == |multiset(Matching(attempts, student, quizRef))|;
  }
}

=== FILE: js_number.dfy ===
/** JavaScript's `Number(s)` on strings (`StringToNumber`, section 7.1.4.1.1
    of ECMA-262): the StringNumericLiteral grammar with its decimal, hex,
    octal and binary forms and the signed `Infinity`. A literal's value is
    kept exact; the rounding to the nearest double is not modelled (see
    README). */
module JsNumbers {
  import opened Wrappers
  import opened Text

  /** A number as `ToNumber` produces it. */
  datatype JsNumber = NaN | Finite(value: real) | PosInf | NegInf

  function Pow10(e: nat): (r: nat)
    ensures r >= 1
  {
    if e == 0 then 1 else 10 * Pow10(e - 1)
  }

  /** `v` times ten to the power `e`. */
  function Scale(v: real, e: int): real {
    if e >= 0 then v * Pow10(e) as real else v / Pow10(-e) as real
  }

  // ---------------------------------------------------------------------------
  // NonDecimalIntegerLiteral: 0x…, 0o…, 0b…
  // ---------------------------------------------------------------------------

  /** The value of a hex digit (either case), or `None`. */
  function HexDigit(c: char): (r: Option<nat>)
    ensures r.Some? ==> r.value < 16
    ensures IsDigit(c) ==> r == Some(DigitValue(c))
  {
    if IsDigit(c) then Some(DigitValue(c))
    else if 'a' <= c <= 'f' then Some(c as int - 'a' as int + 10)
    else if 'A' <= c <= 'F' then Some(c as int - 'A' as int + 10)
    else None
  }

  /** Every character is a digit of the given base. */
  predicate InRadix(s: string, base: nat) {
    forall i :: 0 <= i < |s| ==> HexDigit(s[i]).Some? && HexDigit(s[i]).value < base
  }

  /** The value of a string of digits in the given base, most significant first. */
  function RadixValue(s: string, base: nat): nat
    requires InRadix(s, base)
  {
    if |s| == 0 then 0 else
      InRadixInit(s, base);
      RadixValue(s[..|s| - 1], base) * base + HexDigit(s[|s| - 1]).value
  }

  lemma {:induction false} InRadixInit(s: string, base: nat)
    requires InRadix(s, base) && |s| > 0
    ensures InRadix(s[..|s| - 1], base)
    ensures HexDigit(s[|s| - 1]).Some?
  {
    var init := s[..|s| - 1];
    forall i | 0 <= i < |init|
      ensures HexDigit(init[i]).Some? && HexDigit(init[i]).value < base
    {
      assert init[i] == s[i];
    }
  }

  /** The base a `0x`, `0o` or `0b` prefix (either case) selects. */
  function PrefixBase(c: char): Option<nat> {
    if c == 'x' || c == 'X' then Some(16)
    else if c == 'o' || c == 'O' then Some(8)
    else if c == 'b' || c == 'B' then Some(2)
    else None
  }

  // ---------------------------------------------------------------------------
  // StrUnsignedDecimalLiteral
  // ---------------------------------------------------------------------------

  /** The position of the first `e` or `E`. */
  function ExponentMark(s: string): (r: Option<nat>)
    ensures r.Some? ==> r.value < |s| && (s[r.value] == 'e' || s[r.value] == 'E')
    ensures r.None? ==> forall i :: 0 <= i < |s| ==> s[i] != 'e' && s[i] != 'E'
  {
    if |s| == 0 then None
    else if s[0] == 'e' || s[0] == 'E' then Some(0)
    else match ExponentMark(s[1..])
      case None => None
      case Some(k) => Some(k + 1)
  }

  /** `DecimalDigits`, `DecimalDigits .`, `DecimalDigits . DecimalDigits` or
      `. DecimalDigits`: the digits before and after the point. */
  function Mantissa(m: string): (r: Option<(string, string)>)
    ensures r.Some? ==> AllDigits(r.value.0) && AllDigits(r.value.1) && |r.value.0| + |r.value.1| > 0
  {
    var (ip, fp) := match FirstIndex(m, '.')
      case None => (m, "")
      case Some(d) => (m[..d], m[d + 1..]);
    if AllDigits(ip) && AllDigits(fp) && |ip| + |fp| > 0 then Some((ip, fp)) else None
  }

  /** `ExponentPart` after its `e`: an optional sign and at least one digit. */
  function Exponent(x: string): (r: Option<int>) {
    var digits := if |x| > 0 && (x[0] == '+' || x[0] == '-') then x[1..] else x;
    if |digits| > 0 && AllDigits(digits) then
      Some(if x[0] == '-' then 0 - DigitsValue(digits) else DigitsValue(digits))
    else None
  }

  /** The value of an unsigned decimal literal, or `None` when `s` is not one. */
  function UnsignedDecimal(s: string): Option<real> {
    var (m, x) := match ExponentMark(s)
      case None => (s, None)
      case Some(k) => (s[..k], Some(s[k + 1..]));
    match Mantissa(m)
    case None => None
    case Some((ip, fp)) =>
      if x.None? then Some(DigitsValue(ip + fp) as real / Pow10(|fp|) as real)
      else match Exponent(x.value)
        case None => None
        case Some(e) => Some(Scale(DigitsValue(ip + fp) as real / Pow10(|fp|) as real, e))
  }

  // ---------------------------------------------------------------------------
  // StringToNumber
  // ---------------------------------------------------------------------------

  /** `Number(s)`: surrounding white space is ignored and the empty string is 0. */
  function StringToNumber(s: string): (r: JsNumber)
    ensures IsBlank(s) ==> r == Finite(0.0)
  {
    BlankIffAllSpace(s);
    LiteralValue(Trim(s))
  }

  /** The value of a trimmed StringNumericLiteral: `0x`/`0o`/`0b` literals
      take no sign; a decimal literal or `Infinity` may be signed; anything
      else is `NaN`. */
  function LiteralValue(t: string): JsNumber {
    if |t| == 0 then Finite(0.0)
    else if |t| >= 2 && t[0] == '0' && PrefixBase(t[1]).Some? then
      var base := PrefixBase(t[1]).value;
      if |t| > 2 && InRadix(t[2..], base) then Finite(RadixValue(t[2..], base) as real) else NaN
    else
      var negative := t[0] == '-';
      var body := if t[0] == '-' || t[0] == '+' then t[1..] else t;
      if body == "Infinity" then (if negative then NegInf else PosInf)
      else match UnsignedDecimal(body)
        case None => NaN
        case Some(v) => Finite(if negative then -v else v)
  }

  /** A decimal literal starts with a digit or the point. */
  lemma {:induction false} DecimalStart(s: string)
    requires UnsignedDecimal(s).Some?
    ensures |s| > 0 && (s[0] == '.' || IsDigit(s[0]))
  {
    var m := match ExponentMark(s) case None => s case Some(k) => s[..k];
    var (ip, fp) := Mantissa(m).value;
    match FirstIndex(m, '.')
    case None =>
    case Some(d) =>
      if d > 0 {
        assert m[0] == ip[0];
      }
  }

  // ---------------------------------------------------------------------------
  // Properties
  // ---------------------------------------------------------------------------

  /** Plain digits are their decimal value. */
  lemma {:induction false} DigitsExact(s: string)
    requires |s| > 0 && AllDigits(s)
    ensures UnsignedDecimal(s) == Some(DigitsValue(s) as real)
  {
    assert ExponentMark(s).None?;
    assert FirstIndex(s, '.').None?;
    assert s + "" == s;
  }

  /** `ip.fp` is the digits of both parts over a power of ten. */
  lemma {:induction false} FractionExact(ip: string, fp: string)
    requires AllDigits(ip) && AllDigits(fp) && |ip| + |fp| > 0
    ensures UnsignedDecimal(ip + "." + fp) == Some(DigitsValue(ip + fp) as real / Pow10(|fp|) as real)
  {
    var s := ip + "." + fp;
    assert ExponentMark(s).None?;
    FirstIndexAfter(ip, '.', fp);
    assert s == ip + ['.'] + fp;
    assert s[..|ip|] == ip && s[|ip| + 1..] == fp;
  }

  /** `ip e ex` scales the digits by a power of ten. */
  lemma {:induction false} ExponentExact(ip: string, ex: string)
    requires |ip| > 0 && AllDigits(ip) && |ex| > 0 && AllDigits(ex)
    ensures UnsignedDecimal(ip + "e" + ex) == Some(Scale(DigitsValue(ip) as real, DigitsValue(ex)))
  {
    var s := ip + "e" + ex;
    ExponentMarkAfter(ip, ex);
    assert s[..|ip|] == ip && s[|ip| + 1..] == ex;
    DigitsExact(ip);
    assert ip + "" == ip;
  }

  lemma {:induction false} ExponentMarkAfter(ip: string, ex: string)
    requires AllDigits(ip)
    ensures ExponentMark(ip + "e" + ex) == Some(|ip|)
    decreases |ip|
  {
    if |ip| == 0 {
      assert ip + "e" + ex == ['e'] + ex;
    } else {
      assert (ip + "e" + ex)[1..] == ip[1..] + "e" + ex;
      ExponentMarkAfter(ip[1..], ex);
    }
  }

  /** A tight string that starts with a digit other than a leading zero
      followed by a base letter is read as a decimal literal. */
  lemma {:induction false} DecimalRead(t: string)
    requires Tight(t) && |t| > 0 && IsDigit(t[0]) && UnsignedDecimal(t).Some?
    requires |t| >= 2 && t[0] == '0' ==> PrefixBase(t[1]).None?
    ensures StringToNumber(t) == Finite(UnsignedDecimal(t).value)
  {
    TightIsTrimmed(t);
    assert t != "Infinity" by {
      assert t[0] != 'I';
    }
    assert StringToNumber(t) == LiteralValue(t);
  }

  /** A leading minus negates a decimal literal. */
  lemma {:induction false} NegatedRead(t: string)
    requires Tight(t) && |t| > 1 && t[0] == '-' && UnsignedDecimal(t[1..]).Some?
    ensures StringToNumber(t) == Finite(-UnsignedDecimal(t[1..]).value)
  {
    TightIsTrimmed(t);
    assert t[1..] != "Infinity" by {
      DecimalStart(t[1..]);
      assert t[1..][0] != 'I';
    }
    assert StringToNumber(t) == LiteralValue(t);
  }

  /** The decimal string of an integer converts back to that integer. */
  lemma {:induction false} StringToNumberOfIntToString(i: int)
    ensures StringToNumber(IntToString(i)) == Finite(i as real)
  {
    var s := IntToString(i);
    IntToStringShape(i);
    if i < 0 {
      NatToStringValue(-i);
      assert s[1..] == NatToString(-i);
      DigitsExact(s[1..]);
      NegatedRead(s);
    } else {
      NatToStringValue(i);
      DigitsExact(s);
      DecimalRead(s);
    }
  }

  /** `0x`, `0o` and `0b` literals read in their base. */
  lemma {:induction false} RadixRead(c: char, ds: string)
    requires PrefixBase(c).Some? && |ds| > 0 && InRadix(ds, PrefixBase(c).value)
    requires !IsSpace(ds[|ds| - 1])
    ensures StringToNumber(['0', c] + ds) == Finite(RadixValue(ds, PrefixBase(c).value) as real)
  {
    var t := ['0', c] + ds;
    assert t[|t| - 1] == ds[|ds| - 1];
    TightIsTrimmed(t);
    assert t[2..] == ds;
  }

  /** Literal forms a count can arrive in: an exponent, a hex prefix, a
      fraction and `Infinity` are all read as numbers, not as `NaN`. */
  lemma {:induction false} NumericForms()
    ensures StringToNumber("1e3") == Finite(1000.0)
    ensures StringToNumber("2e1") == Finite(20.0)
    ensures StringToNumber("0x15") == Finite(21.0)
    ensures StringToNumber("0.5") == Finite(0.5)
    ensures StringToNumber("20.5") == Finite(20.5)
    ensures StringToNumber("Infinity") == PosInf
  {
    ThousandRead();
    TwentyRead();
    HexRead();
    HalfRead();
    TwentyAndAHalfRead();
    InfinityRead();
  }

  lemma {:induction false} ExponentRead(ip: string, ex: string)
    requires |ip| > 0 && AllDigits(ip) && ip[0] != '0' && |ex| > 0 && AllDigits(ex)
    ensures StringToNumber(ip + "e" + ex) == Finite(Scale(DigitsValue(ip) as real, DigitsValue(ex)))
  {
    var t := ip + "e" + ex;
    ExponentExact(ip, ex);
    assert t[0] == ip[0] && t[|t| - 1] == ex[|ex| - 1];
    DecimalRead(t);
  }

  lemma {:induction false} FractionRead(ip: string, fp: string)
    requires |ip| > 0 && AllDigits(ip) && |fp| > 0 && AllDigits(fp)
    ensures StringToNumber(ip + "." + fp) == Finite(DigitsValue(ip + fp) as real / Pow10(|fp|) as real)
  {
    var t := ip + "." + fp;
    FractionExact(ip, fp);
    assert t[0] == ip[0] && t[|t| - 1] == fp[|fp| - 1];
    assert PrefixBase(t[1]).None? by {
      if |ip| > 1 {
        assert t[1] == ip[1];
        assert IsDigit(t[1]);
      } else {
        assert t[1] == '.';
      }
    }
    DecimalRead(t);
  }

  lemma {:induction false} ThousandRead()
    ensures StringToNumber("1e3") == Finite(1000.0)
  {
    assert "1" + "e" + "3" == "1e3";
    assert Pow10(3) == 1000;
    ScaledValue("1", "3", 1000.0);
    ExponentRead("1", "3");
  }

  lemma {:induction false} TwentyRead()
    ensures StringToNumber("2e1") == Finite(20.0)
  {
    assert "2" + "e" + "1" == "2e1";
    ScaledValue("2", "1", 20.0);
    ExponentRead("2", "1");
  }

  /** The value of a one-digit mantissa with a one-digit exponent. */
  lemma {:induction false} ScaledValue(ip: string, ex: string, v: real)
    requires |ip| == 1 && IsDigit(ip[0]) && |ex| == 1 && IsDigit(ex[0])
    requires DigitValue(ip[0]) as real * Pow10(DigitValue(ex[0])) as real == v
    ensures Scale(DigitsValue(ip) as real, DigitsValue(ex)) == v
  {
    assert ip[..0] == [] && ex[..0] == [];
  }

  lemma {:induction false} HalfRead()
    ensures StringToNumber("0.5") == Finite(0.5)
  {
    FractionRead("0", "5");
    assert "0" + "." + "5" == "0.5";
    assert "0" + "5" == "05";
    assert DigitsValue("05") == 5 by {
      assert "05"[..1] == "0";
    }
    TenthOf(5, 0.5);
  }

  lemma {:induction false} TwentyAndAHalfRead()
    ensures StringToNumber("20.5") == Finite(20.5)
  {
    FractionRead("20", "5");
    assert "20" + "." + "5" == "20.5";
    assert "20" + "5" == "205";
    assert DigitsValue("205") == 205 by {
      assert "205"[..2] == "20";
      assert "20"[..1] == "2";
    }
    TenthOf(205, 20.5);
  }

  lemma {:induction false} TenthOf(n: nat, r: real)
    requires r * 10.0 == n as real
    ensures n as real / Pow10(1) as real == r
  {
    assert Pow10(1) == 10;
  }

  lemma {:induction false} InfinityRead()
    ensures StringToNumber("Infinity") == PosInf
  {
    TightIsTrimmed("Infinity");
    assert StringToNumber("Infinity") == LiteralValue("Infinity");
  }

  lemma {:induction false} HexRead()
    ensures StringToNumber("0x15") == Finite(21.0)
  {
    assert "0x15" == ['0', 'x'] + "15";
    RadixRead('x', "15");
    assert "15"[..1] == "1";
  }

  /** A sign is refused on a hex literal, and an exponent needs digits. */
  lemma {:induction false} MalformedForms()
    ensures StringToNumber("-0x15") == NaN
    ensures StringToNumber("1e") == NaN
  {
    SignedHexRead();
    BareExponentRead();
  }

  lemma {:induction false} SignedHexRead()
    ensures StringToNumber("-0x15") == NaN
  {
    TightIsTrimmed("-0x15");
    assert "-0x15"[1..] == "0x15";
    assert ExponentMark("0x15") == None;
    assert FirstIndex("0x15", '.') == None;
    assert !AllDigits("0x15") by {
      assert !IsDigit("0x15"[1]);
    }
  }

  lemma {:induction false} BareExponentRead()
    ensures StringToNumber("1e") == NaN
  {
    TightIsTrimmed("1e");
    assert ExponentMark("1e") == Some(1);
    assert "1e"[2..] == "";
  }

  /** White space around a string does not change its number. */
  lemma {:induction false} PaddingIgnored(p: string, s: string, q: string)
    requires AllSpace(p) && AllSpace(q)
    ensures StringToNumber(p + s + q) == StringToNumber(s)
  {
    TrimPadded(p, s, q);
  }
}

=== FILE: json.dfy ===
/** Untrusted request bodies and AI output as JavaScript sees them after
    `JSON.parse`, with the handful of JavaScript operators the routes apply to
    them: truthiness, `typeof`, `Array.isArray`, optional property access,
    `||`, `??`, `===` and `String(x)`. */
module Js {
  import opened Wrappers
  import opened Text
  import opened JsNumbers

  /** A JavaScript value reachable from parsed JSON, plus `undefined` (what a
      missing property reads as). Numbers are integral; see README. */
  datatype Json =
    | Undefined
    | Null
    | Bool(b: bool)
    | Num(n: int)
    | Str(s: string)
    | Arr(items: seq<Json>)
    | Obj(fields: map<string, Json>)

  /** The result of JavaScript's `typeof`. */
  datatype TypeTag = TUndefined | TObject | TBoolean | TNumber | TString

  function TypeOf(j: Json): TypeTag {
    match j
    case Undefined => TUndefined
    case Null => TObject
    case Bool(_) => TBoolean
    case Num(_) => TNumber
    case Str(_) => TString
    case Arr(_) => TObject
    case Obj(_) => TObject
  }

  /** JavaScript truthiness (`!!j`): `undefined`, `null`, `false`, `0` and `""` are falsy. */
  predicate Truthy(j: Json) {
    match j
    case Undefined => false
    case Null => false
    case Bool(b) => b
    case Num(n) => n != 0
    case Str(s) => |s| > 0
    case Arr(_) => true
    case Obj(_) => true
  }

  /** `x == null`: the value `??` and `?.` treat as missing. */
  predicate Nullish(j: Json) {
    j.Undefined? || j.Null?
  }

  /** `!x || typeof x !== 'object' || Array.isArray(x)` is false exactly for plain objects. */
  predicate IsPlainObject(j: Json) {
    Truthy(j) && TypeOf(j) == TObject && !j.Arr?
  }

  lemma {:induction false} PlainObjectIsObj(j: Json)
    ensures IsPlainObject(j) <==> j.Obj?
  {
  }

  /** `j?.key` for the property names the routes read: an own field of an
      object, `undefined` otherwise (none of those names is a built-in property
      of strings, arrays or numbers). */
  function Get(j: Json, key: string): (r: Json)
    ensures j.Obj? && key in j.fields ==> r == j.fields[key]
    ensures !(j.Obj? && key in j.fields) ==> r.Undefined?
  {
    if j.Obj? && key in j.fields then j.fields[key] else Undefined
  }

  /** The elements of an array value; nothing for any other value. */
  function Items(j: Json): (r: seq<Json>)
    ensures j.Arr? ==> r == j.items
    ensures !j.Arr? ==> r == []
  {
    if j.Arr? then j.items else []
  }

  /** `a || b`: the first operand when it is truthy, otherwise the second. */
  function Or(a: Json, b: Json): (r: Json)
    ensures Truthy(a) ==> r == a
    ensures !Truthy(a) ==> r == b
  {
    if Truthy(a) then a else b
  }

  /** `a ?? b`: the first operand unless it is `null` or `undefined`. */
  function Coalesce(a: Json, b: Json): (r: Json)
    ensures !Nullish(a) ==> r == a
    ensures Nullish(a) ==> r == b
  {
    if Nullish(a) then b else a
  }

  /** `a === b` between a value from a request and a value read back from the
      database: primitives compare by value; an array or object is a fresh
      object and so is never identical to anything else. */
  predicate StrictEquals(a: Json, b: Json) {
    match (a, b)
    case (Undefined, Undefined) => true
    case (Null, Null) => true
    case (Bool(x), Bool(y)) => x == y
    case (Num(x), Num(y)) => x == y
    case (Str(x), Str(y)) => x == y
    case _ => false
  }

  /** `String(j)`, as also used by template literals. */
  function ToJsString(j: Json): string
    decreases j
  {
    match j
    case Undefined => "undefined"
    case Null => "null"
    case Bool(b) => if b then "true" else "false"
    case Num(n) => IntToString(n)
    case Str(s) => s
    case Arr(items) =>
      Join(seq(|items|, i requires 0 <= i < |items| =>
             if Nullish(items[i]) then "" else ToJsString(items[i])), ',')
    case Obj(_) => "[object Object]"
  }

  /** The object literal `{ k1: v1, ... }` as `JSON.stringify` sends it: keys
      whose value is `undefined` are dropped. */
  function ObjectOf(fields: map<string, Json>): (r: Json)
    ensures r.Obj?
    ensures forall k :: k in r.fields <==> k in fields && !fields[k].Undefined?
    ensures forall k :: Get(r, k) == Get(Obj(fields), k)
  {
    Obj(map k | k in fields && !fields[k].Undefined? :: fields[k])
  }

  /** JavaScript's `ToNumber`, as applied by `<` and `>` to one operand when
      the other is a number. Arrays and objects go through their string form. */
  function ToNumber(j: Json): (r: JsNumber)
  {
    match j
    case Undefined => NaN
    case Null => Finite(0.0)
    case Bool(b) => Finite(if b then 1.0 else 0.0)
    case Num(n) => Finite(n as real)
    case Str(s) => StringToNumber(s)
    case Arr(_) => StringToNumber(ToJsString(j))
    case Obj(_) => StringToNumber(ToJsString(j))
  }

  /** `j < n` for a number literal `n`: false whenever `j` converts to `NaN`. */
  predicate LessThan(j: Json, n: int) {
    match ToNumber(j)
    case NaN => false
    case Finite(x) => x < n as real
    case PosInf => false
    case NegInf => true
  }

  /** `j > n` for a number literal `n`: false whenever `j` converts to `NaN`. */
  predicate GreaterThan(j: Json, n: int) {
    match ToNumber(j)
    case NaN => false
    case Finite(x) => x > n as real
    case PosInf => true
    case NegInf => false
  }
}

=== FILE: question_store.dfy ===
/** The quiz tables the question routes write (server/db.js): quizzes,
    questions and options, with row ids equal to position plus one (rows are
    never deleted by the routes modelled here). */
module QuestionStore {
  import opened Js
  import opened QuestionValidation

  /** A `quizzes` row: the experiment id and title exactly as the request sent them. */
  datatype QuizRow = QuizRow(experimentId: Json, title: Json)

  /** A `questions` row; `quizRef` is the raw `:id` path segment the routes bind. */
  datatype QuestionRow = QuestionRow(quizRef: string, text: Json)

  /** An `options` row; `questionId` is the id of its question row. */
  datatype OptionRow = OptionRow(questionId: nat, text: Json, isCorrect: bool)

  /** The tables. `owners` is the experiments side of the quiz-ownership join:
      experiment id to the id of the faculty member who created it. */
  datatype Db = Db(owners: map<int, int>, quizzes: seq<QuizRow>, questions: seq<QuestionRow>, options: seq<OptionRow>)

  /** An option about to be inserted. */
  datatype NewOption = NewOption(text: Json, isCorrect: bool)

  /** Every option row belongs to an existing question row. */
  predicate Consistent(db: Db) {
    forall k :: 0 <= k < |db.options| ==> 1 <= db.options[k].questionId <= |db.questions|
  }

  /** `SELECT ... FROM options WHERE question_id = qid`, in insertion order. */
  function OptionsOf(rows: seq<OptionRow>, qid: nat): (r: seq<OptionRow>)
    ensures |r| <= |rows|
    ensures forall k :: 0 <= k < |r| ==> r[k].questionId == qid
  {
    if |rows| == 0 then []
    else (if rows[0].questionId == qid then [rows[0]] else []) + OptionsOf(rows[1..], qid)
  }

  /** How many of `rows` are flagged correct. */
  function CorrectCount(rows: seq<OptionRow>): (n: nat)
    ensures n <= |rows|
  {
    if |rows| == 0 then 0
    else (if rows[0].isCorrect then 1 else 0) + CorrectCount(rows[1..])
  }

  /** A question a student can answer: at least two options, exactly one correct. */
  predicate Playable(db: Db, qid: nat) {
    var os := OptionsOf(db.options, qid);
    |os| >= 2 && CorrectCount(os) == 1
  }

  /** The option rows written for question `qid`, in request order. */
  function OptionRows(qid: nat, opts: seq<NewOption>): (r: seq<OptionRow>)
    ensures |r| == |opts|
    ensures forall k :: 0 <= k < |r| ==> r[k] == OptionRow(qid, opts[k].text, opts[k].isCorrect)
  {
    seq(|opts|, k requires 0 <= k < |opts| => OptionRow(qid, opts[k].text, opts[k].isCorrect))
  }

  /** The options of a sanitised question as they are bound to the insert. */
  function Choices(options: seq<Choice>): (r: seq<NewOption>)
    ensures |r| == |options|
    ensures forall k :: 0 <= k < |r| ==> r[k] == NewOption(Str(options[k].text), options[k].isCorrect)
  {
    seq(|options|, k requires 0 <= k < |options| => NewOption(Str(options[k].text), options[k].isCorrect))
  }

  // ---------------------------------------------------------------------------
  // Filtering and counting
  // ---------------------------------------------------------------------------

  lemma {:induction false} OptionsOfAppend(a: seq<OptionRow>, b: seq<OptionRow>, qid: nat)
    ensures OptionsOf(a + b, qid) == OptionsOf(a, qid) + OptionsOf(b, qid)
  {
    if |a| == 0 {
      assert a + b == b;
    } else {
      assert (a + b)[0] == a[0];
      assert (a + b)[1..] == a[1..] + b;
      OptionsOfAppend(a[1..], b, qid);
    }
  }

  lemma {:induction false} OptionsOfNone(rows: seq<OptionRow>, qid: nat)
    requires forall k :: 0 <= k < |rows| ==> rows[k].questionId != qid
    ensures OptionsOf(rows, qid) == []
  {
    if |rows| > 0 {
      OptionsOfNone(rows[1..], qid);
    }
  }

  lemma {:induction false} OptionsOfAll(rows: seq<OptionRow>, qid: nat)
    requires forall k :: 0 <= k < |rows| ==> rows[k].questionId == qid
    ensures OptionsOf(rows, qid) == rows
  {
    if |rows| > 0 {
      OptionsOfAll(rows[1..], qid);
      assert rows == [rows[0]] + rows[1..];
    }
  }

  /** Exactly one flagged row gives a count of one. */
  lemma {:induction false} CorrectCountOne(rows: seq<OptionRow>, k: nat)
    requires k < |rows| && rows[k].isCorrect
    requires forall j :: 0 <= j < |rows| && j != k ==> !rows[j].isCorrect
    ensures CorrectCount(rows) == 1
  {
    if k == 0 {
      CorrectCountNone(rows[1..]);
    } else {
      CorrectCountOne(rows[1..], k - 1);
    }
  }

  lemma {:induction false} CorrectCountNone(rows: seq<OptionRow>)
    requires forall j :: 0 <= j < |rows| ==> !rows[j].isCorrect
    ensures CorrectCount(rows) == 0
  {
    if |rows| > 0 {
      CorrectCountNone(rows[1..]);
    }
  }

  // ---------------------------------------------------------------------------
  // Writes
  // ---------------------------------------------------------------------------

  /** `INSERT INTO questions` followed by one `INSERT INTO options` per option:
      one question row is appended, every option row still belongs to a
      question, and no other table changes. */
  function InsertQuestion(db: Db, ref: string, text: Json, opts: seq<NewOption>): (r: Db)
    ensures r.owners == db.owners && r.quizzes == db.quizzes
    ensures r.questions == db.questions + [QuestionRow(ref, text)]
    ensures Consistent(db) ==> Consistent(r)
  {
    db.(questions := db.questions + [QuestionRow(ref, text)],
        options := db.options + OptionRows(|db.questions| + 1, opts))
  }

  /** The new question gets exactly the given options, in order, and no
      other question's options change. */
  lemma {:induction false} InsertQuestionOptions(db: Db, ref: string, text: Json, opts: seq<NewOption>, r: Db)
    requires Consistent(db) && r == InsertQuestion(db, ref, text, opts)
    ensures OptionsOf(r.options, |r.questions|) == OptionRows(|r.questions|, opts)
    ensures forall qid :: qid != |r.questions| ==> OptionsOf(r.options, qid) == OptionsOf(db.options, qid)
  {
    AppendedOptions(db.options, OptionRows(|db.questions| + 1, opts), |db.questions| + 1);
  }

  lemma {:induction false} AppendedOptions(prior: seq<OptionRow>, rows: seq<OptionRow>, qid: nat)
    requires forall k :: 0 <= k < |prior| ==> prior[k].questionId < qid
    requires forall k :: 0 <= k < |rows| ==> rows[k].questionId == qid
    ensures OptionsOf(prior + rows, qid) == rows
    ensures forall other :: other != qid ==> OptionsOf(prior + rows, other) == OptionsOf(prior, other)
  {
    OptionsOfAppend(prior, rows, qid);
    OptionsOfNone(prior, qid);
    OptionsOfAll(rows, qid);
    forall other | other != qid ensures OptionsOf(prior + rows, other) == OptionsOf(prior, other) {
      OptionsOfAppend(prior, rows, other);
      OptionsOfNone(rows, other);
    }
  }

  /** The batch insert loop: one question and its options per sanitised item, in order. */
  function InsertBatch(db: Db, ref: string, qs: seq<CleanQuestion>): Db
    decreases |qs|
  {
    if |qs| == 0 then db
    else InsertBatch(InsertQuestion(db, ref, Str(qs[0].prompt), Choices(qs[0].options)), ref, qs[1..])
  }

  /** The number of statements the batch insert issues between BEGIN and COMMIT. */
  function WriteCount(qs: seq<CleanQuestion>): nat {
    if |qs| == 0 then 0 else 1 + |qs[0].options| + WriteCount(qs[1..])
  }

  /** The question rows the batch writes, one per item, in order. */
  function QuestionRows(ref: string, qs: seq<CleanQuestion>): (r: seq<QuestionRow>)
    ensures |r| == |qs|
    ensures forall i :: 0 <= i < |qs| ==> r[i] == QuestionRow(ref, Str(qs[i].prompt))
  {
    seq(|qs|, i requires 0 <= i < |qs| => QuestionRow(ref, Str(qs[i].prompt)))
  }

  /** The batch appends one question row per item, in order, keeps the
      database consistent and touches no other table. */
  lemma {:induction false} InsertBatchRows(db: Db, ref: string, qs: seq<CleanQuestion>, r: Db)
    requires Consistent(db) && r == InsertBatch(db, ref, qs)
    ensures Consistent(r) && r.owners == db.owners && r.quizzes == db.quizzes
    ensures r.questions == db.questions + QuestionRows(ref, qs)
    decreases |qs|
  {
    if |qs| == 0 {
      assert db.questions + QuestionRows(ref, qs) == db.questions;
    } else {
      var db1 := InsertQuestion(db, ref, Str(qs[0].prompt), Choices(qs[0].options));
      InsertBatchRows(db1, ref, qs[1..], r);
      QuestionRowsCons(ref, qs);
      AppendCons(db.questions, QuestionRow(ref, Str(qs[0].prompt)), QuestionRows(ref, qs[1..]), db1.questions, r.questions);
    }
  }

  lemma {:induction false} QuestionRowsCons(ref: string, qs: seq<CleanQuestion>)
    requires |qs| > 0
    ensures QuestionRows(ref, qs) == [QuestionRow(ref, Str(qs[0].prompt))] + QuestionRows(ref, qs[1..])
  {
  }

  lemma {:induction false} AppendCons<T>(prior: seq<T>, x: T, rest: seq<T>, mid: seq<T>, all: seq<T>)
    requires mid == prior + [x] && all == mid + rest
    ensures all == prior + ([x] + rest)
  {
  }

  /** Item `i` of the batch gets exactly its own options, in order. */
  lemma {:induction false} InsertBatchOptions(db: Db, ref: string, qs: seq<CleanQuestion>, r: Db, i: nat)
    requires Consistent(db) && r == InsertBatch(db, ref, qs) && i < |qs|
    ensures OptionsOf(r.options, |db.questions| + i + 1) == OptionRows(|db.questions| + i + 1, Choices(qs[i].options))
    decreases |qs|
  {
    var db1 := InsertQuestion(db, ref, Str(qs[0].prompt), Choices(qs[0].options));
    InsertQuestionOptions(db, ref, Str(qs[0].prompt), Choices(qs[0].options), db1);
    if i == 0 {
      InsertBatchKeeps(db1, ref, qs[1..], r, |db.questions| + 1);
    } else {
      InsertBatchOptions(db1, ref, qs[1..], r, i - 1);
      assert qs[1..][i - 1] == qs[i];
    }
  }

  /** Questions that existed before the batch keep exactly their options. */
  lemma {:induction false} InsertBatchKeeps(db: Db, ref: string, qs: seq<CleanQuestion>, r: Db, qid: nat)
    requires Consistent(db) && r == InsertBatch(db, ref, qs) && qid <= |db.questions|
    ensures OptionsOf(r.options, qid) == OptionsOf(db.options, qid)
    decreases |qs|
  {
    if |qs| > 0 {
      var db1 := InsertQuestion(db, ref, Str(qs[0].prompt), Choices(qs[0].options));
      InsertQuestionOptions(db, ref, Str(qs[0].prompt), Choices(qs[0].options), db1);
      InsertBatchKeeps(db1, ref, qs[1..], r, qid);
    }
  }

  /** A clean question's option rows make it playable. */
  lemma {:induction false} CleanOptionsPlayable(policy: Policy, cq: CleanQuestion, qid: nat)
    requires IsClean(policy, cq)
    ensures var rows := OptionRows(qid, Choices(cq.options));
            |rows| >= 2 && CorrectCount(rows) == 1
  {
    var rows := OptionRows(qid, Choices(cq.options));
    var k :| 0 <= k < |cq.options| && cq.options[k].isCorrect
             && forall j :: 0 <= j < |cq.options| && j != k ==> !cq.options[j].isCorrect;
    CorrectCountOne(rows, k);
  }

  /** Every clean item the batch writes becomes a playable question. */
  lemma {:induction false} InsertBatchPlayable(policy: Policy, db: Db, ref: string, qs: seq<CleanQuestion>, r: Db, i: nat)
    requires Consistent(db) && r == InsertBatch(db, ref, qs) && i < |qs| && IsClean(policy, qs[i])
    ensures Playable(r, |db.questions| + i + 1)
  {
    InsertBatchOptions(db, ref, qs, r, i);
    CleanOptionsPlayable(policy, qs[i], |db.questions| + i + 1);
  }
}

=== FILE: question_validation.dfy ===
/** The question validator and sanitiser that the quiz routes apply, in two
    copies, to untrusted question lists: to a batch posted for insertion
    (`POST /quizzes/:id/questions/batch`) and to the JSON an AI model returned
    (`POST /quizzes/:id/generate-questions`). Every item is checked, every
    failure is recorded against its index, and a sanitised list is produced only
    when no item failed. */
module QuestionValidation {
  import opened Text
  import opened Js

  /** Which copy of the validator: the batch endpoint reads the prompt from
      `question || question_text` and wants at least 2 options; the AI endpoint
      reads `question` only and wants exactly 4. */
  datatype Policy = Batch | Generated

  /** One violated rule, in the order the validator pushes them. */
  datatype Issue =
    | NotAnObject
    | BlankPrompt
    | BadOptionList(policy: Policy)
    | OptionNotObject(index: nat)
    | OptionTextBlank(index: nat)
    | OptionFlagNotBoolean(index: nat)
    | NotExactlyOneCorrect

  /** The error string the response carries for an issue. */
  function Message(i: Issue): string {
    match i
    case NotAnObject => "question must be an object"
    case BlankPrompt => "question text must be a non-empty string"
    case BadOptionList(Batch) => "options must be an array with at least 2 items"
    case BadOptionList(Generated) => "options must be an array of exactly 4 items"
    case OptionNotObject(k) => "options[" + NatToString(k) + "] must be an object"
    case OptionTextBlank(k) => "options[" + NatToString(k) + "].text must be a non-empty string"
    case OptionFlagNotBoolean(k) => "options[" + NatToString(k) + "].is_correct must be a boolean"
    case NotExactlyOneCorrect => "exactly one option must have is_correct=true"
  }

  /** An answer option with its correctness flag (also the client's draft option). */
  datatype Choice = Choice(text: string, isCorrect: bool)

  /** A sanitised question: trimmed prompt and trimmed options. */
  datatype CleanQuestion = CleanQuestion(prompt: string, options: seq<Choice>)

  /** `{ index, errors }` of the 400 response. */
  datatype Rejection = Rejection(index: nat, issues: seq<Issue>)

  /** Either every item passed (the sanitised list) or the rejections, by index. */
  datatype Verdict = Accepted(questions: seq<CleanQuestion>) | Rejected(invalid: seq<Rejection>)

  /** Exactly one option is marked correct. */
  predicate ExactlyOneCorrect(options: seq<Choice>) {
    exists k :: 0 <= k < |options| && options[k].isCorrect
      && forall j :: 0 <= j < |options| && j != k ==> !options[j].isCorrect
  }

  // ---------------------------------------------------------------------------
  // The validator as written (quizzes.js lines 60-88 and 375-426)
  // ---------------------------------------------------------------------------

  function PromptOf(policy: Policy, q: Json): Json {
    match policy
    case Batch => Or(Get(q, "question"), Get(q, "question_text"))
    case Generated => Get(q, "question")
  }

  predicate CountAllowed(policy: Policy, n: nat) {
    match policy
    case Batch => n >= 2
    case Generated => n == 4
  }

  /** `typeof j === 'string' && j.trim()` */
  predicate NonBlankString(j: Json) {
    j.Str? && !IsBlank(j.s)
  }

  /** The trimmed text of a string value, `""` for anything else. */
  function TrimmedText(j: Json): string {
    if j.Str? then Trim(j.s) else ""
  }

  /** What the inner `forEach` accumulates over the options. */
  datatype OptionScan = OptionScan(issues: seq<Issue>, clean: seq<Choice>, correct: nat)

  function ScanOption(k: nat, opt: Json): OptionScan {
    if !IsPlainObject(opt) then OptionScan([OptionNotObject(k)], [], 0)
    else
      var text := Get(opt, "text");
      var flag := Get(opt, "is_correct");
      OptionScan(
        (if NonBlankString(text) then [] else [OptionTextBlank(k)])
          + (if flag.Bool? then [] else [OptionFlagNotBoolean(k)]),
        [Choice(if text.Str? then Trim(text.s) else "", Truthy(flag))],
        if flag == Bool(true) then 1 else 0)
  }

  function ScanOptions(opts: seq<Json>, start: nat): OptionScan
    decreases |opts|
  {
    if |opts| == 0 then OptionScan([], [], 0)
    else
      var head := ScanOption(start, opts[0]);
      var tail := ScanOptions(opts[1..], start + 1);
      OptionScan(head.issues + tail.issues, head.clean + tail.clean, head.correct + tail.correct)
  }

  /** What the outer `forEach` computes for one item: its issues, and the
      sanitised question it would contribute if there are none. */
  datatype ItemScan = ItemScan(issues: seq<Issue>, clean: CleanQuestion)

  function ScanItem(policy: Policy, q: Json): ItemScan {
    var prompt := PromptOf(policy, q);
    var opts := Get(q, "options");
    var scan := if opts.Arr? then ScanOptions(opts.items, 0) else OptionScan([], [], 0);
    ItemScan(
      (if IsPlainObject(q) then [] else [NotAnObject])
        + (if NonBlankString(prompt) then [] else [BlankPrompt])
        + (if opts.Arr? && CountAllowed(policy, |opts.items|) then [] else [BadOptionList(policy)])
        + scan.issues
        + (if scan.correct == 1 then [] else [NotExactlyOneCorrect]),
      CleanQuestion(if prompt.Str? then Trim(prompt.s) else "", scan.clean))
  }

  /** The outer loop's partition of the per-item results from `from` on:
      rejections in index order, and the sanitised questions. */
  function Sweep(scans: seq<ItemScan>, from: nat): (r: (seq<Rejection>, seq<CleanQuestion>))
    requires from <= |scans|
    ensures forall j :: 0 <= j < |r.0| ==>
              from <= r.0[j].index < |scans| && |r.0[j].issues| > 0
              && r.0[j].issues == scans[r.0[j].index].issues
    decreases |scans| - from
  {
    if from == |scans| then ([], [])
    else
      var rest := Sweep(scans, from + 1);
      if |scans[from].issues| > 0 then ([Rejection(from, scans[from].issues)] + rest.0, rest.1)
      else (rest.0, [scans[from].clean] + rest.1)
  }

  /** Rejections come out in increasing index order. */
  lemma {:induction false} SweepOrdered(scans: seq<ItemScan>, from: nat, r: (seq<Rejection>, seq<CleanQuestion>))
    requires from <= |scans| && r == Sweep(scans, from)
    ensures forall j, j' :: 0 <= j < j' < |r.0| ==> r.0[j].index < r.0[j'].index
    decreases |scans| - from
  {
    if from < |scans| {
      var rest := Sweep(scans, from + 1);
      SweepOrdered(scans, from + 1, rest);
      if |scans[from].issues| > 0 {
        assert r.0 == [Rejection(from, scans[from].issues)] + rest.0;
        forall j, j' | 0 <= j < j' < |r.0| ensures r.0[j].index < r.0[j'].index {
          assert r.0[j'] == rest.0[j' - 1];
          if j > 0 {
            assert r.0[j] == rest.0[j - 1];
          } else {
            assert r.0[j].index == from;
          }
        }
      } else {
        assert r.0 == rest.0;
      }
    }
  }

  /** An item is rejected exactly when its scan found an issue. */
  lemma {:induction false} SweepFailing(scans: seq<ItemScan>, from: nat, i: nat, r: (seq<Rejection>, seq<CleanQuestion>))
    requires from <= i < |scans| && r == Sweep(scans, from)
    ensures |scans[i].issues| > 0 <==> exists j :: 0 <= j < |r.0| && r.0[j].index == i
    decreases i - from
  {
    var rest := Sweep(scans, from + 1);
    if i == from {
      if |scans[i].issues| > 0 {
        assert r.0 == [Rejection(from, scans[from].issues)] + rest.0;
        assert r.0[0].index == i;
      } else {
        assert r.0 == rest.0;
      }
    } else {
      SweepFailing(scans, from + 1, i, rest);
      if |scans[from].issues| > 0 {
        assert r.0 == [Rejection(from, scans[from].issues)] + rest.0;
        if |scans[i].issues| > 0 {
          var j :| 0 <= j < |rest.0| && rest.0[j].index == i;
          assert r.0[j + 1].index == i;
        } else {
          forall j | 0 <= j < |r.0| ensures r.0[j].index != i {
            if j > 0 {
              assert r.0[j] == rest.0[j - 1];
            }
          }
        }
      } else {
        assert r.0 == rest.0;
      }
    }
  }

  /** With no rejection, the sanitised questions are the scans' clean forms, in order. */
  lemma {:induction false} SweepClean(scans: seq<ItemScan>, from: nat, r: (seq<Rejection>, seq<CleanQuestion>))
    requires from <= |scans| && r == Sweep(scans, from)
    ensures |r.0| == 0 ==>
              |r.1| == |scans| - from
              && forall i :: from <= i < |scans| ==> r.1[i - from] == scans[i].clean
    decreases |scans| - from
  {
    if from < |scans| {
      var rest := Sweep(scans, from + 1);
      SweepClean(scans, from + 1, rest);
      if |r.0| == 0 {
        forall i | from <= i < |scans| ensures r.1[i - from] == scans[i].clean {
          if i > from {
            assert r.1[i - from] == rest.1[i - (from + 1)];
          }
        }
      }
    }
  }

  // ---------------------------------------------------------------------------
  // The rules stated independently of the loop
  // ---------------------------------------------------------------------------

  predicate WellFormedOption(opt: Json) {
    opt.Obj? && NonBlankString(Get(opt, "text")) && Get(opt, "is_correct").Bool?
  }

  /** `opt?.is_correct === true` */
  predicate MarkedCorrect(opt: Json) {
    Get(opt, "is_correct") == Bool(true)
  }

  predicate ExactlyOneMarked(opts: seq<Json>) {
    exists k :: 0 <= k < |opts| && MarkedCorrect(opts[k])
      && forall j :: 0 <= j < |opts| && j != k ==> !MarkedCorrect(opts[j])
  }

  /** An item the validator accepts: a plain object whose prompt is a non-blank
      string, whose `options` is an array of allowed length, every option a plain
      object with non-blank string `text` and boolean `is_correct`, and exactly
      one option `is_correct === true`. */
  predicate WellFormed(policy: Policy, q: Json) {
    && q.Obj?
    && NonBlankString(PromptOf(policy, q))
    && Get(q, "options").Arr?
    && CountAllowed(policy, |Items(Get(q, "options"))|)
    && (forall k :: 0 <= k < |Items(Get(q, "options"))| ==> WellFormedOption(Items(Get(q, "options"))[k]))
    && ExactlyOneMarked(Items(Get(q, "options")))
  }

  /** `cq` is the sanitised form of the well-formed item `q`: prompt and option
      texts trimmed, options in order and all kept, flags copied. */
  predicate SanitizedFrom(policy: Policy, q: Json, cq: CleanQuestion) {
    var items := Items(Get(q, "options"));
    && cq.prompt == TrimmedText(PromptOf(policy, q))
    && |cq.options| == |items|
    && forall k :: 0 <= k < |items| ==>
         cq.options[k] == Choice(TrimmedText(Get(items[k], "text")), MarkedCorrect(items[k]))
  }

  /** What every stored question satisfies: non-empty trimmed prompt, an allowed
      number of options, every option text non-empty and trimmed, exactly one
      option correct. */
  predicate IsClean(policy: Policy, cq: CleanQuestion) {
    && |cq.prompt| > 0 && Tight(cq.prompt)
    && CountAllowed(policy, |cq.options|)
    && (forall k :: 0 <= k < |cq.options| ==> |cq.options[k].text| > 0 && Tight(cq.options[k].text))
    && ExactlyOneCorrect(cq.options)
  }

  // ---------------------------------------------------------------------------
  // The loop meets the rules
  // ---------------------------------------------------------------------------

  lemma {:induction false} ScanOptionFacts(k: nat, opt: Json)
    ensures |ScanOption(k, opt).issues| == 0 <==> WellFormedOption(opt)
    ensures ScanOption(k, opt).correct == (if MarkedCorrect(opt) then 1 else 0)
    ensures WellFormedOption(opt) ==>
              ScanOption(k, opt).clean == [Choice(TrimmedText(Get(opt, "text")), MarkedCorrect(opt))]
  {
  }

  lemma {:induction false} ScanOptionsStep(opts: seq<Json>, start: nat)
    requires |opts| > 0
    ensures ScanOptions(opts, start).issues == ScanOption(start, opts[0]).issues + ScanOptions(opts[1..], start + 1).issues
    ensures ScanOptions(opts, start).clean == ScanOption(start, opts[0]).clean + ScanOptions(opts[1..], start + 1).clean
    ensures ScanOptions(opts, start).correct == ScanOption(start, opts[0]).correct + ScanOptions(opts[1..], start + 1).correct
  {
  }

  lemma {:induction false} ScanOptionsIssues(opts: seq<Json>, start: nat)
    ensures |ScanOptions(opts, start).issues| == 0
            <==> forall k :: 0 <= k < |opts| ==> WellFormedOption(opts[k])
    decreases |opts|
  {
    if |opts| > 0 {
      var rest := opts[1..];
      ScanOptionsIssues(rest, start + 1);
      ScanOptionsStep(opts, start);
      ScanOptionFacts(start, opts[0]);
      if forall k :: 0 <= k < |opts| ==> WellFormedOption(opts[k]) {
        forall k | 0 <= k < |rest| ensures WellFormedOption(rest[k]) {
          assert rest[k] == opts[k + 1];
        }
      }
      if WellFormedOption(opts[0]) && forall k :: 0 <= k < |rest| ==> WellFormedOption(rest[k]) {
        forall k | 0 <= k < |opts| ensures WellFormedOption(opts[k]) {
          if k > 0 {
            assert opts[k] == rest[k - 1];
          }
        }
      }
    }
  }

  lemma {:induction false} ScanOptionsNoneCorrect(opts: seq<Json>, start: nat)
    ensures ScanOptions(opts, start).correct == 0
            <==> forall k :: 0 <= k < |opts| ==> !MarkedCorrect(opts[k])
    decreases |opts|
  {
    if |opts| > 0 {
      var rest := opts[1..];
      ScanOptionsNoneCorrect(rest, start + 1);
      ScanOptionsStep(opts, start);
      ScanOptionFacts(start, opts[0]);
      if forall k :: 0 <= k < |opts| ==> !MarkedCorrect(opts[k]) {
        forall k | 0 <= k < |rest| ensures !MarkedCorrect(rest[k]) {
          assert rest[k] == opts[k + 1];
        }
      }
      if !MarkedCorrect(opts[0]) && forall k :: 0 <= k < |rest| ==> !MarkedCorrect(rest[k]) {
        forall k | 0 <= k < |opts| ensures !MarkedCorrect(opts[k]) {
          if k > 0 {
            assert opts[k] == rest[k - 1];
          }
        }
      }
    }
  }

  /** The running count `correctCount === 1` is the "exactly one marked" rule. */
  lemma {:induction false} ScanOptionsOneCorrect(opts: seq<Json>, start: nat)
    ensures ScanOptions(opts, start).correct == 1 <==> ExactlyOneMarked(opts)
    decreases |opts|
  {
    if |opts| > 0 {
      var rest := opts[1..];
      ScanOptionsOneCorrect(rest, start + 1);
      ScanOptionsNoneCorrect(rest, start + 1);
      ScanOptionsStep(opts, start);
      ScanOptionFacts(start, opts[0]);
      if MarkedCorrect(opts[0]) {
        OneMarkedAtHead(opts);
      } else {
        OneMarkedInTail(opts);
      }
    }
  }

  lemma {:induction false} OneMarkedAtHead(opts: seq<Json>)
    requires |opts| > 0 && MarkedCorrect(opts[0])
    ensures ExactlyOneMarked(opts) <==> forall k :: 0 <= k < |opts[1..]| ==> !MarkedCorrect(opts[1..][k])
  {
    var rest := opts[1..];
    if forall k :: 0 <= k < |rest| ==> !MarkedCorrect(rest[k]) {
      forall j | 0 <= j < |opts| && j != 0 ensures !MarkedCorrect(opts[j]) {
        assert opts[j] == rest[j - 1];
      }
    }
    if ExactlyOneMarked(opts) {
      var k :| 0 <= k < |opts| && MarkedCorrect(opts[k])
               && forall j :: 0 <= j < |opts| && j != k ==> !MarkedCorrect(opts[j]);
      assert k == 0;
      forall j | 0 <= j < |rest| ensures !MarkedCorrect(rest[j]) {
        assert rest[j] == opts[j + 1];
      }
    }
  }

  lemma {:induction false} OneMarkedInTail(opts: seq<Json>)
    requires |opts| > 0 && !MarkedCorrect(opts[0])
    ensures ExactlyOneMarked(opts) <==> ExactlyOneMarked(opts[1..])
  {
    var rest := opts[1..];
    if ExactlyOneMarked(rest) {
      var k :| 0 <= k < |rest| && MarkedCorrect(rest[k])
               && forall j :: 0 <= j < |rest| && j != k ==> !MarkedCorrect(rest[j]);
      assert opts[k + 1] == rest[k];
      forall j | 0 <= j < |opts| && j != k + 1 ensures !MarkedCorrect(opts[j]) {
        if j > 0 {
          assert opts[j] == rest[j - 1];
        }
      }
    }
    if ExactlyOneMarked(opts) {
      var k :| 0 <= k < |opts| && MarkedCorrect(opts[k])
               && forall j :: 0 <= j < |opts| && j != k ==> !MarkedCorrect(opts[j]);
      assert k != 0;
      assert rest[k - 1] == opts[k];
      forall j | 0 <= j < |rest| && j != k - 1 ensures !MarkedCorrect(rest[j]) {
        assert rest[j] == opts[j + 1];
      }
    }
  }

  /** For well-formed options the inner loop keeps every option, trimmed. */
  lemma {:induction false} ScanOptionsClean(opts: seq<Json>, start: nat)
    requires forall k :: 0 <= k < |opts| ==> WellFormedOption(opts[k])
    ensures |ScanOptions(opts, start).clean| == |opts|
    ensures forall k :: 0 <= k < |opts| ==>
              ScanOptions(opts, start).clean[k]
                == Choice(TrimmedText(Get(opts[k], "text")), MarkedCorrect(opts[k]))
    decreases |opts|
  {
    if |opts| > 0 {
      var rest := opts[1..];
      forall k | 0 <= k < |rest| ensures WellFormedOption(rest[k]) {
        assert rest[k] == opts[k + 1];
      }
      ScanOptionsClean(rest, start + 1);
      ScanOptionsStep(opts, start);
      ScanOptionFacts(start, opts[0]);
      var clean := ScanOptions(opts, start).clean;
      var tail := ScanOptions(rest, start + 1).clean;
      assert clean == [Choice(TrimmedText(Get(opts[0], "text")), MarkedCorrect(opts[0]))] + tail;
      forall k | 0 <= k < |opts|
        ensures clean[k] == Choice(TrimmedText(Get(opts[k], "text")), MarkedCorrect(opts[k]))
      {
        if k > 0 {
          assert clean[k] == tail[k - 1];
          assert opts[k] == rest[k - 1];
        }
      }
    }
  }

  /** The item's issue list is empty exactly when each of its five parts is. */
  lemma {:induction false} ScanItemIssuesEmpty(policy: Policy, q: Json)
    ensures |ScanItem(policy, q).issues| == 0 <==>
              && IsPlainObject(q)
              && NonBlankString(PromptOf(policy, q))
              && Get(q, "options").Arr?
              && CountAllowed(policy, |Items(Get(q, "options"))|)
              && |ScanOptions(Items(Get(q, "options")), 0).issues| == 0
              && ScanOptions(Items(Get(q, "options")), 0).correct == 1
  {
  }

  lemma {:induction false} ScanItemClean(policy: Policy, q: Json)
    ensures ScanItem(policy, q).clean
            == CleanQuestion(TrimmedText(PromptOf(policy, q)), ScanOptions(Items(Get(q, "options")), 0).clean)
  {
  }

  /** An item passes the validator exactly when it is well formed, and then its
      sanitised form is the trimmed copy. */
  lemma {:induction false} ScanItemMeetsRules(policy: Policy, q: Json)
    ensures |ScanItem(policy, q).issues| == 0 <==> WellFormed(policy, q)
    ensures WellFormed(policy, q) ==> SanitizedFrom(policy, q, ScanItem(policy, q).clean)
  {
    var items := Items(Get(q, "options"));
    ScanItemIssuesEmpty(policy, q);
    ScanItemClean(policy, q);
    ScanOptionsIssues(items, 0);
    ScanOptionsOneCorrect(items, 0);
    PlainObjectIsObj(q);
    if forall k :: 0 <= k < |items| ==> WellFormedOption(items[k]) {
      ScanOptionsClean(items, 0);
    }
  }

  /** A sanitised well-formed item is clean. */
  lemma {:induction false} SanitizedIsClean(policy: Policy, q: Json, cq: CleanQuestion)
    requires WellFormed(policy, q) && SanitizedFrom(policy, q, cq)
    ensures IsClean(policy, cq)
  {
    var items := Items(Get(q, "options"));
    var k :| 0 <= k < |items| && MarkedCorrect(items[k])
             && forall j :: 0 <= j < |items| && j != k ==> !MarkedCorrect(items[j]);
    assert cq.options[k].isCorrect;
    forall j | 0 <= j < |items| && j != k
      ensures !cq.options[j].isCorrect
    {
      assert !MarkedCorrect(items[j]);
    }
    BlankIffAllSpace(PromptOf(policy, q).s);
    forall j | 0 <= j < |items| ensures |cq.options[j].text| > 0 {
      assert WellFormedOption(items[j]);
      BlankIffAllSpace(Get(items[j], "text").s);
    }
  }

  // ---------------------------------------------------------------------------
  // The whole list
  // ---------------------------------------------------------------------------

  /** The validator over a whole list. Rejected exactly when some item is not
      well formed, listing exactly the failing indices in increasing order, each
      with its non-empty issue list; otherwise the sanitised list, one clean
      question per item in order. */
  function Review(policy: Policy, qs: seq<Json>): (v: Verdict)
    ensures v.Accepted? <==> forall i :: 0 <= i < |qs| ==> WellFormed(policy, qs[i])
    ensures v.Rejected? ==>
              && |v.invalid| > 0
              && (forall j :: 0 <= j < |v.invalid| ==> v.invalid[j].index < |qs| && |v.invalid[j].issues| > 0)
              && (forall j, j' :: 0 <= j < j' < |v.invalid| ==> v.invalid[j].index < v.invalid[j'].index)
              && (forall i :: 0 <= i < |qs| ==>
                    (!WellFormed(policy, qs[i]) <==> exists j :: 0 <= j < |v.invalid| && v.invalid[j].index == i))
    ensures v.Accepted? ==>
              && |v.questions| == |qs|
              && (forall i :: 0 <= i < |qs| ==> SanitizedFrom(policy, qs[i], v.questions[i]))
              && (forall i :: 0 <= i < |qs| ==> IsClean(policy, v.questions[i]))
  {
    var scans := ScanAll(policy, qs);
    var r := Sweep(scans, 0);
    PartitionMeaning(policy, qs, scans, r);
    SweepOrdered(scans, 0, r);
    if |r.0| > 0 then Rejected(r.0) else Accepted(r.1)
  }

  /** Each rejection carries the validator's own issue list for its item. */
  lemma {:induction false} RejectionIssues(policy: Policy, qs: seq<Json>, j: nat)
    requires Review(policy, qs).Rejected? && j < |Review(policy, qs).invalid|
    ensures Review(policy, qs).invalid[j].issues
            == ScanItem(policy, qs[Review(policy, qs).invalid[j].index]).issues
  {
  }

  lemma {:induction false} PartitionMeaning(policy: Policy, qs: seq<Json>, scans: seq<ItemScan>, r: (seq<Rejection>, seq<CleanQuestion>))
    requires |scans| == |qs|
    requires forall i :: 0 <= i < |qs| ==> (|scans[i].issues| == 0 <==> WellFormed(policy, qs[i]))
    requires forall i :: 0 <= i < |qs| ==>
               WellFormed(policy, qs[i]) ==> SanitizedFrom(policy, qs[i], scans[i].clean)
    requires r == Sweep(scans, 0)
    ensures |r.0| == 0 <==> forall i :: 0 <= i < |qs| ==> WellFormed(policy, qs[i])
    ensures forall i :: 0 <= i < |qs| ==>
              (!WellFormed(policy, qs[i]) <==> exists j :: 0 <= j < |r.0| && r.0[j].index == i)
    ensures |r.0| == 0 ==>
              && |r.1| == |qs|
              && (forall i :: 0 <= i < |qs| ==> SanitizedFrom(policy, qs[i], r.1[i]))
              && (forall i :: 0 <= i < |qs| ==> IsClean(policy, r.1[i]))
  {
    SweepOrdered(scans, 0, r);
    SweepClean(scans, 0, r);
    forall i | 0 <= i < |qs|
      ensures !WellFormed(policy, qs[i]) <==> exists j :: 0 <= j < |r.0| && r.0[j].index == i
    {
      SweepFailing(scans, 0, i, r);
    }
    if |r.0| == 0 {
      forall i | 0 <= i < |qs| ensures WellFormed(policy, qs[i]) && SanitizedFrom(policy, qs[i], r.1[i]) {
        assert r.1[i - 0] == scans[i].clean;
      }
      forall i | 0 <= i < |qs| ensures IsClean(policy, r.1[i]) {
        SanitizedIsClean(policy, qs[i], r.1[i]);
      }
    } else {
      var i := r.0[0].index;
      assert !WellFormed(policy, qs[i]);
    }
  }

  /** The per-item results of the outer `forEach`, related to the rules. */
  function ScanAll(policy: Policy, qs: seq<Json>): (scans: seq<ItemScan>)
    ensures |scans| == |qs|
    ensures forall i :: 0 <= i < |qs| ==> scans[i] == ScanItem(policy, qs[i])
    ensures forall i :: 0 <= i < |qs| ==> (|scans[i].issues| == 0 <==> WellFormed(policy, qs[i]))
    ensures forall i :: 0 <= i < |qs| ==>
              WellFormed(policy, qs[i]) ==> SanitizedFrom(policy, qs[i], scans[i].clean)
  {
    forall i | 0 <= i < |qs|
      ensures |ScanItem(policy, qs[i]).issues| == 0 <==> WellFormed(policy, qs[i])
      ensures WellFormed(policy, qs[i]) ==> SanitizedFrom(policy, qs[i], ScanItem(policy, qs[i]).clean)
    {
      ScanItemMeetsRules(policy, qs[i]);
    }
    seq(|qs|, i requires 0 <= i < |qs| => ScanItem(policy, qs[i]))
  }

  // ---------------------------------------------------------------------------
  // Sanitised drafts go back through the batch validator unchanged
  // ---------------------------------------------------------------------------

  /** The JSON the client posts back for a sanitised question (`{question, options}`). */
  function ChoiceToJson(c: Choice): Json {
    Obj(map["text" := Str(c.text), "is_correct" := Bool(c.isCorrect)])
  }

  function DraftToJson(cq: CleanQuestion): Json {
    Obj(map["question" := Str(cq.prompt),
            "options" := Arr(seq(|cq.options|, k requires 0 <= k < |cq.options| => ChoiceToJson(cq.options[k])))])
  }

  lemma {:induction false} ChoiceJsonFields(c: Choice)
    ensures Get(ChoiceToJson(c), "text") == Str(c.text)
    ensures Get(ChoiceToJson(c), "is_correct") == Bool(c.isCorrect)
    ensures ChoiceToJson(c).Obj?
  {
    var m := map["text" := Str(c.text), "is_correct" := Bool(c.isCorrect)];
    assert "text" in m && m["text"] == Str(c.text);
    assert "is_correct" in m && m["is_correct"] == Bool(c.isCorrect);
  }

  lemma {:induction false} DraftJsonFields(cq: CleanQuestion)
    ensures DraftToJson(cq).Obj?
    ensures Get(DraftToJson(cq), "question") == Str(cq.prompt)
    ensures Get(DraftToJson(cq), "options")
            == Arr(seq(|cq.options|, k requires 0 <= k < |cq.options| => ChoiceToJson(cq.options[k])))
  {
    var opts := Arr(seq(|cq.options|, k requires 0 <= k < |cq.options| => ChoiceToJson(cq.options[k])));
    var m := map["question" := Str(cq.prompt), "options" := opts];
    assert "question" in m && m["question"] == Str(cq.prompt);
    assert "options" in m && m["options"] == opts;
  }

  lemma {:induction false} DraftItems(cq: CleanQuestion)
    ensures |Items(Get(DraftToJson(cq), "options"))| == |cq.options|
    ensures forall k :: 0 <= k < |cq.options| ==>
              Items(Get(DraftToJson(cq), "options"))[k] == ChoiceToJson(cq.options[k])
  {
    DraftJsonFields(cq);
  }

  lemma {:induction false} DraftOptions(cq: CleanQuestion)
    requires forall k :: 0 <= k < |cq.options| ==> |cq.options[k].text| > 0 && Tight(cq.options[k].text)
    ensures forall k :: 0 <= k < |cq.options| ==>
              var item := Items(Get(DraftToJson(cq), "options"))[k];
              && WellFormedOption(item)
              && TrimmedText(Get(item, "text")) == cq.options[k].text
              && MarkedCorrect(item) == cq.options[k].isCorrect
  {
    DraftItems(cq);
    forall k | 0 <= k < |cq.options|
      ensures var item := ChoiceToJson(cq.options[k]);
              && WellFormedOption(item)
              && TrimmedText(Get(item, "text")) == cq.options[k].text
              && MarkedCorrect(item) == cq.options[k].isCorrect
    {
      ChoiceJsonFields(cq.options[k]);
      TightIsTrimmed(cq.options[k].text);
    }
  }

  lemma {:induction false} OneMarkedFromChoices(items: seq<Json>, options: seq<Choice>)
    requires |items| == |options|
    requires forall k :: 0 <= k < |items| ==> MarkedCorrect(items[k]) == options[k].isCorrect
    requires ExactlyOneCorrect(options)
    ensures ExactlyOneMarked(items)
  {
    var k :| 0 <= k < |options| && options[k].isCorrect
             && forall j :: 0 <= j < |options| && j != k ==> !options[j].isCorrect;
    assert MarkedCorrect(items[k]);
  }

  lemma {:induction false} CleanDraftWellFormed(policy: Policy, cq: CleanQuestion)
    requires IsClean(policy, cq)
    ensures WellFormed(Batch, DraftToJson(cq))
    ensures SanitizedFrom(Batch, DraftToJson(cq), cq)
  {
    var q := DraftToJson(cq);
    DraftJsonFields(cq);
    DraftItems(cq);
    DraftOptions(cq);
    OneMarkedFromChoices(Items(Get(q, "options")), cq.options);
    TightIsTrimmed(cq.prompt);
    assert PromptOf(Batch, q) == Str(cq.prompt);
  }

  /** AI drafts the generator accepted, posted back unedited to the batch
      endpoint (as the quiz builder's confirm button does), pass its validator
      and are stored exactly as they were shown. */
  lemma {:induction false} ConfirmedDraftsAccepted(qs: seq<Json>, drafts: seq<CleanQuestion>)
    requires Review(Generated, qs) == Accepted(drafts)
    ensures Review(Batch, seq(|drafts|, i requires 0 <= i < |drafts| => DraftToJson(drafts[i])))
            == Accepted(drafts)
  {
    var posted := seq(|drafts|, i requires 0 <= i < |drafts| => DraftToJson(drafts[i]));
    forall i | 0 <= i < |drafts|
      ensures WellFormed(Batch, posted[i]) && SanitizedFrom(Batch, posted[i], drafts[i])
    {
      CleanDraftWellFormed(Generated, drafts[i]);
    }
    ReviewAcceptsSanitized(Batch, posted, drafts);
  }

  /** When every item is well formed, the review accepts exactly their sanitised forms. */
  lemma {:induction false} ReviewAcceptsSanitized(policy: Policy, qs: seq<Json>, cqs: seq<CleanQuestion>)
    requires |cqs| == |qs|
    requires forall i :: 0 <= i < |qs| ==> WellFormed(policy, qs[i]) && SanitizedFrom(policy, qs[i], cqs[i])
    ensures Review(policy, qs) == Accepted(cqs)
  {
    var v := Review(policy, qs);
    SanitizedSeqUnique(policy, qs, v.questions, cqs);
  }

  lemma {:induction false} SanitizedSeqUnique(policy: Policy, qs: seq<Json>, a: seq<CleanQuestion>, b: seq<CleanQuestion>)
    requires |a| == |qs| && |b| == |qs|
    requires forall i :: 0 <= i < |qs| ==>
               WellFormed(policy, qs[i]) && SanitizedFrom(policy, qs[i], a[i]) && SanitizedFrom(policy, qs[i], b[i])
    ensures a == b
  {
    forall i | 0 <= i < |qs| ensures a[i] == b[i] {
      SanitizedUnique(policy, qs[i], a[i], b[i]);
    }
  }

  lemma {:induction false} SanitizedUnique(policy: Policy, q: Json, a: CleanQuestion, b: CleanQuestion)
    requires WellFormed(policy, q) && SanitizedFrom(policy, q, a) && SanitizedFrom(policy, q, b)
    ensures a == b
  {
    assert a.options == b.options;
  }
}

=== FILE: quiz_builder.dfy ===
/** The editing logic of the quiz builder page (client/src/pages/QuizBuilder.jsx):
    the manual option list with its add, remove, text and correct-radio
    handlers, the guards in front of the two requests, the question-count
    input, and the edits applied to AI-generated questions before they are
    confirmed. A handler that throws leaves the React state as it was; the
    functions here return `None` for that case. */
module QuizBuilder {
  import opened Wrappers
  import opened Text
  import opened Js
  import QuizRoutes

  /** An option as the form holds it. */
  datatype OptionDraft = OptionDraft(text: string, isCorrect: bool)

  const BlankOption: OptionDraft := OptionDraft("", false)

  /** The option list a fresh form starts with (and returns to after a successful add). */
  const InitialOptions: seq<OptionDraft> := [BlankOption, BlankOption]

  /** How many options are marked correct: `options.filter(o => o.is_correct).length`. */
  function CorrectCount(opts: seq<OptionDraft>): (n: nat)
    ensures n <= |opts|
  {
    if |opts| == 0 then 0
    else (if opts[0].isCorrect then 1 else 0) + CorrectCount(opts[1..])
  }

  lemma {:induction false} CorrectCountOnly(opts: seq<OptionDraft>, idx: nat)
    requires idx < |opts| && opts[idx].isCorrect
    requires forall i :: 0 <= i < |opts| && i != idx ==> !opts[i].isCorrect
    ensures CorrectCount(opts) == 1
  {
    if idx == 0 {
      CorrectCountNone(opts[1..]);
    } else {
      assert forall i :: 0 <= i < |opts[1..]| && i != idx - 1 ==> !opts[1..][i].isCorrect by {
        forall i | 0 <= i < |opts[1..]| && i != idx - 1 ensures !opts[1..][i].isCorrect {
          assert opts[1..][i] == opts[i + 1];
        }
      }
      CorrectCountOnly(opts[1..], idx - 1);
    }
  }

  lemma {:induction false} CorrectCountNone(opts: seq<OptionDraft>)
    requires forall i :: 0 <= i < |opts| ==> !opts[i].isCorrect
    ensures CorrectCount(opts) == 0
  {
    if |opts| > 0 {
      CorrectCountNone(opts[1..]);
    }
  }

  // ---------------------------------------------------------------------------
  // The manual option list
  // ---------------------------------------------------------------------------

  /** `handleOptionChange(idx, 'text', value)`; an index with no option throws. */
  function EditText(opts: seq<OptionDraft>, idx: int, value: string): (r: Option<seq<OptionDraft>>)
    ensures r.Some? <==> 0 <= idx < |opts|
    ensures r.Some? ==> |r.value| == |opts| && r.value[idx] == opts[idx].(text := value)
                        && forall i :: 0 <= i < |opts| && i != idx ==> r.value[i] == opts[i]
  {
    if 0 <= idx < |opts| then Some(opts[idx := opts[idx].(text := value)]) else None
  }

  /** `handleAddOption`: one blank, incorrect option at the end. */
  function AddOption(opts: seq<OptionDraft>): (r: seq<OptionDraft>)
    ensures |r| == |opts| + 1 && r[..|opts|] == opts && r[|opts|] == BlankOption
  {
    opts + [BlankOption]
  }

  /** `s.filter((_, i) => i !== idx)`: drops the element at `idx`, if there is one. */
  function RemoveAt<T>(s: seq<T>, idx: int): (r: seq<T>)
    ensures 0 <= idx < |s| ==> |r| == |s| - 1
    ensures 0 <= idx < |s| ==> forall i :: 0 <= i < idx ==> r[i] == s[i]
    ensures 0 <= idx < |s| ==> forall i :: idx <= i < |r| ==> r[i] == s[i + 1]
    ensures !(0 <= idx < |s|) ==> r == s
  {
    if 0 <= idx < |s| then s[..idx] + s[idx + 1..] else s
  }

  /** `handleRemoveOption`: removes only while more than two options remain. */
  function RemoveOption(opts: seq<OptionDraft>, idx: int): (r: seq<OptionDraft>)
    ensures |opts| > 2 ==> r == RemoveAt(opts, idx)
    ensures |opts| <= 2 ==> r == opts
    ensures |opts| >= 2 ==> |r| >= 2
  {
    if |opts| > 2 then RemoveAt(opts, idx) else opts
  }

  /** The correct-option radio: `is_correct: i === idx` for every option. */
  function MarkCorrect(opts: seq<OptionDraft>, idx: int): (r: seq<OptionDraft>)
    ensures |r| == |opts|
    ensures forall i :: 0 <= i < |opts| ==> r[i] == opts[i].(isCorrect := i == idx)
  {
    seq(|opts|, i requires 0 <= i < |opts| => opts[i].(isCorrect := i == idx))
  }

  /** The radio leaves exactly one correct option, the chosen one, and every text as it was. */
  lemma {:induction false} MarkCorrectExactlyOne(opts: seq<OptionDraft>, idx: int)
    requires 0 <= idx < |opts|
    ensures CorrectCount(MarkCorrect(opts, idx)) == 1
    ensures MarkCorrect(opts, idx)[idx].isCorrect
    ensures forall i :: 0 <= i < |opts| ==> MarkCorrect(opts, idx)[i].text == opts[i].text
  {
    CorrectCountOnly(MarkCorrect(opts, idx), idx);
  }

  /** The radio leaves one option correct when it names one, and none otherwise. */
  lemma {:induction false} MarkCorrectCount(opts: seq<OptionDraft>, idx: int)
    ensures CorrectCount(MarkCorrect(opts, idx)) == if 0 <= idx < |opts| then 1 else 0
  {
    if 0 <= idx < |opts| {
      MarkCorrectExactlyOne(opts, idx);
    } else {
      CorrectCountNone(MarkCorrect(opts, idx));
    }
  }

  /** A user action on the option list. */
  datatype Edit = Type(idx: int, value: string) | Add | Remove(idx: int) | Choose(idx: int)

  function Step(opts: seq<OptionDraft>, e: Edit): seq<OptionDraft> {
    match e
    case Type(idx, value) => EditText(opts, idx, value).GetOr(opts)
    case Add => AddOption(opts)
    case Remove(idx) => RemoveOption(opts, idx)
    case Choose(idx) => MarkCorrect(opts, idx)
  }

  function Replay(opts: seq<OptionDraft>, edits: seq<Edit>): seq<OptionDraft>
    decreases |edits|
  {
    if |edits| == 0 then opts else Replay(Step(opts, edits[0]), edits[1..])
  }

  /** Whatever the user does, the form never holds fewer than two options. */
  lemma {:induction false} ReplayKeepsTwo(opts: seq<OptionDraft>, edits: seq<Edit>)
    requires |opts| >= 2
    ensures |Replay(opts, edits)| >= 2
    decreases |edits|
  {
    if |edits| > 0 {
      ReplayKeepsTwo(Step(opts, edits[0]), edits[1..]);
    }
  }

  /** The form as loaded, then edited in any way, has at least two options. */
  lemma {:induction false} FormKeepsTwo(edits: seq<Edit>)
    ensures |Replay(InitialOptions, edits)| >= 2
  {
    ReplayKeepsTwo(InitialOptions, edits);
  }

  // ---------------------------------------------------------------------------
  // Guards
  // ---------------------------------------------------------------------------

  /** `handleAddQuestion`'s checks, in order; `None` means the request is sent. */
  function AddQuestionGuard(quizId: Json, opts: seq<OptionDraft>): (r: Option<string>)
    ensures r.None? <==> Truthy(quizId) && CorrectCount(opts) == 1
                         && forall i :: 0 <= i < |opts| ==> |opts[i].text| > 0
    ensures !Truthy(quizId) ==> r == Some("Create a quiz first")
    ensures Truthy(quizId) && CorrectCount(opts) != 1 ==> r == Some("Exactly one option must be marked as correct")
    ensures Truthy(quizId) && CorrectCount(opts) == 1 && (exists i :: 0 <= i < |opts| && |opts[i].text| == 0) ==>
              r == Some("All options must have text")
  {
    if !Truthy(quizId) then Some("Create a quiz first")
    else if CorrectCount(opts) != 1 then Some("Exactly one option must be marked as correct")
    else if exists i :: 0 <= i < |opts| && |opts[i].text| == 0 then Some("All options must have text")
    else None
  }

  /** An option as the request body carries it. */
  function OptionJson(o: OptionDraft): Json {
    Obj(map["text" := Str(o.text), "is_correct" := Bool(o.isCorrect)])
  }

  /** The body `handleAddQuestion` posts. */
  function QuestionBody(questionText: string, opts: seq<OptionDraft>): (r: Json)
    ensures Get(r, "question_text") == Str(questionText)
    ensures Get(r, "options") == Arr(seq(|opts|, i requires 0 <= i < |opts| => OptionJson(opts[i])))
  {
    Obj(map["question_text" := Str(questionText),
            "options" := Arr(seq(|opts|, i requires 0 <= i < |opts| => OptionJson(opts[i])))])
  }

  lemma {:induction false} TruthyCorrectOfDrafts(opts: seq<OptionDraft>, items: seq<Json>)
    requires |items| == |opts| && forall i :: 0 <= i < |opts| ==> items[i] == OptionJson(opts[i])
    ensures QuizRoutes.TruthyCorrect(items) == CorrectCount(opts)
  {
    if |opts| > 0 {
      TruthyCorrectOfDrafts(opts[1..], items[1..]);
    }
  }

  /** A body the form lets through passes the server's shape and correctness
      checks for a single question, provided the question text is not empty
      (the form marks that input `required`). */
  lemma {:induction false} FormBodyPassesServerChecks(quizId: Json, questionText: string, opts: seq<OptionDraft>)
    requires AddQuestionGuard(quizId, opts).None? && |questionText| > 0 && |opts| >= 2
    ensures var body := QuestionBody(questionText, opts);
            && Truthy(Get(body, "question_text"))
            && Get(body, "options").Arr? && |Get(body, "options").items| >= 2
            && (forall k :: 0 <= k < |Get(body, "options").items| ==> !Nullish(Get(body, "options").items[k]))
            && QuizRoutes.TruthyCorrect(Get(body, "options").items) == 1
  {
    var items := Get(QuestionBody(questionText, opts), "options").items;
    TruthyCorrectOfDrafts(opts, items);
  }

  /** The number input: `parseInt(value) || 5`. The page calls `parseInt`
      without a radix; this reads base 10, which differs only on a "0x"
      prefix, and a `type="number"` input never holds one. */
  function QuestionCountInput(value: string): (n: int)
    ensures n != 0
    ensures ParseInt(value).None? ==> n == 5
    ensures ParseInt(value).Some? && ParseInt(value).value != 0 ==> n == ParseInt(value).value
  {
    match ParseInt(value)
    case None => 5
    case Some(k) => if k == 0 then 5 else k
  }

  /** `handleGenerateAI`'s checks, in order. */
  function GenerateGuard(quizId: Json, numQuestions: int): (r: Option<string>)
    ensures r.None? <==> Truthy(quizId) && 1 <= numQuestions <= 20
    ensures !Truthy(quizId) ==> r == Some("Missing quiz id")
    ensures Truthy(quizId) && !(1 <= numQuestions <= 20) ==> r == Some("Enter a number between 1 and 20")
  {
    if !Truthy(quizId) then Some("Missing quiz id")
    else if numQuestions < 1 || numQuestions > 20 then Some("Enter a number between 1 and 20")
    else None
  }

  /** The page refuses exactly the counts the server refuses. */
  lemma {:induction false} GenerateGuardMatchesServer(quizId: Json, numQuestions: int)
    requires Truthy(quizId)
    ensures GenerateGuard(quizId, numQuestions).None? <==> QuizRoutes.CountRequestAllowed(Num(numQuestions))
  {
    QuizRoutes.CountRequestRange(numQuestions);
  }

  // ---------------------------------------------------------------------------
  // AI questions awaiting confirmation
  // ---------------------------------------------------------------------------

  /** A generated question as the page holds it. */
  datatype AiQuestion = AiQuestion(question: string, options: seq<OptionDraft>)

  /** `handleRemoveAIQuestion`. */
  function RemoveAiQuestion(qs: seq<AiQuestion>, idx: int): (r: seq<AiQuestion>)
    ensures 0 <= idx < |qs| ==> |r| == |qs| - 1 && r == qs[..idx] + qs[idx + 1..]
    ensures !(0 <= idx < |qs|) ==> r == qs
  {
    RemoveAt(qs, idx)
  }

  predicate StartsWith(s: string, prefix: string) {
    |prefix| <= |s| && s[..|prefix|] == prefix
  }

  /** `parseInt(field.split('-')[1])`; a missing piece reads as `undefined`, which parses to `NaN`.
      The page calls `parseInt` without a radix; this reads base 10, which
      differs only on a "0x" prefix, and the page builds these field names
      itself from option indices. */
  function FieldIndex(field: string): Option<int> {
    var parts := Split(field, '-');
    if |parts| > 1 then ParseInt(parts[1]) else None
  }

  /** `handleUpdateAIQuestion(idx, field, value)`. The `option-k` edit throws
      unless `k` names an option; the `correct-k` edit marks option `k`
      correct and all others not (none, when `k` is `NaN`, which no index
      equals: -1 stands for it). */
  function UpdateAiQuestion(qs: seq<AiQuestion>, idx: int, field: string, value: string): (r: Option<seq<AiQuestion>>)
    ensures !(field == "question" || StartsWith(field, "option-") || StartsWith(field, "correct-")) ==> r == Some(qs)
    ensures r.Some? ==> |r.value| == |qs|
    ensures r.Some? ==> forall i :: 0 <= i < |qs| && i != idx ==> r.value[i] == qs[i]
    ensures (field == "question" || StartsWith(field, "option-") || StartsWith(field, "correct-")) && !(0 <= idx < |qs|) ==>
              r.None?
    ensures field == "question" && 0 <= idx < |qs| ==> r == Some(qs[idx := qs[idx].(question := value)])
    ensures field != "question" && StartsWith(field, "option-") ==>
              (r.Some? <==> 0 <= idx < |qs| && FieldIndex(field).Some? && 0 <= FieldIndex(field).value < |qs[idx].options|)
    ensures field != "question" && StartsWith(field, "option-") && r.Some? ==>
              var k := FieldIndex(field).value;
              r.value[idx] == qs[idx].(options := qs[idx].options[k := qs[idx].options[k].(text := value)])
    ensures StartsWith(field, "correct-") && !StartsWith(field, "option-") && 0 <= idx < |qs| ==>
              && r.Some? && r.value[idx].question == qs[idx].question
              && CorrectCount(r.value[idx].options) == (if FieldIndex(field).Some? && 0 <= FieldIndex(field).value < |qs[idx].options| then 1 else 0)
  {
    if field == "question" then
      if 0 <= idx < |qs| then Some(qs[idx := qs[idx].(question := value)]) else None
    else if StartsWith(field, "option-") then
      if 0 <= idx < |qs| then
        match EditText(qs[idx].options, FieldIndex(field).GetOr(-1), value)
        case None => None
        case Some(opts) => Some(qs[idx := qs[idx].(options := opts)])
      else None
    else if StartsWith(field, "correct-") then
      if 0 <= idx < |qs| then
        MarkCorrectCount(qs[idx].options, FieldIndex(field).GetOr(-1));
        Some(qs[idx := qs[idx].(options := MarkCorrect(qs[idx].options, FieldIndex(field).GetOr(-1)))])
      else None
    else Some(qs)
  }

  /** The field names the page builds for option `k` read back as `k`. */
  lemma {:induction false} FieldIndexOf(head: string, k: nat)
    requires '-' !in head
    ensures FieldIndex(head + "-" + IntToString(k)) == Some(k)
  {
    IntToStringShape(k);
    var field := head + "-" + IntToString(k);
    assert field == head + ['-'] + IntToString(k);
    FirstIndexAfter(head, '-', IntToString(k));
    SplitAt(head, '-', IntToString(k));
    assert '-' !in IntToString(k);
    assert Split(IntToString(k), '-') == [IntToString(k)];
    ParseIntOfIntToString(k, "");
    assert IntToString(k) + "" == IntToString(k);
  }

  /** Choosing the radio of option `k` of question `i` makes exactly that
      option correct in that question and changes nothing else. */
  lemma {:induction false} ChooseAiCorrect(qs: seq<AiQuestion>, idx: nat, k: nat)
    requires idx < |qs| && k < |qs[idx].options|
    ensures var r := UpdateAiQuestion(qs, idx, "correct-" + IntToString(k), "true");
            && r.Some? && |r.value| == |qs|
            && (forall i :: 0 <= i < |qs| && i != idx ==> r.value[i] == qs[i])
            && r.value[idx].question == qs[idx].question
            && r.value[idx].options == MarkCorrect(qs[idx].options, k)
            && CorrectCount(r.value[idx].options) == 1
  {
    var field := "correct-" + IntToString(k);
    assert field == "correct" + "-" + IntToString(k);
    FieldIndexOf("correct", k);
    assert StartsWith(field, "correct-");
    assert !StartsWith(field, "option-");
    MarkCorrectExactlyOne(qs[idx].options, k);
  }

  /** Typing into option `k` of question `i` changes that option's text and nothing else. */
  lemma {:induction false} TypeAiOption(qs: seq<AiQuestion>, idx: nat, k: nat, value: string)
    requires idx < |qs| && k < |qs[idx].options|
    ensures var r := UpdateAiQuestion(qs, idx, "option-" + IntToString(k), value);
            && r.Some? && (forall i :: 0 <= i < |qs| && i != idx ==> r.value[i] == qs[i])
            && r.value[idx].question == qs[idx].question
            && Some(r.value[idx].options) == EditText(qs[idx].options, k, value)
  {
    var field := "option-" + IntToString(k);
    assert field == "option" + "-" + IntToString(k);
    FieldIndexOf("option", k);
    assert StartsWith(field, "option-");
  }
}

=== FILE: quiz_page.dfy ===
/** The student's quiz page (client/src/pages/QuizPage.jsx): the answers
    object with one selection per question, the array it submits, the
    already-attempted check and which screen the page shows. */
module QuizPage {
  import opened Wrappers
  import opened Text
  import opened Js
  import Grading

  /** One property of the `answers` object: question id to chosen option id. */
  datatype Entry = Entry(questionId: nat, optionId: int)

  /** A JavaScript object enumerates integer keys in ascending order, so the
      `answers` object is its entries with strictly increasing question ids. */
  predicate Sorted(a: seq<Entry>) {
    forall i, j :: 0 <= i < j < |a| ==> a[i].questionId < a[j].questionId
  }

  /** The question ids that have an answer. */
  function Keys(a: seq<Entry>): set<nat> {
    if |a| == 0 then {} else {a[0].questionId} + Keys(a[1..])
  }

  lemma {:induction false} KeysAbove(a: seq<Entry>, q: nat)
    requires Sorted(a) && |a| > 0 && q < a[0].questionId
    ensures forall p :: p in Keys(a) ==> q < p
  {
    if |a| > 1 {
      KeysAbove(a[1..], q);
    }
  }

  /** `answers[q]`. */
  function Lookup(a: seq<Entry>, q: nat): (r: Option<int>)
    ensures r.Some? <==> q in Keys(a)
  {
    if |a| == 0 then None
    else if a[0].questionId == q then Some(a[0].optionId)
    else Lookup(a[1..], q)
  }

  /** `{ ...answers, [q]: o }`: the value is replaced in place when the key
      exists, otherwise the key joins the others in ascending position. */
  function Select(a: seq<Entry>, q: nat, o: int): (r: seq<Entry>)
    ensures Keys(r) == Keys(a) + {q}
  {
    if |a| == 0 then [Entry(q, o)]
    else if a[0].questionId == q then [Entry(q, o)] + a[1..]
    else if q < a[0].questionId then [Entry(q, o)] + a
    else [a[0]] + Select(a[1..], q, o)
  }

  /** Selecting keeps the entries in ascending question order. */
  lemma {:induction false} SelectSorted(a: seq<Entry>, q: nat, o: int)
    requires Sorted(a)
    ensures Sorted(Select(a, q, o))
  {
    if |a| > 0 && a[0].questionId < q {
      SelectSorted(a[1..], q, o);
      if |a| > 1 {
        KeysAbove(a[1..], a[0].questionId);
      }
      ConsSorted(a[0], Select(a[1..], q, o));
    } else if |a| > 0 && q < a[0].questionId {
      KeysAbove(a, q);
      ConsSorted(Entry(q, o), a);
    } else if |a| > 0 {
      if |a| > 1 {
        KeysAbove(a[1..], q);
      }
      ConsSorted(Entry(q, o), a[1..]);
    }
  }

  /** An entry below every key of a sorted list can lead it. */
  lemma {:induction false} ConsSorted(x: Entry, rest: seq<Entry>)
    requires Sorted(rest) && forall p :: p in Keys(rest) ==> x.questionId < p
    ensures Sorted([x] + rest)
  {
    forall k | 0 <= k < |rest| ensures x.questionId < rest[k].questionId {
      InKeys(rest, k);
    }
  }

  lemma {:induction false} InKeys(a: seq<Entry>, k: nat)
    requires k < |a|
    ensures a[k].questionId in Keys(a)
  {
    if k > 0 {
      InKeys(a[1..], k - 1);
    }
  }

  /** The selection just made is the one stored; no other question's selection changes. */
  lemma {:induction false} LookupSelect(a: seq<Entry>, q: nat, o: int, p: nat)
    ensures Lookup(Select(a, q, o), p) == if p == q then Some(o) else Lookup(a, p)
  {
    if |a| > 0 && a[0].questionId != q && !(q < a[0].questionId) {
      LookupSelect(a[1..], q, o, p);
    }
  }

  /** Choosing again for the same question replaces the earlier choice. */
  lemma {:induction false} Reselect(a: seq<Entry>, q: nat, o1: int, o2: int)
    ensures Select(Select(a, q, o1), q, o2) == Select(a, q, o2)
  {
    if |a| > 0 && a[0].questionId != q && !(q < a[0].questionId) {
      Reselect(a[1..], q, o1, o2);
    }
  }

  /** A sorted entry list has one entry per key. */
  lemma {:induction false} SortedKeyCount(a: seq<Entry>)
    requires Sorted(a)
    ensures |Keys(a)| == |a|
  {
    if |a| > 0 {
      SortedKeyCount(a[1..]);
      if |a| > 1 {
        KeysAbove(a[1..], a[0].questionId);
      }
      assert a[0].questionId !in Keys(a[1..]);
    }
  }

  /** A selection adds an entry exactly when the question had none. */
  lemma {:induction false} SelectLength(a: seq<Entry>, q: nat, o: int)
    requires Sorted(a)
    ensures |Select(a, q, o)| == |a| + (if q in Keys(a) then 0 else 1)
  {
    SelectSorted(a, q, o);
    SortedKeyCount(a);
    SortedKeyCount(Select(a, q, o));
  }

  /** In a sorted list the entry for a key is the one `Lookup` finds. */
  lemma {:induction false} LookupAt(a: seq<Entry>, k: nat)
    requires Sorted(a) && k < |a|
    ensures Lookup(a, a[k].questionId) == Some(a[k].optionId)
  {
    if k > 0 {
      LookupAt(a[1..], k - 1);
    }
  }

  /** Every key has an entry. */
  lemma {:induction false} KeyAt(a: seq<Entry>, p: nat) returns (k: nat)
    requires p in Keys(a)
    ensures k < |a| && a[k].questionId == p
  {
    if a[0].questionId == p {
      k := 0;
    } else {
      var k' := KeyAt(a[1..], p);
      k := k' + 1;
    }
  }

  /** A JSON number as it reaches the server: `NaN` serialises as `null`. */
  function NumberJson(n: Option<int>): Json {
    match n
    case Some(v) => Num(v)
    case None => Null
  }

  /** One element of `answerArray`: `{ question_id: parseInt(questionId), option_id: optionId }`,
      where the key is the question id's decimal text. The page calls
      `parseInt` without a radix; base 10 gives the same result here, since
      the key is an object key the page made from an integer id and never
      starts with "0x". */
  function EntryJson(e: Entry): Json {
    Obj(map["question_id" := NumberJson(ParseInt(IntToString(e.questionId))),
            "option_id" := Num(e.optionId)])
  }

  /** `parseInt` of the key gives back the question id. */
  lemma {:induction false} EntryJsonFields(e: Entry)
    ensures Get(EntryJson(e), "question_id") == Num(e.questionId)
    ensures Get(EntryJson(e), "option_id") == Num(e.optionId)
  {
    ParseIntOfIntToString(e.questionId, "");
    assert IntToString(e.questionId) + "" == IntToString(e.questionId);
  }

  /** `answerArray`: one element per entry, in enumeration order. */
  function AnswerArray(a: seq<Entry>): (r: seq<Json>)
    ensures |r| == |a|
    ensures forall i :: 0 <= i < |a| ==> r[i] == EntryJson(a[i])
  {
    seq(|a|, i requires 0 <= i < |a| => EntryJson(a[i]))
  }

  /** The submitted array holds one entry per answered question, carrying
      the question id and the selection made for it, and no question twice. */
  lemma {:induction false} AnswerArrayFaithful(a: seq<Entry>)
    requires Sorted(a)
    ensures |AnswerArray(a)| == |Keys(a)|
    ensures forall i :: 0 <= i < |a| ==>
              && Get(AnswerArray(a)[i], "question_id") == Num(a[i].questionId)
              && Get(AnswerArray(a)[i], "option_id") == Num(a[i].optionId)
              && Lookup(a, a[i].questionId) == Some(a[i].optionId)
    ensures forall i, j :: 0 <= i < j < |a| ==>
              Get(AnswerArray(a)[i], "question_id") != Get(AnswerArray(a)[j], "question_id")
  {
    SortedKeyCount(a);
    forall i | 0 <= i < |a|
      ensures Get(AnswerArray(a)[i], "question_id") == Num(a[i].questionId)
      ensures Get(AnswerArray(a)[i], "option_id") == Num(a[i].optionId)
      ensures Lookup(a, a[i].questionId) == Some(a[i].optionId)
    {
      EntryJsonFields(a[i]);
      LookupAt(a, i);
    }
  }

  /** Every answered question appears in the submitted array. */
  lemma {:induction false} AnswerArrayCovers(a: seq<Entry>, p: nat)
    requires p in Keys(a)
    ensures exists i :: 0 <= i < |a| && a[i].questionId == p && Get(AnswerArray(a)[i], "option_id") == Num(a[i].optionId)
  {
    var k := KeyAt(a, p);
    EntryJsonFields(a[k]);
  }

  /** The body `handleSubmit` posts. */
  function SubmitBody(a: seq<Entry>): Json {
    Obj(map["answers" := Arr(AnswerArray(a))])
  }

  /** The attempt the server records counts one question per answered
      question (when its insert succeeds). */
  lemma {:induction false} SubmitCountsAnswered(recs: Grading.Records, student: int, quizRef: string, a: seq<Entry>,
                             flags: map<int, bool>, now: int, fault: Grading.SubmitFault)
    requires Sorted(a)
    ensures !fault.AttemptFails? ==>
              var after := Grading.Submit(recs, student, quizRef, SubmitBody(a), flags, now, fault).1;
              |after.attempts| == |recs.attempts| + 1 && after.attempts[|recs.attempts|].total == |Keys(a)|
  {
    SortedKeyCount(a);
  }

  // ---------------------------------------------------------------------------
  // The attempts check and the screens
  // ---------------------------------------------------------------------------

  /** `checkAttempts`: the listing's rows, or `None` when the request fails
      (the error is only logged). Gives `alreadyAttempted` and `previousScore`. */
  function CheckAttempts(listed: Option<seq<Grading.Attempt>>): (r: (bool, Option<Grading.Attempt>))
    ensures r.0 <==> listed.Some? && |listed.value| > 0
    ensures r.0 ==> r.1 == Some(listed.value[0])
    ensures !r.0 ==> r.1 == None
  {
    if listed.Some? && |listed.value| > 0 then (true, Some(listed.value[0])) else (false, None)
  }

  /** Reloading the page after a submission finds an attempt: the page is
      marked attempted and shows the first listed attempt, which is the most
      recent one and no older than the submission. When every earlier
      attempt is strictly older, that is the submission itself. */
  lemma {:induction false} ReloadAfterSubmit(recs: Grading.Records, student: int, quizRef: string, body: Json,
                          flags: map<int, bool>, now: int, fault: Grading.SubmitFault)
    requires Get(body, "answers").Arr?
    ensures !fault.AttemptFails? ==>
              var after := Grading.Submit(recs, student, quizRef, body, flags, now, fault).1;
              var listed := Grading.AttemptsFor(after.attempts, student, quizRef);
              && CheckAttempts(Some(listed)).0
              && CheckAttempts(Some(listed)).1 == Some(listed[0])
              && listed[0].at >= now
              && (forall i :: 0 <= i < |listed| ==> listed[i].at <= listed[0].at)
              && ((forall i :: 0 <= i < |recs.attempts| ==> recs.attempts[i].at < now)
                  ==> CheckAttempts(Some(listed)) == (true, Some(after.attempts[|recs.attempts|])))
  {
    if !fault.AttemptFails? {
      Grading.SubmitThenList(recs, student, quizRef, body, flags, now, fault);
    }
  }

  /** What the page renders. */
  datatype Screen = LoadingScreen | NotFound | AlreadyDone | Results | StartScreen | Questions

  /** The render's early returns, in order. */
  function ScreenOf(loading: bool, quizFound: bool, alreadyAttempted: bool, hasScore: bool, started: bool): (r: Screen)
    ensures r == Questions <==> !loading && quizFound && !alreadyAttempted && !hasScore && started
    ensures !loading && quizFound && alreadyAttempted && !hasScore ==> r == AlreadyDone
  {
    if loading then LoadingScreen
    else if !quizFound then NotFound
    else if alreadyAttempted && !hasScore then AlreadyDone
    else if hasScore then Results
    else if !started then StartScreen
    else Questions
  }

  /** A student with a recorded attempt never reaches the questions again on
      a fresh load of the page. */
  lemma {:induction false} AttemptedNeverSeesQuestions(listed: seq<Grading.Attempt>, loading: bool, quizFound: bool, started: bool)
    requires |listed| > 0
    ensures ScreenOf(loading, quizFound, CheckAttempts(Some(listed)).0, false, started) != Questions
  {
  }
}

=== FILE: quiz_routes.dfy ===
/** The quiz-authoring routes of server/routes/quizzes.js: creating a quiz,
    the atomic batch insert, the single-question insert and AI question
    generation. Each route is a function from the request and the tables to
    the reply and the new tables; database faults, the AI reply and
    `JSON.parse` are parameters. */
module QuizRoutes {
  import opened Wrappers
  import opened Text
  import opened Js
  import opened JsNumbers
  import opened QuestionValidation
  import opened QuestionStore

  /** The JSON body of a reply, one shape per kind of answer. `Thrown` is a
      500 carrying the message of a JavaScript or SQLite exception. */
  datatype Body =
    | Error(error: string)
    | Thrown
    | InvalidItems(error: string, invalid: seq<Rejection>)
    | QuizCreated(id: nat, experimentId: Json, title: Json)
    | BatchCreated(created: nat)
    | QuestionCreated(questionId: nat, questionText: Json, options: seq<Json>)
    | Drafts(questions: seq<CleanQuestion>)
    | Scored(correctCount: nat, totalQuestions: nat)

  datatype Reply = Reply(status: nat, body: Body)

  /** Where the batch transaction fails, if anywhere: BEGIN itself (outside the
      inner `try`), the write with the given 0-based position, or COMMIT. */
  datatype TxFault = NoFault | BeginFails | WriteFails(at: nat) | CommitFails

  // ---------------------------------------------------------------------------
  // POST /api/quizzes
  // ---------------------------------------------------------------------------

  /** Creating a quiz needs a truthy experiment id and title; nothing checks
      that the experiment exists or belongs to the caller. */
  function CreateQuiz(db: Db, body: Json): (out: (Reply, Db))
    ensures !Truthy(Get(body, "experiment_id")) || !Truthy(Get(body, "title")) ==>
              out == (Reply(400, Error("experiment_id and title required")), db)
    ensures out.0.status == 201 <==> Truthy(Get(body, "experiment_id")) && Truthy(Get(body, "title"))
    ensures out.0.status == 201 ==>
              && out.0.body == QuizCreated(|db.quizzes| + 1, Get(body, "experiment_id"), Get(body, "title"))
              && |out.1.quizzes| == |db.quizzes| + 1 && out.1.quizzes[..|db.quizzes|] == db.quizzes
              && out.1.quizzes[|db.quizzes|] == QuizRow(Get(body, "experiment_id"), Get(body, "title"))
              && out.1.owners == db.owners && out.1.questions == db.questions && out.1.options == db.options
  {
    var experimentId := Get(body, "experiment_id");
    var title := Get(body, "title");
    if !Truthy(experimentId) || !Truthy(title) then
      (Reply(400, Error("experiment_id and title required")), db)
    else
      (Reply(201, QuizCreated(|db.quizzes| + 1, experimentId, title)),
       db.(quizzes := db.quizzes + [QuizRow(experimentId, title)]))
  }

  /** A new quiz belongs to whoever owns the experiment it names, not to its
      creator: the creator can add questions to it (through its rendered id)
      exactly when the experiment id is a number naming one of the creator's
      experiments. */
  lemma {:induction false} CreatedQuizOwnership(db: Db, body: Json, userId: int)
    requires CreateQuiz(db, body).0.status == 201
    ensures var id := |db.quizzes| + 1;
            var e := Get(body, "experiment_id");
            Authorise(CreateQuiz(db, body).1, IntToString(id), userId).Ok? <==>
              e.Num? && e.n in db.owners && db.owners[e.n] == userId
  {
    var id := |db.quizzes| + 1;
    QuizIdOfRendered(id, "");
    assert IntToString(id) + "" == IntToString(id);
  }

  // ---------------------------------------------------------------------------
  // Quiz id and ownership (shared by both question routes)
  // ---------------------------------------------------------------------------

  /** `parseInt(req.params.id, 10)`, rejected when it is `NaN` or 0. */
  function QuizIdOf(param: string): (r: Option<int>)
    ensures r.Some? <==> ParseInt(param).Some? && ParseInt(param).value != 0
    ensures r.Some? ==> ParseInt(param) == r
  {
    match ParseInt(param)
    case None => None
    case Some(n) => if n == 0 then None else Some(n)
  }

  /** The rendered id of an existing quiz is accepted as that id. */
  lemma {:induction false} QuizIdOfRendered(id: int, rest: string)
    requires id != 0
    requires |rest| > 0 ==> !IsDigit(rest[0])
    ensures QuizIdOf(IntToString(id) + rest) == Some(id)
  {
    ParseIntOfIntToString(id, rest);
  }

  /** The faculty owner found by the quiz/experiment join, if the join finds a row. */
  function QuizOwner(db: Db, quizId: int): (r: Option<int>)
    ensures r.Some? <==>
              1 <= quizId <= |db.quizzes| && db.quizzes[quizId - 1].experimentId.Num?
              && db.quizzes[quizId - 1].experimentId.n in db.owners
  {
    if 1 <= quizId <= |db.quizzes| then
      match db.quizzes[quizId - 1].experimentId
      case Num(e) => if e in db.owners then Some(db.owners[e]) else None
      case _ => None
    else None
  }

  /** The id check, the 404 and the 403, in that order. */
  function Authorise(db: Db, param: string, userId: int): (r: Result<int, Reply>)
    ensures r.Ok? <==> QuizIdOf(param).Some? && QuizOwner(db, QuizIdOf(param).value) == Some(userId)
    ensures r.Ok? ==> Some(r.value) == QuizIdOf(param)
    ensures QuizIdOf(param).None? ==> r == Err(Reply(400, Error("Invalid quiz id")))
    ensures QuizIdOf(param).Some? && QuizOwner(db, QuizIdOf(param).value).None? ==>
              r == Err(Reply(404, Error("Quiz not found")))
    ensures QuizIdOf(param).Some? && QuizOwner(db, QuizIdOf(param).value).Some?
            && QuizOwner(db, QuizIdOf(param).value) != Some(userId) ==>
              r == Err(Reply(403, Error("Not authorized to modify this quiz")))
  {
    match QuizIdOf(param)
    case None => Err(Reply(400, Error("Invalid quiz id")))
    case Some(id) =>
      match QuizOwner(db, id)
      case None => Err(Reply(404, Error("Quiz not found")))
      case Some(owner) =>
        if owner != userId then Err(Reply(403, Error("Not authorized to modify this quiz")))
        else Ok(id)
  }

  // ---------------------------------------------------------------------------
  // POST /api/quizzes/:id/questions/batch
  // ---------------------------------------------------------------------------

  predicate NonEmptyArray(j: Json) {
    j.Arr? && |j.items| > 0
  }

  /** Whether the transaction fault bites: a write fault only counts if the
      batch issues that many writes. */
  predicate TxFails(fault: TxFault, qs: seq<CleanQuestion>) {
    fault.CommitFails? || (fault.WriteFails? && fault.at < WriteCount(qs))
  }

  /** The batch route's checks before the transaction: shape, id and
      ownership, then full validation. */
  function BatchGate(db: Db, param: string, userId: int, body: Json): (r: Result<seq<CleanQuestion>, Reply>)
    ensures !NonEmptyArray(Get(body, "questions")) ==>
              r == Err(Reply(400, Error("questions must be a non-empty array")))
    ensures r.Ok? <==>
              && NonEmptyArray(Get(body, "questions"))
              && Authorise(db, param, userId).Ok?
              && Review(Batch, Get(body, "questions").items).Accepted?
    ensures r.Ok? ==> Review(Batch, Get(body, "questions").items) == Accepted(r.value)
    ensures r.Err? ==> r.error.status != 201
  {
    var questions := Get(body, "questions");
    if !NonEmptyArray(questions) then Err(Reply(400, Error("questions must be a non-empty array")))
    else
      match Authorise(db, param, userId)
      case Err(reply) => Err(reply)
      case Ok(_) =>
        match Review(Batch, questions.items)
        case Rejected(invalid) => Err(Reply(400, InvalidItems("One or more questions invalid", invalid)))
        case Accepted(clean) => Ok(clean)
  }

  /** The transaction: BEGIN, every insert, COMMIT; any failure rolls back. */
  function Commit(db: Db, param: string, clean: seq<CleanQuestion>, fault: TxFault): (out: (Reply, Db))
    ensures out.0.status == 201 <==> !fault.BeginFails? && !TxFails(fault, clean)
    ensures out.0.status == 201 ==> out == (Reply(201, BatchCreated(|clean|)), InsertBatch(db, param, clean))
    ensures out.0.status != 201 ==> out.1 == db && out.0.status == 500
  {
    if fault.BeginFails? then (Reply(500, Thrown), db)
    else if TxFails(fault, clean) then (Reply(500, Error("Failed to create questions batch")), db)
    else (Reply(201, BatchCreated(|clean|)), InsertBatch(db, param, clean))
  }

  /** The batch route: the checks, then one transaction. */
  function BatchCreate(db: Db, param: string, userId: int, body: Json, fault: TxFault): (out: (Reply, Db))
    ensures BatchGate(db, param, userId, body).Err? ==> out == (BatchGate(db, param, userId, body).error, db)
    ensures BatchGate(db, param, userId, body).Ok? ==>
              out == Commit(db, param, BatchGate(db, param, userId, body).value, fault)
  {
    match BatchGate(db, param, userId, body)
    case Err(reply) => (reply, db)
    case Ok(clean) => Commit(db, param, clean, fault)
  }

  /** A batch that reaches the transaction is written in full or not at all;
      when written, every new question is playable and the old ones keep
      their options. */
  lemma {:induction false} BatchAtomic(db: Db, param: string, userId: int, body: Json, fault: TxFault, out: (Reply, Db))
    requires Consistent(db) && out == BatchCreate(db, param, userId, body, fault)
    ensures out.1 != db ==> out.0.status == 201
    ensures out.0.status == 201 ==>
              && Consistent(out.1)
              && |out.1.questions| == |db.questions| + |Get(body, "questions").items|
              && out.1.questions[..|db.questions|] == db.questions
              && (forall qid :: |db.questions| < qid <= |out.1.questions| ==> Playable(out.1, qid))
              && (forall qid: nat :: qid <= |db.questions| ==>
                    OptionsOf(out.1.options, qid) == OptionsOf(db.options, qid))
  {
    if out.0.status == 201 {
      var v := Review(Batch, Get(body, "questions").items);
      BatchWritten(Batch, db, param, v.questions, out.1);
    }
  }

  /** The effect of a committed batch of clean questions. */
  lemma {:induction false} BatchWritten(policy: Policy, db: Db, ref: string, clean: seq<CleanQuestion>, r: Db)
    requires Consistent(db) && r == InsertBatch(db, ref, clean)
    requires forall i :: 0 <= i < |clean| ==> IsClean(policy, clean[i])
    ensures Consistent(r)
    ensures |r.questions| == |db.questions| + |clean|
    ensures r.questions[..|db.questions|] == db.questions
    ensures forall qid :: |db.questions| < qid <= |r.questions| ==> Playable(r, qid)
    ensures forall qid: nat :: qid <= |db.questions| ==> OptionsOf(r.options, qid) == OptionsOf(db.options, qid)
  {
    InsertBatchRows(db, ref, clean, r);
    assert (db.questions + QuestionRows(ref, clean))[..|db.questions|] == db.questions;
    BatchAllPlayable(policy, db, ref, clean, r);
    forall qid: nat | qid <= |db.questions|
      ensures OptionsOf(r.options, qid) == OptionsOf(db.options, qid)
    {
      InsertBatchKeeps(db, ref, clean, r, qid);
    }
  }

  lemma {:induction false} BatchAllPlayable(policy: Policy, db: Db, ref: string, clean: seq<CleanQuestion>, r: Db)
    requires Consistent(db) && r == InsertBatch(db, ref, clean)
    requires forall i :: 0 <= i < |clean| ==> IsClean(policy, clean[i])
    ensures |r.questions| == |db.questions| + |clean|
    ensures forall qid :: |db.questions| < qid <= |r.questions| ==> Playable(r, qid)
  {
    InsertBatchRows(db, ref, clean, r);
    forall qid | |db.questions| < qid <= |r.questions| ensures Playable(r, qid) {
      InsertBatchPlayable(policy, db, ref, clean, r, qid - |db.questions| - 1);
    }
  }

  /** The route's 201 happens exactly when every gate passes and no fault bites. */
  lemma {:induction false} BatchCreatedIff(db: Db, param: string, userId: int, body: Json, fault: TxFault)
    requires NonEmptyArray(Get(body, "questions")) && Authorise(db, param, userId).Ok?
    ensures var v := Review(Batch, Get(body, "questions").items);
            BatchCreate(db, param, userId, body, fault).0.status == 201
            <==> v.Accepted? && !fault.BeginFails? && !TxFails(fault, v.questions)
  {
  }

  /** An invalid item stops the batch with the full rejection list. */
  lemma {:induction false} BatchRejects(db: Db, param: string, userId: int, body: Json, fault: TxFault)
    requires NonEmptyArray(Get(body, "questions")) && Authorise(db, param, userId).Ok?
    requires Review(Batch, Get(body, "questions").items).Rejected?
    ensures BatchCreate(db, param, userId, body, fault)
            == (Reply(400, InvalidItems("One or more questions invalid",
                                       Review(Batch, Get(body, "questions").items).invalid)), db)
  {
  }

  // ---------------------------------------------------------------------------
  // POST /api/quizzes/:id/questions
  // ---------------------------------------------------------------------------

  /** `options.filter(o => o.is_correct).length` over options that are not
      `null` or `undefined`. */
  function TruthyCorrect(opts: seq<Json>): (n: nat)
    ensures n <= |opts|
  {
    if |opts| == 0 then 0
    else (if Truthy(Get(opts[0], "is_correct")) then 1 else 0) + TruthyCorrect(opts[1..])
  }

  /** The option rows the single-question route binds: `option.text` and
      `option.is_correct ? 1 : 0`. */
  function SingleOptions(opts: seq<Json>): (r: seq<NewOption>)
    ensures |r| == |opts|
    ensures forall k :: 0 <= k < |r| ==>
              r[k] == NewOption(Get(opts[k], "text"), Truthy(Get(opts[k], "is_correct")))
  {
    seq(|opts|, k requires 0 <= k < |opts| => NewOption(Get(opts[k], "text"), Truthy(Get(opts[k], "is_correct"))))
  }

  /** How many option inserts succeed, from `from` on, before the first one
      that fails: a missing `text` violates `option_text NOT NULL`, and
      `failAt == Some(k + 1)` makes option `k`'s insert fail for any other reason
      (write 0 is the question insert). */
  function WrittenOptions(opts: seq<Json>, failAt: Option<nat>, from: nat): (r: nat)
    requires from <= |opts|
    ensures from <= r <= |opts|
    ensures forall k :: from <= k < r ==> !Nullish(Get(opts[k], "text")) && failAt != Some(k + 1)
    ensures r < |opts| ==> Nullish(Get(opts[r], "text")) || failAt == Some(r + 1)
    decreases |opts| - from
  {
    if from == |opts| then from
    else if Nullish(Get(opts[from], "text")) || failAt == Some(from + 1) then from
    else WrittenOptions(opts, failAt, from + 1)
  }

  /** The writes of the single-question route, once every check has passed:
      the question insert (write 0), then one insert per option until one
      fails. Nothing is rolled back. */
  function WriteSingle(db: Db, param: string, qt: Json, opts: seq<Json>, failAt: Option<nat>): (out: (Reply, Db))
    ensures failAt == Some(0) ==> out == (Reply(500, Thrown), db)
    ensures failAt != Some(0) ==>
              out.1 == InsertQuestion(db, param, qt, SingleOptions(opts)[..WrittenOptions(opts, failAt, 0)])
    ensures out.0.status == 201 <==> failAt != Some(0) && WrittenOptions(opts, failAt, 0) == |opts|
    ensures out.0.status != 201 ==> out.0 == Reply(500, Thrown)
    ensures out.0.status == 201 ==>
              out == (Reply(201, QuestionCreated(|db.questions| + 1, qt, opts)),
                      InsertQuestion(db, param, qt, SingleOptions(opts)))
  {
    if failAt == Some(0) then (Reply(500, Thrown), db)
    else
      var all := SingleOptions(opts);
      var n := WrittenOptions(opts, failAt, 0);
      var db' := InsertQuestion(db, param, qt, all[..n]);
      if n == |opts| then
        assert all[..n] == all;
        (Reply(201, QuestionCreated(|db.questions| + 1, qt, opts)), db')
      else (Reply(500, Thrown), db')
  }

  /** Whether the single-question route's checks before any write pass. */
  predicate SingleChecksPass(db: Db, param: string, userId: int, body: Json) {
    var qt := Get(body, "question_text");
    var opts := Get(body, "options");
    && Truthy(qt) && opts.Arr? && |opts.items| >= 2
    && (forall k :: 0 <= k < |opts.items| ==> !Nullish(opts.items[k]))
    && TruthyCorrect(opts.items) == 1
    && Authorise(db, param, userId).Ok?
  }

  /** The single-question route. Its shape checks run before the id and
      ownership checks; a `null` option makes the correctness filter throw;
      the writes are not wrapped in a transaction. */
  function AddQuestion(db: Db, param: string, userId: int, body: Json, failAt: Option<nat>): (out: (Reply, Db))
    ensures var qt := Get(body, "question_text");
            var opts := Get(body, "options");
            !Truthy(qt) || !opts.Arr? || |opts.items| < 2 ==>
              out == (Reply(400, Error("question_text and at least 2 options required")), db)
    ensures !SingleChecksPass(db, param, userId, body) ==> out.1 == db && out.0.status != 201
    ensures SingleChecksPass(db, param, userId, body) ==>
              out == WriteSingle(db, param, Get(body, "question_text"), Get(body, "options").items, failAt)
  {
    var qt := Get(body, "question_text");
    var opts := Get(body, "options");
    if !Truthy(qt) || !opts.Arr? || |opts.items| < 2 then
      (Reply(400, Error("question_text and at least 2 options required")), db)
    else if exists k :: 0 <= k < |opts.items| && Nullish(opts.items[k]) then
      (Reply(500, Thrown), db)
    else if TruthyCorrect(opts.items) != 1 then
      (Reply(400, Error("Exactly one option must be marked as correct")), db)
    else
      match Authorise(db, param, userId)
      case Err(reply) => (reply, db)
      case Ok(_) => WriteSingle(db, param, qt, opts.items, failAt)
  }

  /** A question added by the single-question route is playable. */
  lemma {:induction false} AddedQuestionPlayable(db: Db, param: string, userId: int, body: Json, failAt: Option<nat>, out: (Reply, Db))
    requires Consistent(db) && out == AddQuestion(db, param, userId, body, failAt) && out.0.status == 201
    ensures TruthyCorrect(Get(body, "options").items) == 1
    ensures out.0.body == QuestionCreated(|db.questions| + 1, Get(body, "question_text"), Get(body, "options").items)
    ensures Playable(out.1, |db.questions| + 1)
  {
    var opts := Get(body, "options").items;
    var rows := OptionRows(|db.questions| + 1, SingleOptions(opts));
    InsertQuestionOptions(db, param, Get(body, "question_text"), SingleOptions(opts), out.1);
    SameCorrectCount(opts, rows);
  }

  lemma {:induction false} SameCorrectCount(opts: seq<Json>, rows: seq<OptionRow>)
    requires |rows| == |opts|
    requires forall k :: 0 <= k < |rows| ==> rows[k].isCorrect == Truthy(Get(opts[k], "is_correct"))
    ensures CorrectCount(rows) == TruthyCorrect(opts)
  {
    if |opts| > 0 {
      SameCorrectCount(opts[1..], rows[1..]);
    }
  }

  /** A witness that the two routes order their checks differently: a
      non-owner's request with an empty option list and a `[null]` question
      list gets the single route's shape 400 (checked before ownership),
      while the batch route, whose list is a non-empty array, reaches the
      ownership check first and answers 403. */
  lemma {:induction false} CheckOrderDiffers(db: Db, param: string, userId: int, body: Json, failAt: Option<nat>, fault: TxFault)
    requires QuizIdOf(param).Some? && QuizOwner(db, QuizIdOf(param).value).Some?
    requires QuizOwner(db, QuizIdOf(param).value) != Some(userId)
    requires Get(body, "options") == Arr([])
    requires Get(body, "questions") == Arr([Null])
    ensures AddQuestion(db, param, userId, body, failAt).0.status == 400
    ensures BatchCreate(db, param, userId, body, fault).0.status == 403
  {
  }

  /** Without a transaction a failed option insert leaves its question
      behind: the reply is a 500, yet the question row exists with fewer
      options than were sent. */
  lemma {:induction false} PartialWriteOnFailure(db: Db, param: string, userId: int, body: Json, failAt: Option<nat>, out: (Reply, Db))
    requires Consistent(db) && out == AddQuestion(db, param, userId, body, failAt)
    requires out.0.status != 201 && out.1 != db
    ensures out.0 == Reply(500, Thrown)
    ensures |out.1.questions| == |db.questions| + 1
    ensures |OptionsOf(out.1.options, |db.questions| + 1)| < |Get(body, "options").items|
  {
    var opts := Get(body, "options").items;
    var written := SingleOptions(opts)[..WrittenOptions(opts, failAt, 0)];
    InsertQuestionOptions(db, param, Get(body, "question_text"), written, out.1);
  }

  /** In particular, when the first option has no text the stranded question
      has no options at all and can never be answered. */
  lemma {:induction false} StrandedQuestion(db: Db, param: string, userId: int, body: Json, failAt: Option<nat>, out: (Reply, Db))
    requires Consistent(db) && SingleChecksPass(db, param, userId, body) && failAt != Some(0)
    requires Nullish(Get(Get(body, "options").items[0], "text"))
    requires out == AddQuestion(db, param, userId, body, failAt)
    ensures out.0 == Reply(500, Thrown)
    ensures |out.1.questions| == |db.questions| + 1
    ensures OptionsOf(out.1.options, |db.questions| + 1) == []
    ensures !Playable(out.1, |db.questions| + 1)
  {
    var opts := Get(body, "options").items;
    assert WrittenOptions(opts, failAt, 0) == 0;
    assert SingleOptions(opts)[..0] == [];
    InsertQuestionOptions(db, param, Get(body, "question_text"), [], out.1);
  }

  // ---------------------------------------------------------------------------
  // POST /api/quizzes/:id/generate-questions
  // ---------------------------------------------------------------------------

  /** `!num_questions || num_questions < 1 || num_questions > 20` is false. */
  predicate CountRequestAllowed(j: Json) {
    Truthy(j) && !LessThan(j, 1) && !GreaterThan(j, 20)
  }

  /** For a number the guard is exactly the range 1 to 20. */
  lemma {:induction false} CountRequestRange(n: int)
    ensures CountRequestAllowed(Num(n)) <==> 1 <= n <= 20
  {
  }

  /** The guard passes a truthy value exactly when its number is `NaN` or lies
      between 1 and 20; the infinities never pass. */
  lemma {:induction false} CountRequestAllowedIff(j: Json)
    ensures CountRequestAllowed(j) <==>
              Truthy(j) && (ToNumber(j).NaN? || (ToNumber(j).Finite? && 1.0 <= ToNumber(j).value <= 20.0))
  {
  }

  /** A value that converts to `NaN` passes both comparisons, so the guard
      lets a truthy non-numeric value such as the string "many" through. */
  lemma {:induction false} CountRequestLetsNaNThrough(j: Json)
    requires Truthy(j) && ToNumber(j).NaN?
    ensures CountRequestAllowed(j)
  {
  }

  /** Strings are compared by their numeric value: an exponent, a hex
      literal, a fraction outside the range and `Infinity` are refused. */
  lemma {:induction false} CountRequestRefusesNumericStrings()
    ensures !CountRequestAllowed(Str("1e3")) && !CountRequestAllowed(Str("0x15"))
    ensures !CountRequestAllowed(Str("0.5")) && !CountRequestAllowed(Str("20.5"))
    ensures !CountRequestAllowed(Str("Infinity"))
  {
    ThousandRead();
    CountRequestOfString("1e3");
    HexRead();
    CountRequestOfString("0x15");
    HalfRead();
    CountRequestOfString("0.5");
    TwentyAndAHalfRead();
    CountRequestOfString("20.5");
    InfinityRead();
    CountRequestOfString("Infinity");
  }

  /** "2e1" (twenty) and a padded " 7 " pass, and so does the non-number "many". */
  lemma {:induction false} CountRequestPassesStrings()
    ensures CountRequestAllowed(Str("2e1")) && CountRequestAllowed(Str(" 7 ")) && CountRequestAllowed(Str("many"))
  {
    TwentyRead();
    CountRequestOfString("2e1");
    PaddedSevenRead();
    CountRequestOfString(" 7 ");
    ManyIsNaN();
    CountRequestOfString("many");
  }

  /** For a non-empty string the guard depends only on the string's number. */
  lemma {:induction false} CountRequestOfString(s: string)
    requires |s| > 0
    ensures CountRequestAllowed(Str(s)) <==>
              StringToNumber(s).NaN? || (StringToNumber(s).Finite? && 1.0 <= StringToNumber(s).value <= 20.0)
  {
    CountRequestAllowedIff(Str(s));
  }

  lemma {:induction false} PaddedSevenRead()
    ensures StringToNumber(" 7 ") == Finite(7.0)
  {
    PaddingIgnored(" ", "7", " ");
    assert " " + "7" + " " == " 7 ";
    SevenRead();
  }

  lemma {:induction false} SevenRead()
    ensures StringToNumber("7") == Finite(7.0)
  {
    DigitsExact("7");
    DecimalRead("7");
  }

  lemma {:induction false} ManyIsNaN()
    ensures ToNumber(Str("many")) == NaN
  {
    TightIsTrimmed("many");
    assert ExponentMark("many") == None;
    assert FirstIndex("many", '.') == None;
    assert !IsDigit("many"[0]);
  }

  /** `Number.isInteger(x) ? x : parseInt(x, 10)`, rejected when `NaN` or 0. */
  function ExperimentIdOf(j: Json): (r: Option<int>)
    ensures j.Num? && j.n != 0 ==> r == Some(j.n)
    ensures r.Some? ==> r.value != 0
    ensures !j.Num? ==> (r.Some? <==> ParseInt(ToJsString(j)).Some? && ParseInt(ToJsString(j)).value != 0)
  {
    var id := if j.Num? then Some(j.n) else ParseInt(ToJsString(j));
    if id.Some? && id.value != 0 then id else None
  }

  /** The text handed to `JSON.parse`: the span from the first `[` to the last
      `]` when both exist in that order, otherwise the whole (trimmed) text. */
  function ExtractJsonText(content: string): (r: string)
  {
    match (FirstIndex(content, '['), LastIndex(content, ']'))
    case (Some(a), Some(b)) => if b > a then content[a..b + 1] else content
    case _ => content
  }

  /** Some `[` comes before some `]`. */
  predicate HasBracketSpan(content: string) {
    exists i, j :: 0 <= i < j < |content| && content[i] == '[' && content[j] == ']'
  }

  /** The condition the route tests is exactly that some `[` precedes some `]`. */
  lemma {:induction false} BracketSpanIff(content: string)
    ensures HasBracketSpan(content) <==>
              FirstIndex(content, '[').Some? && LastIndex(content, ']').Some?
              && LastIndex(content, ']').value > FirstIndex(content, '[').value
  {
    var fa := FirstIndex(content, '[');
    var lb := LastIndex(content, ']');
    if fa.Some? && lb.Some? && lb.value > fa.value {
      assert content[fa.value] == '[' && content[lb.value] == ']';
    }
    if HasBracketSpan(content) {
      var i, j :| 0 <= i < j < |content| && content[i] == '[' && content[j] == ']';
      var a := fa.value;
      var b := lb.value;
      assert forall k :: 0 <= k < a ==> content[k] != '[' by {
        forall k | 0 <= k < a ensures content[k] != '[' {
          assert content[..a][k] == content[k];
        }
      }
      assert forall k :: b < k < |content| ==> content[k] != ']' by {
        forall k | b < k < |content| ensures content[k] != ']' {
          assert content[b + 1..][k - b - 1] == content[k];
        }
      }
    }
  }

  /** The extraction cuts out the widest bracketed span, and otherwise
      leaves the text alone. */
  lemma {:induction false} ExtractJsonTextSpec(content: string)
    ensures var r := ExtractJsonText(content);
            HasBracketSpan(content) ==>
              exists a :: 0 <= a && a + |r| <= |content| && r == content[a..a + |r|]
                && |r| >= 2 && r[0] == '[' && r[|r| - 1] == ']'
                && '[' !in content[..a] && ']' !in content[a + |r|..]
    ensures !HasBracketSpan(content) ==> ExtractJsonText(content) == content
  {
    BracketSpanIff(content);
    if HasBracketSpan(content) {
      var r := ExtractJsonText(content);
      var a := FirstIndex(content, '[').value;
      var b := LastIndex(content, ']').value;
      assert r == content[a..b + 1];
      assert r[0] == content[a] && r[|r| - 1] == content[b];
      assert a + |r| == b + 1;
    }
  }

  /** An array surrounded by chatter without brackets is recovered exactly. */
  lemma {:induction false} ExtractFromWrapped(before: string, span: string, after: string)
    requires '[' !in before && ']' !in after
    requires |span| >= 2 && span[0] == '[' && span[|span| - 1] == ']'
    ensures ExtractJsonText(before + span + after) == span
  {
    var s := before + span + after;
    var a := |before|;
    var b := |before| + |span| - 1;
    assert s[a] == '[' && s[b] == ']';
    assert forall k :: 0 <= k < a ==> s[k] != '[' by {
      forall k | 0 <= k < a ensures s[k] != '[' {
        assert s[k] == before[k];
      }
    }
    assert forall k :: b < k < |s| ==> s[k] != ']' by {
      forall k | b < k < |s| ensures s[k] != ']' {
        assert s[k] == after[k - b - 1];
      }
    }
    FirstIndexAt(s, '[', a);
    LastIndexAt(s, ']', b);
    assert s[a..b + 1] == span;
  }

  /** `(aiResponse && typeof aiResponse === 'string') ? aiResponse.trim() : ''` */
  function AiContent(ai: Json): (r: string)
    ensures ai.Str? ==> r == Trim(ai.s)
    ensures !ai.Str? ==> r == ""
  {
    if Truthy(ai) && ai.Str? then Trim(ai.s) else ""
  }

  /** The checks before the AI call, in source order; `None` lets the request through. */
  function GenerateGate(body: Json, hasKey: bool, experiments: set<int>): (r: Option<Reply>)
    ensures !CountRequestAllowed(Get(body, "num_questions")) ==>
              r == Some(Reply(400, Error("num_questions must be between 1 and 20")))
    ensures r.None? <==>
              && CountRequestAllowed(Get(body, "num_questions")) && hasKey
              && ExperimentIdOf(Get(body, "experiment_id")).Some?
              && ExperimentIdOf(Get(body, "experiment_id")).value in experiments
  {
    var expId := ExperimentIdOf(Get(body, "experiment_id"));
    if !CountRequestAllowed(Get(body, "num_questions")) then
      Some(Reply(400, Error("num_questions must be between 1 and 20")))
    else if expId.None? then Some(Reply(400, Error("experiment_id is required and must be a valid numeric id")))
    else if !hasKey then Some(Reply(500, Error("AI service not configured")))
    else if expId.value !in experiments then Some(Reply(404, Error("Experiment not found")))
    else None
  }

  /** What the route makes of the parsed AI reply. */
  function DraftsFrom(parsed: Option<Json>): (r: Reply)
    ensures r.status == 200 ==>
              && parsed.Some? && NonEmptyArray(parsed.value)
              && r.body.Drafts? && Review(Generated, parsed.value.items) == Accepted(r.body.questions)
              && |r.body.questions| == |parsed.value.items| > 0
    ensures parsed.Some? && NonEmptyArray(parsed.value) ==>
              (r.status == 200 <==> forall i :: 0 <= i < |parsed.value.items| ==> WellFormed(Generated, parsed.value.items[i]))
  {
    match parsed
    case None => Reply(500, Error("Failed to parse AI response"))
    case Some(v) =>
      if !NonEmptyArray(v) then
        Reply(500, Error("Invalid AI response format: expected a non-empty JSON array"))
      else
        match Review(Generated, v.items)
        case Rejected(invalid) => Reply(400, InvalidItems("One or more generated questions are invalid", invalid))
        case Accepted(drafts) => Reply(200, Drafts(drafts))
  }

  /** The generation route. `experiments` are the ids the lookup finds, `ai`
      is the reply's message content (`None` when the call or the property
      access throws), `parse` is `JSON.parse` (`None` when it throws). */
  function GenerateQuestions(body: Json, hasKey: bool, experiments: set<int>, ai: Option<Json>,
                             parse: string -> Option<Json>): (r: Reply)
    ensures GenerateGate(body, hasKey, experiments).Some? ==> r == GenerateGate(body, hasKey, experiments).value
    ensures GenerateGate(body, hasKey, experiments).None? && ai.None? ==>
              r == Reply(500, Error("Error generating questions"))
    ensures r.status == 200 <==>
              && GenerateGate(body, hasKey, experiments).None? && ai.Some?
              && var parsed := parse(ExtractJsonText(AiContent(ai.value)));
                 && parsed.Some? && NonEmptyArray(parsed.value)
                 && forall i :: 0 <= i < |parsed.value.items| ==> WellFormed(Generated, parsed.value.items[i])
    ensures r.status == 200 ==>
              && r.body.Drafts? && |r.body.questions| > 0
              && Review(Generated, parse(ExtractJsonText(AiContent(ai.value))).value.items) == Accepted(r.body.questions)
    ensures GenerateGate(body, hasKey, experiments).None? && ai.Some? && parse(ExtractJsonText(AiContent(ai.value))).None? ==>
              r == Reply(500, Error("Failed to parse AI response"))
  {
    match GenerateGate(body, hasKey, experiments)
    case Some(reply) => reply
    case None =>
      if ai.None? then Reply(500, Error("Error generating questions"))
      else DraftsFrom(parse(ExtractJsonText(AiContent(ai.value))))
  }

  /** The body the builder posts when the author confirms the drafts unedited. */
  function ConfirmBody(drafts: seq<CleanQuestion>): (j: Json)
    ensures Get(j, "questions") == Arr(seq(|drafts|, i requires 0 <= i < |drafts| => DraftToJson(drafts[i])))
  {
    var m := map["questions" := Arr(seq(|drafts|, i requires 0 <= i < |drafts| => DraftToJson(drafts[i])))];
    assert "questions" in m;
    Obj(m)
  }

  /** The confirm body carries the drafts so that the batch route's review
      accepts it and recovers exactly the same drafts. */
  lemma {:induction false} ConfirmBodyAccepted(drafts: seq<CleanQuestion>)
    requires forall i :: 0 <= i < |drafts| ==> IsClean(Generated, drafts[i])
    ensures Get(ConfirmBody(drafts), "questions").Arr?
    ensures Review(Batch, Get(ConfirmBody(drafts), "questions").items) == Accepted(drafts)
  {
    var posted := Get(ConfirmBody(drafts), "questions").items;
    forall i | 0 <= i < |drafts|
      ensures WellFormed(Batch, posted[i]) && SanitizedFrom(Batch, posted[i], drafts[i])
    {
      CleanDraftWellFormed(Generated, drafts[i]);
    }
    ReviewAcceptsSanitized(Batch, posted, drafts);
  }

  /** A batch whose items all pass review commits in full when no fault bites. */
  lemma {:induction false} BatchCommits(db: Db, param: string, userId: int, body: Json, clean: seq<CleanQuestion>, out: (Reply, Db))
    requires Consistent(db) && BatchGate(db, param, userId, body) == Ok(clean)
    requires forall i :: 0 <= i < |clean| ==> IsClean(Batch, clean[i])
    requires out == BatchCreate(db, param, userId, body, NoFault)
    ensures out.0 == Reply(201, BatchCreated(|clean|))
    ensures |out.1.questions| == |db.questions| + |clean|
    ensures forall qid :: |db.questions| < qid <= |out.1.questions| ==> Playable(out.1, qid)
  {
    var c := Commit(db, param, clean, NoFault);
    assert out == c;
    assert c.0.status == 201;
    BatchAllPlayable(Batch, db, param, clean, c.1);
  }

  /** Drafts the generator accepted, confirmed unedited through the batch
      route by the quiz's owner with no fault, are all created, each as a
      playable question. */
  lemma {:induction false} GeneratedDraftsStored(items: seq<Json>, drafts: seq<CleanQuestion>, db: Db, param: string, userId: int, out: (Reply, Db))
    requires Review(Generated, items) == Accepted(drafts) && |drafts| > 0
    requires Consistent(db) && Authorise(db, param, userId).Ok?
    requires out == BatchCreate(db, param, userId, ConfirmBody(drafts), NoFault)
    ensures out.0 == Reply(201, BatchCreated(|drafts|))
    ensures |out.1.questions| == |db.questions| + |drafts|
    ensures forall qid :: |db.questions| < qid <= |out.1.questions| ==> Playable(out.1, qid)
  {
    ConfirmedDraftsAccepted(items, drafts);
    BatchCommits(db, param, userId, ConfirmBody(drafts), drafts, out);
  }

  /** A successful generation, confirmed unedited by the quiz's owner with no
      fault, creates every draft it returned, each as a playable question. */
  lemma {:induction false} GenerateThenConfirm(body: Json, hasKey: bool, experiments: set<int>, ai: Option<Json>,
                                               parse: string -> Option<Json>, db: Db, param: string, userId: int,
                                               out: (Reply, Db))
    requires GenerateQuestions(body, hasKey, experiments, ai, parse).status == 200
    requires Consistent(db) && Authorise(db, param, userId).Ok?
    requires out == BatchCreate(db, param, userId, ConfirmBody(GenerateQuestions(body, hasKey, experiments, ai, parse).body.questions), NoFault)
    ensures var n := |GenerateQuestions(body, hasKey, experiments, ai, parse).body.questions|;
            && out.0 == Reply(201, BatchCreated(n))
            && |out.1.questions| == |db.questions| + n
            && forall qid :: |db.questions| < qid <= |out.1.questions| ==> Playable(out.1, qid)
  {
    var r := GenerateQuestions(body, hasKey, experiments, ai, parse);
    GeneratedDraftsStored(parse(ExtractJsonText(AiContent(ai.value))).value.items, r.body.questions, db, param, userId, out);
  }
}

=== FILE: text.dfy ===
/** The JavaScript string primitives the application's logic leans on: `trim`,
    `split` on one character, `indexOf`/`lastIndexOf` of one character,
    ASCII `toLowerCase`, decimal rendering of integers and `parseInt(s, 10)`. */
module Text {
  import opened Wrappers

  /** The characters `String.prototype.trim` removes and `parseInt` skips:
      WhiteSpace and LineTerminator of sections 12.2 and 12.3 of ECMA-262. */
  predicate IsSpace(c: char) {
    || c == '\t' || c == '\n' || c == '\U{000B}' || c == '\U{000C}' || c == '\r' || c == ' '
    || c == '\U{00A0}' || c == '\U{1680}' || ('\U{2000}' <= c <= '\U{200A}')
    || c == '\U{2028}' || c == '\U{2029}' || c == '\U{202F}' || c == '\U{205F}'
    || c == '\U{3000}' || c == '\U{FEFF}'
  }

  predicate AllSpace(s: string) {
    forall i :: 0 <= i < |s| ==> IsSpace(s[i])
  }

  /** Neither end of `s` is white space (vacuously true of the empty string). */
  predicate Tight(s: string) {
    |s| > 0 ==> !IsSpace(s[0]) && !IsSpace(s[|s| - 1])
  }

  /** `s` with its leading white space removed. */
  function TrimStart(s: string): (r: string)
    ensures |r| <= |s|
    ensures |r| > 0 ==> !IsSpace(r[0])
  {
    if |s| > 0 && IsSpace(s[0]) then TrimStart(s[1..]) else s
  }

  /** `s` with its trailing white space removed. */
  function TrimEnd(s: string): (r: string)
    ensures |r| <= |s|
    ensures |r| > 0 ==> !IsSpace(r[|r| - 1])
  {
    if |s| > 0 && IsSpace(s[|s| - 1]) then TrimEnd(s[..|s| - 1]) else s
  }

  /** What `TrimStart` removes is a white-space prefix. */
  lemma {:induction false} TrimStartCuts(s: string)
    ensures TrimStart(s) == s[|s| - |TrimStart(s)|..]
    ensures forall i :: 0 <= i < |s| - |TrimStart(s)| ==> IsSpace(s[i])
  {
    if |s| > 0 && IsSpace(s[0]) {
      TrimStartCuts(s[1..]);
      forall i | 0 < i < |s| - |TrimStart(s)| ensures IsSpace(s[i]) {
        assert s[i] == s[1..][i - 1];
      }
    }
  }

  /** What `TrimEnd` removes is a white-space suffix. */
  lemma {:induction false} TrimEndCuts(s: string)
    ensures TrimEnd(s) == s[..|TrimEnd(s)|]
    ensures forall i :: |TrimEnd(s)| <= i < |s| ==> IsSpace(s[i])
  {
    if |s| > 0 && IsSpace(s[|s| - 1]) {
      TrimEndCuts(s[..|s| - 1]);
    }
  }

  /** Every character of `s` from `lo` up to `hi` is white space. */
  predicate SpaceBetween(s: string, lo: int, hi: int)
    requires 0 <= lo && hi <= |s|
  {
    forall i :: lo <= i < hi ==> IsSpace(s[i])
  }

  /** `r` sits in `s` at offset `a`, with only white space before and after it. */
  predicate Framed(s: string, a: int, r: string) {
    && 0 <= a <= |s| - |r| && r == s[a..a + |r|]
    && SpaceBetween(s, 0, a) && SpaceBetween(s, a + |r|, |s|)
  }

  /** JavaScript's `s.trim()`: the middle of `s` between a white-space prefix and
      a white-space suffix, with neither end white space. */
  function Trim(s: string): (r: string)
    ensures |r| <= |s|
    ensures Tight(r)
  {
    TrimEndCuts(TrimStart(s));
    TrimEnd(TrimStart(s))
  }

  /** What `trim` leaves is framed in the original by white space. */
  lemma {:induction false} TrimSpec(s: string)
    ensures exists a :: Framed(s, a, Trim(s))
  {
    var t := TrimStart(s);
    TrimStartCuts(s);
    TrimEndCuts(t);
    FramedOf(s, |s| - |t|, t, TrimEnd(t));
    assert Framed(s, |s| - |t|, Trim(s));
  }

  /** A white-space prefix cut off, then a white-space suffix: what is left is framed. */
  lemma {:induction false} FramedOf(s: string, a: nat, t: string, r: string)
    requires a <= |s| && t == s[a..] && forall i :: 0 <= i < a ==> IsSpace(s[i])
    requires |r| <= |t| && r == t[..|r|] && forall i :: |r| <= i < |t| ==> IsSpace(t[i])
    ensures Framed(s, a, r)
  {
    SuffixSpace(s, a, t, |r|);
    assert r == s[a..a + |r|];
  }

  /** White space at the end of a suffix is white space at the end of the whole. */
  lemma {:induction false} SuffixSpace(s: string, a: nat, t: string, k: nat)
    requires a <= |s| && t == s[a..] && k <= |t|
    requires forall i :: k <= i < |t| ==> IsSpace(t[i])
    ensures SpaceBetween(s, a + k, |s|)
  {
    forall i | a + k <= i < |s| ensures IsSpace(s[i]) {
      assert s[i] == t[i - a];
    }
  }

  /** The strings JavaScript's `!s.trim()` calls blank: nothing but white
      space (`BlankIffAllSpace` ties the two together). */
  predicate IsBlank(s: string) {
    AllSpace(s)
  }

  /** Trim is determined by its contract: whatever is left between a white-space
      prefix and suffix, when it is empty or tight, is the trimmed string. */
  lemma {:induction false} TrimUnique(p: string, m: string, q: string)
    requires AllSpace(p) && AllSpace(q) && Tight(m)
    ensures Trim(p + m + q) == m
  {
    var s := p + m + q;
    assert s == p + (m + q);
    if |m| == 0 {
      assert s == p + q;
      assert AllSpace(s);
      TrimStartAllSpace(s);
    } else {
      TrimStartOf(p, m + q);
      TrimEndOf(m, q);
    }
  }

  /** White space added around a string does not survive `trim`. */
  lemma {:induction false} TrimPadded(p: string, s: string, q: string)
    requires AllSpace(p) && AllSpace(q)
    ensures Trim(p + s + q) == Trim(s)
  {
    TrimSpec(s);
    var a :| Framed(s, a, Trim(s));
    var m := Trim(s);
    var p', q' := FramedParts(s, a, m);
    AllSpaceConcat(p, p');
    AllSpaceConcat(q', q);
    Regroup(p, p', m, q', q);
    TrimUnique(p + p', m, q' + q);
  }

  /** A framed string splits into its white-space prefix, itself and its white-space suffix. */
  lemma {:induction false} FramedParts(s: string, a: nat, m: string) returns (pre: string, post: string)
    requires Framed(s, a, m)
    ensures s == pre + m + post && AllSpace(pre) && AllSpace(post)
  {
    pre, post := s[..a], s[a + |m|..];
    assert s == pre + m + post;
  }

  lemma {:induction false} Regroup(p: string, x: string, m: string, y: string, q: string)
    ensures p + (x + m + y) + q == (p + x) + m + (y + q)
  {
  }

  lemma {:induction false} AllSpaceConcat(a: string, b: string)
    requires AllSpace(a) && AllSpace(b)
    ensures AllSpace(a + b)
  {
    forall i | 0 <= i < |a + b| ensures IsSpace((a + b)[i]) {
      if i >= |a| {
        assert (a + b)[i] == b[i - |a|];
      }
    }
  }

  lemma {:induction false} TrimStartAllSpace(s: string)
    requires AllSpace(s)
    ensures TrimStart(s) == []
  {
    if |s| > 0 {
      TrimStartAllSpace(s[1..]);
    }
  }

  lemma {:induction false} TrimStartOf(p: string, rest: string)
    requires AllSpace(p)
    requires |rest| > 0 && !IsSpace(rest[0])
    ensures TrimStart(p + rest) == rest
    decreases |p|
  {
    if |p| > 0 {
      assert (p + rest)[1..] == p[1..] + rest;
      TrimStartOf(p[1..], rest);
    } else {
      assert p + rest == rest;
    }
  }

  lemma {:induction false} TrimEndOf(m: string, q: string)
    requires AllSpace(q)
    requires |m| > 0 && !IsSpace(m[|m| - 1])
    ensures TrimEnd(m + q) == m
    decreases |q|
  {
    if |q| > 0 {
      assert (m + q)[..|m + q| - 1] == m + q[..|q| - 1];
      TrimEndOf(m, q[..|q| - 1]);
    } else {
      assert m + q == m;
    }
  }

  /** Trimming leaves a string with no white space at either end as it is. */
  lemma {:induction false} TightIsTrimmed(t: string)
    requires Tight(t)
    ensures Trim(t) == t
  {
    TrimUnique([], t, []);
    assert [] + t + [] == t;
  }

  /** Trimming twice is trimming once. */
  lemma {:induction false} TrimIdempotent(s: string)
    ensures Trim(Trim(s)) == Trim(s)
  {
    TrimUnique([], Trim(s), []);
    assert [] + Trim(s) + [] == Trim(s);
  }

  /** `trim` leaves nothing exactly when every character is white space. */
  lemma {:induction false} BlankIffAllSpace(s: string)
    ensures |Trim(s)| == 0 <==> IsBlank(s)
  {
    if AllSpace(s) {
      AllSpaceTrims(s);
    }
    if |Trim(s)| == 0 {
      TrimSpec(s);
      var a :| Framed(s, a, Trim(s));
    }
  }

  lemma {:induction false} AllSpaceTrims(s: string)
    requires AllSpace(s)
    ensures Trim(s) == []
  {
    TrimUnique(s, [], []);
    assert s + [] + [] == s;
  }

  /** Index of the first occurrence of `c` in `s` (`indexOf`; `None` is -1). */
  function FirstIndex(s: string, c: char): (r: Option<nat>)
    ensures r.None? <==> c !in s
    ensures r.Some? ==> r.value < |s| && s[r.value] == c && c !in s[..r.value]
  {
    if |s| == 0 then None
    else if s[0] == c then Some(0)
    else match FirstIndex(s[1..], c)
      case None => None
      case Some(i) =>
        assert s[..i + 1] == [s[0]] + s[1..][..i];
        Some(i + 1)
  }

  /** Index of the last occurrence of `c` in `s` (`lastIndexOf`; `None` is -1). */
  function LastIndex(s: string, c: char): (r: Option<nat>)
    ensures r.None? <==> c !in s
    ensures r.Some? ==> r.value < |s| && s[r.value] == c && c !in s[r.value + 1..]
  {
    if |s| == 0 then None
    else if s[|s| - 1] == c then Some(|s| - 1)
    else
      var r := LastIndex(s[..|s| - 1], c);
      assert s == s[..|s| - 1] + [s[|s| - 1]];
      if r.Some? then
        assert s[r.value + 1..] == s[..|s| - 1][r.value + 1..] + [s[|s| - 1]];
        r
      else r
  }

  /** The first occurrence is the one with no earlier occurrence. */
  lemma {:induction false} FirstIndexAt(s: string, c: char, a: nat)
    requires a < |s| && s[a] == c
    requires forall k :: 0 <= k < a ==> s[k] != c
    ensures FirstIndex(s, c) == Some(a)
  {
    var r := FirstIndex(s, c).value;
    forall k | 0 <= k < r ensures s[k] != c {
      assert s[..r][k] == s[k];
    }
  }

  /** The last occurrence is the one with no later occurrence. */
  lemma {:induction false} LastIndexAt(s: string, c: char, b: nat)
    requires b < |s| && s[b] == c
    requires forall k :: b < k < |s| ==> s[k] != c
    ensures LastIndex(s, c) == Some(b)
  {
    var r := LastIndex(s, c).value;
    forall k | r < k < |s| ensures s[k] != c {
      assert s[r + 1..][k - r - 1] == s[k];
    }
  }

  /** JavaScript's `s.split(sep)` for a one-character separator. */
  function Split(s: string, sep: char): (parts: seq<string>)
    ensures |parts| >= 1
    ensures forall i :: 0 <= i < |parts| ==> sep !in parts[i]
    decreases |s|
  {
    match FirstIndex(s, sep)
    case None => [s]
    case Some(k) => [s[..k]] + Split(s[k + 1..], sep)
  }

  /** JavaScript's `parts.join(sep)`. */
  function Join(parts: seq<string>, sep: char): string
  {
    if |parts| == 0 then []
    else if |parts| == 1 then parts[0]
    else parts[0] + [sep] + Join(parts[1..], sep)
  }

  /** Joining the pieces of a split gives back the original text. */
  lemma {:induction false} JoinSplit(s: string, sep: char)
    ensures Join(Split(s, sep), sep) == s
    decreases |s|
  {
    match FirstIndex(s, sep)
    case None =>
    case Some(k) =>
      var rest := Split(s[k + 1..], sep);
      JoinSplit(s[k + 1..], sep);
      assert Split(s, sep) == [s[..k]] + rest;
      assert s == s[..k] + [sep] + s[k + 1..];
  }

  /** Splitting a join gives back the pieces, when no piece holds the separator. */
  lemma {:induction false} SplitJoin(parts: seq<string>, sep: char)
    requires |parts| >= 1
    requires forall i :: 0 <= i < |parts| ==> sep !in parts[i]
    ensures Split(Join(parts, sep), sep) == parts
  {
    if |parts| == 1 {
      assert Join(parts, sep) == parts[0];
    } else {
      var head := parts[0];
      var tail := Join(parts[1..], sep);
      var s := head + [sep] + tail;
      assert Join(parts, sep) == s;
      FirstIndexAfter(head, sep, tail);
      SplitAt(head, sep, tail);
      SplitJoin(parts[1..], sep);
      assert parts == [head] + parts[1..];
    }
  }

  lemma {:induction false} SplitAt(head: string, sep: char, tail: string)
    requires FirstIndex(head + [sep] + tail, sep) == Some(|head|)
    ensures Split(head + [sep] + tail, sep) == [head] + Split(tail, sep)
  {
    var s := head + [sep] + tail;
    assert s[..|head|] == head;
    assert s[|head| + 1..] == tail;
  }

  lemma {:induction false} FirstIndexAfter(a: string, c: char, b: string)
    requires c !in a
    ensures FirstIndex(a + [c] + b, c) == Some(|a|)
  {
    var s := a + [c] + b;
    if |a| > 0 {
      assert s[0] == a[0];
      assert s[1..] == a[1..] + [c] + b;
      FirstIndexAfter(a[1..], c, b);
    }
  }

  /** When the text does not end with the separator, its last piece is not
      empty and ends with the text's last character. */
  lemma {:induction false} SplitLastEnds(s: string, sep: char, parts: seq<string>)
    requires |s| > 0 && s[|s| - 1] != sep && parts == Split(s, sep)
    ensures |parts[|parts| - 1]| > 0 && parts[|parts| - 1][|parts[|parts| - 1]| - 1] == s[|s| - 1]
    decreases |s|
  {
    match FirstIndex(s, sep)
    case None =>
    case Some(k) =>
      var t := s[k + 1..];
      assert k < |s| - 1;
      assert t[|t| - 1] == s[|s| - 1];
      var tail := Split(t, sep);
      SplitLastEnds(t, sep, tail);
      assert parts == [s[..k]] + tail;
      assert parts[|parts| - 1] == tail[|tail| - 1];
  }

  /** A string whose last character is not white space is not blank. */
  lemma {:induction false} NotBlankAtEnd(s: string)
    requires |s| > 0 && !IsSpace(s[|s| - 1])
    ensures !IsBlank(s)
  {
    BlankIffAllSpace(s);
  }

  /** A join ends with its last piece. */
  lemma {:induction false} JoinEnds(parts: seq<string>, sep: char)
    requires |parts| >= 1
    ensures |Join(parts, sep)| >= |parts[|parts| - 1]|
    ensures Join(parts, sep)[|Join(parts, sep)| - |parts[|parts| - 1]|..] == parts[|parts| - 1]
  {
    if |parts| > 1 {
      JoinEnds(parts[1..], sep);
      var j := Join(parts, sep);
      var t := Join(parts[1..], sep);
      assert j == parts[0] + [sep] + t;
      assert j[|j| - |t|..] == t;
    }
  }

  /** A join starts with its first piece. */
  lemma {:induction false} JoinStarts(parts: seq<string>, sep: char)
    requires |parts| >= 1
    ensures |Join(parts, sep)| >= |parts[0]| && Join(parts, sep)[..|parts[0]|] == parts[0]
  {
  }

  /** `s.length`: JavaScript counts UTF-16 code units, so a character
      outside the Basic Multilingual Plane (above U+FFFF) counts twice. */
  function Utf16Length(s: string): (n: nat)
    ensures |s| <= n <= 2 * |s|
  {
    if |s| == 0 then 0 else Utf16Length(s[..|s| - 1]) + (if s[|s| - 1] as int > 0xFFFF then 2 else 1)
  }

  /** The UTF-16 length of a concatenation is the sum of the parts'. */
  lemma {:induction false} Utf16LengthAppend(a: string, b: string)
    ensures Utf16Length(a + b) == Utf16Length(a) + Utf16Length(b)
    decreases |b|
  {
    if |b| == 0 {
      assert a + b == a;
    } else {
      assert (a + b)[..|a + b| - 1] == a + b[..|b| - 1];
      Utf16LengthAppend(a, b[..|b| - 1]);
    }
  }

  /** Within the Basic Multilingual Plane the two lengths agree. */
  lemma {:induction false} Utf16LengthBmp(s: string)
    requires forall i :: 0 <= i < |s| ==> s[i] as int <= 0xFFFF
    ensures Utf16Length(s) == |s|
  {
    if |s| > 0 {
      Utf16LengthBmp(s[..|s| - 1]);
    }
  }

  /** ASCII `toLowerCase` of one character. */
  function LowerChar(c: char): char {
    if 'A' <= c <= 'Z' then (c as int + 32) as char else c
  }

  /** `toLowerCase` restricted to the ASCII letters. It is applied only to
      compare header names with "name", "email" and "password". The only
      non-ASCII characters whose lower case involves ASCII are U+0130 and
      U+212A. U+0130 lower-cases to two characters, "i" followed by U+0307,
      so a header holding it never equals one of the three names. U+212A,
      the Kelvin sign, lower-cases to "k", which none of the names contains. */
  function ToLower(s: string): (r: string)
    ensures |r| == |s|
    ensures forall i :: 0 <= i < |s| ==> r[i] == LowerChar(s[i])
  {
    seq(|s|, i requires 0 <= i < |s| => LowerChar(s[i]))
  }

  predicate IsDigit(c: char) {
    '0' <= c <= '9'
  }

  predicate AllDigits(s: string) {
    forall i :: 0 <= i < |s| ==> IsDigit(s[i])
  }

  function DigitChar(d: nat): (c: char)
    requires d < 10
    ensures IsDigit(c)
  {
    ('0' as int + d) as char
  }

  function DigitValue(c: char): (d: nat)
    requires IsDigit(c)
    ensures d < 10 && DigitChar(d) == c
  {
    c as int - '0' as int
  }

  /** The value of a string of decimal digits, most significant first. */
  function DigitsValue(s: string): nat
    requires AllDigits(s)
  {
    if |s| == 0 then 0 else DigitsValue(s[..|s| - 1]) * 10 + DigitValue(s[|s| - 1])
  }

  /** The decimal rendering JavaScript gives a non-negative integer. */
  function NatToString(n: nat): (s: string)
    ensures |s| >= 1 && AllDigits(s)
    ensures |s| > 1 ==> s[0] != '0'
  {
    if n < 10 then [DigitChar(n)] else NatToString(n / 10) + [DigitChar(n % 10)]
  }

  /** The decimal rendering JavaScript gives an integer (`String(n)`, template literals). */
  function IntToString(i: int): string {
    if i < 0 then "-" + NatToString(-i) else NatToString(i)
  }

  /** The rendering of an integer is a sign-or-digit followed by digits. */
  lemma {:induction false} IntToStringShape(i: int)
    ensures var s := IntToString(i);
            |s| > 0 && Tight(s) && (s[0] == '-' <==> i < 0)
            && (i < 0 ==> s[1..] == NatToString(-i))
            && (i >= 0 ==> s == NatToString(i))
  {
    var s := IntToString(i);
    if i < 0 {
      assert s[1..] == NatToString(-i);
      assert IsDigit(s[|s| - 1]);
    } else {
      assert IsDigit(s[0]);
    }
  }

  lemma {:induction false} NatToStringValue(n: nat)
    ensures DigitsValue(NatToString(n)) == n
  {
    if n >= 10 {
      var s := NatToString(n);
      NatToStringValue(n / 10);
      assert s[..|s| - 1] == NatToString(n / 10);
    }
  }

  /** The longest prefix of `s` made of decimal digits. */
  function DigitPrefix(s: string): (r: string)
    ensures |r| <= |s| && r == s[..|r|] && AllDigits(r)
    ensures |r| < |s| ==> !IsDigit(s[|r|])
  {
    if |s| > 0 && IsDigit(s[0]) then
      var r := DigitPrefix(s[1..]);
      assert [s[0]] + r == s[..|r| + 1];
      [s[0]] + r
    else []
  }

  /** The value of the leading run of digits of `s`; `None` when there is none. */
  function ReadDigits(s: string): (r: Option<nat>)
    ensures r.Some? <==> |s| > 0 && IsDigit(s[0])
  {
    var digits := DigitPrefix(s);
    if |digits| == 0 then None else Some(DigitsValue(digits))
  }

  /** `parseInt` after the white space: an optional sign, then the digits. */
  function ParseSigned(t: string): (r: Option<int>)
  {
    if |t| > 0 && t[0] == '-' then
      match ReadDigits(t[1..])
      case None => None
      case Some(v) => Some(0 - v)
    else if |t| > 0 && t[0] == '+' then ReadDigits(t[1..])
    else ReadDigits(t)
  }

  /** JavaScript's `parseInt(s, 10)`: skip leading white space, read an optional
      sign and the longest run of digits; `None` stands for `NaN`. */
  function ParseInt(s: string): (r: Option<int>)
  {
    ParseSigned(TrimStart(s))
  }

  /** `parseInt` reads back what `String` wrote, and ignores whatever follows a
      non-digit: `parseInt("12abc") == 12`. */
  lemma {:induction false} ParseIntOfIntToString(i: int, rest: string)
    requires |rest| > 0 ==> !IsDigit(rest[0])
    ensures ParseInt(IntToString(i) + rest) == Some(i)
  {
    var n: nat := if i < 0 then -i else i;
    var ds := NatToString(n);
    NatToStringValue(n);
    DigitPrefixOf(ds, rest);
    ReadDigitsOf(ds, rest);
    if i < 0 {
      ParseIntAfterMinus(ds + rest);
      assert IntToString(i) + rest == "-" + (ds + rest);
    } else {
      ParseIntOfDigits(ds + rest);
      assert IntToString(i) + rest == ds + rest;
    }
  }

  /** Digits followed by a non-digit read as the digits' value. */
  lemma {:induction false} ReadDigitsOf(ds: string, rest: string)
    requires |ds| > 0 && AllDigits(ds)
    requires DigitPrefix(ds + rest) == ds
    ensures ReadDigits(ds + rest) == Some(DigitsValue(ds))
  {
  }

  lemma {:induction false} ParseIntOfDigits(s: string)
    requires |s| > 0 && IsDigit(s[0])
    ensures ParseInt(s) == ReadDigits(s)
  {
    StartsTight(s);
  }

  lemma {:induction false} ParseIntAfterMinus(s: string)
    requires |s| > 0 && IsDigit(s[0])
    ensures ParseInt("-" + s) == Some(0 - ReadDigits(s).value)
  {
    var t := "-" + s;
    StartsTight(t);
    assert t[1..] == s;
  }

  /** A string starting with a sign or a digit has no leading white space. */
  lemma {:induction false} StartsTight(s: string)
    requires |s| > 0 && (s[0] == '-' || IsDigit(s[0]))
    ensures TrimStart(s) == s
  {
    assert !IsSpace(s[0]);
  }

  lemma {:induction false} DigitPrefixOf(ds: string, rest: string)
    requires AllDigits(ds)
    requires |rest| > 0 ==> !IsDigit(rest[0])
    ensures DigitPrefix(ds + rest) == ds
  {
    if |ds| > 0 {
      assert (ds + rest)[0] == ds[0];
      assert (ds + rest)[1..] == ds[1..] + rest;
      DigitPrefixOf(ds[1..], rest);
      assert ds == [ds[0]] + ds[1..];
    } else {
      assert ds + rest == rest;
    }
  }
}

=== FILE: wrappers.dfy ===
/** Failure-carrying result types shared by every module of the model. */
module Wrappers {

  /** A value that may be absent: JavaScript's `undefined`/`null` or a missing row. */
  datatype Option<+T> = None | Some(value: T) {
    function GetOr(default: T): T {
      match this
      case Some(v) => v
      case None => default
    }
  }

  /** Either a value or an error, for code paths that throw or return an error response. */
  datatype Result<+T, +E> = Ok(value: T) | Err(error: E)
}
